=== FILE: README.md ===
# fxp2 core in Dafny

A model of the game library `fxplib.py` of fxp2 (a Python 2 / pygame
platform game), and of the two small handlers of its master-server
protocol, with proofs of what the code does.

- **Scene tree and signals.** `Object` is a named tree of children.
  - `add_child` keeps the first child under a name.
  - `get_child` resolves a `/` path one segment at a time.
  - `get_sorted_children` orders the children by `z`.
  - Signals are added, connected and emitted by name.
  - `Signal` queues the truthy responses of `activate`. `execute` replays every callback once per queued response, or once with `None`.
  - `execute_signals`, `update_focus` and `update_state` walk the tree on the heap. Each is proved against a function on a recorded copy of the heap.
- **Vectors and forces.**
  - `Vector` addition snaps components inside ±0.0001 to zero.
  - `MovingObject` adds constant and one-shot forces into its velocity and moves by it.
  - `Background.move` wraps a scrolling background back by half its size.
  - `Camera.move_all` scrolls the camera's children with a parallax factor.
- **World pass.** `World.move_all` runs, in order:
  - the force pass;
  - the environment generators;
  - the broad phase, which lists solid objects at absolute positions;
  - the narrow phase, which pops the last entry and tests it against the rest;
  - `do_collide`, which applies the collision generators and emits `collide`;
  - the integration pass.
  - `simple_repulsion` is the built-in collision generator.
- **Tile map.**
  - `load_from_file` decodes the FXP byte format (magic, version, tileset names, run-length rows).
  - `get_tile`/`set_tile`/`get_rule` read and write the cell grid.
  - `update_collisions` merges solid cells greedily into hitboxes.
  - `Tileset` picks tiles by position and by neighbour rule.
  - `Color`/`Palette` look up colours.
- **Protocol.**
  - `Client.handle` of `test_server.py` turns a request line into the datagram sent back.
  - `parse_command` and the per-line loop of `test_client.py` turn typed lines into requests.

Modules, one per file: `Wrappers` (Option, Result and Python exceptions),
`PyNumbers`, `Containers` (dictionaries as lists of unique-keyed pairs in
insertion order), `Vectors`, `Frames`, `Signals`, `Objects` (the heap
object `Obj` and the per-object operations), `Scene` (tree passes),
`Physics` (`move_all` passes and the world), `Collision`
(rectangles and `simple_repulsion`), `Tilesets`, `Palettes`, `MapGrids`,
`MapFiles` (the file format), `MapCollisions` (`update_collisions`),
`TileMaps` (the `Map` class), `Text` (`split`, `strip`, `str`), `Server`,
`Client`.

Quirks of the code that the model follows:

- **`collide` is emitted once per overlapping hitbox pair**, not once per matching registration. Its response carries the last generated vector (fxplib.py:1097-1099).
- **A solid world is listed at twice its own position.** The broad phase starts from the world's position and adds it again (fxplib.py:1102, fxplib.py:1069-1071).
- **`update_collisions` grows the bottom row before the right column** in each round. After a rectangle the cursor moves one cell, not past the rectangle: `w` is reset to 1 before `tile_x += w` (fxplib.py:954-999).
- **A cell outside the grid reads as id 0**, which names `header[0]`; it is not necessarily the void (fxplib.py:863-873).
- **`activate` queues only a truthy response** (fxplib.py:136).
- **Camera scrolling with no target or no children raises.**
  - An active camera scrolls its children even without a target. It raises when it reads `target.z`.
  - The spread of priorities is read before the emptiness test, so a camera with no children raises `IndexError` (fxplib.py:704-710).

## Model

| member | source | states |
|---|---|---|
| PyNumbers.FloorDivBounds | fxplib.py:1709-1715 | Python 2 `/` on ints rounds toward negative infinity: for either sign of the divisor the quotient times the divisor is within one divisor of the dividend |
| PyNumbers.Half | fxplib.py:452-453 | `w/2` of an int size is the half rounded down: `2r <= w <= 2r+1` |
| Collision.RealAbs | fxplib.py:1720-1721 | `abs` is non-negative and is the value or its negation |
| PyNumbers.Max | fxplib.py:851 | `max` of a non-empty list is one of its elements and bounds all of them |
| Containers.PyIndex | fxplib.py:947 | list indexing succeeds exactly for `-len <= i < len`, gives `s[i]` for a non-negative index and raises `IndexError` otherwise |
| Containers.Find | fxplib.py:55 | the position of a key is the first entry with that key, and there is none exactly when no entry has the key |
| Containers.Subscript | fxplib.py:950 | `d[k]` succeeds exactly when the key is present, with the value stored under it, and raises `KeyError` otherwise |
| Containers.PutGet | fxplib.py:917 | after `d[k] = v`, `d[k]` is `v`, every other key keeps its value and keys stay distinct |
| Containers.FindAppend | fxplib.py:1577-1578 | registering a pair at the end keeps the position of a key already present and makes a new key found at the end |
| Vectors.Snap | fxplib.py:169-173 | a component strictly inside (-0.0001, 0.0001) becomes exactly 0, any other is unchanged, so no result lies inside the band but 0 |
| Vectors.Add | fxplib.py:165-177 | `a + b` is a fresh anonymous enabled vector whose components are the sums, each snapped to 0 inside the band |
| Vectors.Neg | fxplib.py:179-184 | `-v` is a fresh enabled vector whose components cancel those of `v`, without snapping |
| Vectors.Scale | fxplib.py:186-193 | `v * k` is a fresh enabled vector with both components multiplied by `k`, without snapping |
| Vectors.AddCommutative | fxplib.py:165-177 | addition is commutative |
| Vectors.AddNegIsZero | fxplib.py:165-184 | `v + (-v)` is the zero vector |
| Vectors.AddZeroSnaps | fxplib.py:165-177 | adding the zero vector keeps each component except one inside the band, which collapses to 0 |
| Vectors.AddIdempotentSnap | fxplib.py:165-177 | a sum is a fixed point of adding zero: snapping twice is snapping once |
| Frames.NextIndex | fxplib.py:591-593 | the index after `next()` stays inside the animation |
| Frames.AfterModulo | fxplib.py:590-596 | `k` calls of `next()` from a valid index land on `(i + k) mod n` |
| Frames.AfterQuotient | fxplib.py:590-596 | `k` steps from `i` are some number of whole turns plus the index reached |
| Frames.Periodic | fxplib.py:590-596 | after as many steps as the animation has, the index is back where it started |
| Frames.Frame.constructor | fxplib.py:582-588 | a new frame shows the first step of a non-empty animation, with its delay and rect |
| Frames.Frame.Next | fxplib.py:590-596 | `next()` moves to the following step, wrapping after the last, and `delay` and `rect` follow the index |
| Signals.Play | fxplib.py:144-146 | `play(response)` calls every callback once, in registration order, with the owner, the response and its data |
| Signals.Dispatch | fxplib.py:144-152 | defines the calls of `execute` on an activated signal: `len(functions) * max(1, len(responses))` calls, each made with the signal's owner |
| Signals.Executed | fxplib.py:142-155 | defines the calls of `execute` in any state: none for an inactive signal or one without callbacks, and every call made with the owner |
| Signals.KeptResponses | fxplib.py:134-137 | only truthy responses are queued, and only responses given |
| Signals.Signal.constructor | fxplib.py:128-132 | a new signal has no callback, no response and is not activated |
| Signals.Signal.Activate | fxplib.py:134-137 | `activate(b, r)` sets the flag to `b` and appends `r` exactly when it is truthy |
| Signals.Signal.AddFunction | fxplib.py:139-140 | `add_function` appends the callback and touches nothing else |
| Signals.Signal.Execute | fxplib.py:142-155 | `execute` performs exactly the calls of the dispatch (none when inactive) and leaves the signal idle with an empty queue |
| Signals.PlayAllAt | fxplib.py:144-150 | the dispatch has `len(responses) * len(functions)` calls, call `i * len(functions) + j` being callback `j` with response `i`: responses outer, callbacks inner, both in order |
| Signals.PlayAllLength | fxplib.py:148-150 | one block of calls per queued response |
| Signals.DispatchCount | fxplib.py:142-155 | an activated signal makes `len(functions) * max(1, len(responses))` calls, an inactive one none |
| Signals.ExecuteIdempotent | fxplib.py:142-155 | after `execute` the signal is inactive, and a second `execute` makes no call and changes nothing |
| Signals.ActivateAllQueues | fxplib.py:134-137 | emitting a series of responses queues exactly the truthy ones in order, keeps the flag raised and never changes the callbacks |
| Objects.FindNamed | fxplib.py:77-79 | a lookup by name gives the first element with that name, and there is one exactly when some element has it |
| Objects.FindNamedAppend | fxplib.py:616-626 | appending an element keeps every name already found and makes a new name found as that element |
| Objects.FindSignal | fxplib.py:77-79 | the signal found has the name asked for, and there is one exactly when some signal has that name |
| Objects.FindVector | fxplib.py:620-622 | the vector found has the name asked for, and there is one exactly when some vector has that name |
| Objects.AddVectorFirstWins | fxplib.py:616-618 | registering a vector under a taken name keeps the first one; under a new name it is found; other names are unaffected |
| Objects.FindVectorAppend | fxplib.py:616-618 | a vector appended is found only when no earlier vector has its name |
| Objects.Push | fxplib.py:632-634 | `apply_vector` leaves the velocity as it is for a disabled vector and adds an enabled one |
| Objects.PushAll | fxplib.py:637-641 | applying vectors in turn keeps a velocity present, and applying only disabled vectors changes nothing |
| Objects.PushAllAppend | fxplib.py:636-641 | applying a concatenation is applying its first part, then its second |
| Objects.Enabled | fxplib.py:633 | the vectors that reach the velocity are enabled vectors of the list |
| Objects.PushAllEnabled | fxplib.py:632-641 | applying a list is applying its enabled vectors alone |
| Objects.AppliedAllOnce | fxplib.py:636-642 | `apply_all_vectors` changes only the velocity and the temp vectors, keeps the const vectors, empties the temp vectors, and a second call adds the const vectors again but no temp vector |
| Objects.MovedDisplacement | fxplib.py:644-656 | `move` leaves a fixed object, or one with no or a disabled vector, untouched; otherwise it adds exactly the vector's components and raises `force` |
| Objects.MoveThenBack | fxplib.py:644-656 | moving by a vector and then by its negation restores the position |
| Objects.WrapShiftsOnce | fxplib.py:762-784 | the wrap-around moves a coordinate by at most one half-size, opposite to the motion |
| Objects.WrapBand | fxplib.py:762-772 | one axis of the wrap-around keeps a coordinate in `[-half, 0]` for steps of at most `half` |
| Objects.WrapKeepsBand | fxplib.py:756-772 | a horizontally scrolling background with `x` in `[-w/2, 0]` stays there after any `move` by at most half its width |
| Objects.ClickOnRelease | fxplib.py:495-505 | `click` is emitted exactly on a release over an object that was CLICKED; an INACTIVE object keeps its state; losing focus gives IDLE; CLICKED exactly when focused and pressed |
| Objects.PressedIffSomeButton | fxplib.py:492 | `max(*mouse_but)` is true exactly when some button is down |
| Objects.RectOf | fxplib.py:408-416 | `get_rect` raises `ZeroDivisionError` exactly for a grid size of 0 |
| Objects.PosRoundTrip | fxplib.py:418-431 | `get_pos` after `set_pos` on the same grid gives the position back and leaves the size alone |
| Objects.SizeRoundTrip | fxplib.py:433-446 | `get_size` after `set_size` on the same grid gives the size back and leaves the position alone |
| Objects.RectRoundTrip | fxplib.py:398-416 | `get_rect` after `set_rect` on the same grid gives the rectangle back |
| Objects.CenterOf | fxplib.py:451-453 | the centre is half the size on each axis, rounded down |
| Objects.AimedCentres | fxplib.py:679-687 | moving the target by the camera's new velocity puts the target's centre on the camera's centre |
| Objects.Parallax | fxplib.py:701-702 | the parallax factor is 1 at the target's depth, above 1 for children behind it and below 1 for children in front |
| Objects.Obj.constructor | fxplib.py:218-259 | a new object has the initial attributes of its class and fresh, idle signals named as its class registers them |
| Objects.Obj.AddSignal | fxplib.py:73-75 | `add_signal` keeps the signal of a name already present, otherwise appends a fresh idle signal of that name |
| Objects.Obj.ConnectSignal | fxplib.py:81-83 | `connect_signal` appends the callback to the named signal only, and does nothing for an unknown name |
| Objects.Obj.EmitSignal | fxplib.py:85-87 | `emit_signal` activates the named signal with the response only, and does nothing for an unknown name |
| Objects.Obj.MakeMovable | fxplib.py:613-614 | `make_movable` sets a zero velocity named "move" and nothing else |
| Objects.Obj.AddConstVector | fxplib.py:616-618 | `add_const_vector` registers under the first-wins rule and changes nothing else |
| Objects.Obj.AddTempVector | fxplib.py:624-626 | `add_temp_vector` registers under the first-wins rule and changes nothing else |
| Objects.Obj.ApplyVector | fxplib.py:632-634 | `apply_vector` changes only the velocity, as `Push` gives it |
| Objects.Obj.ApplyEach | fxplib.py:637-641 | the loop of `apply_all_vectors` over one dictionary changes only the velocity, as `PushAll` gives it |
| Objects.Obj.ApplyAllVectors | fxplib.py:636-642 | `apply_all_vectors` applies the const vectors, then the temp vectors, then drops the temp vectors |
| Objects.Obj.Move | fxplib.py:644-656 | `move` changes the attributes as `Moved` gives them, the wrap-around included for a background |
| Objects.Obj.WrapAround | fxplib.py:759-784 | the scrolling part of `Background.move` shifts each scrolling axis as `Wrapped` gives it |
| Objects.Obj.UpdateVector | fxplib.py:679-687 | `update_vector` sets the velocity to the camera centre minus the target's position and centre |
| Objects.Obj.SetState | fxplib.py:393-396 | `set_state` changes the state, and raises `force` only on a change |
| Objects.Obj.Flip | fxplib.py:365-391 | `flip` toggles or sets one mirroring flag, keeps the other and raises `force` |
| Objects.Obj.SetRect | fxplib.py:398-406 | `set_rect` stores the rectangle scaled by the grid |
| Objects.Obj.SetPos | fxplib.py:418-426 | `set_pos` stores the position scaled by the grid and raises `force` |
| Objects.Obj.SetSize | fxplib.py:433-441 | `set_size` stores the size scaled by the grid and raises `force` |
| Objects.Obj.CheckFocus | fxplib.py:467-475 | `check_focus` sets `focused` exactly for a mouse inside the half-open rectangle and changes nothing else |
| Objects.Obj.UpdateOwnState | fxplib.py:491-505 | the own part of `update_state` sets the next state and activates `click` (with no response) only on a release after CLICKED, and no other signal |
| Objects.Obj.Open | fxplib.py:1329-1332 | `open` shows a hidden window and marks it opened; a shown window is unchanged |
| Objects.Obj.Close | fxplib.py:1334-1337 | `close` hides a shown window and marks it closed; a hidden window is unchanged |
| Objects.Obj.Switch | fxplib.py:1339-1343 | `switch` closes an opened window and opens any other; when `display` and `opened` agree it flips both |
| Scene.FindChildIndex | fxplib.py:55-56 | the index found is that of the first child with the name, and there is one exactly when a child has it |
| Scene.FindChild | fxplib.py:67-71 | `objects[name]` is a child with that name, and `None` exactly when no child has it |
| Scene.AddChild | fxplib.py:54-56 | `add_child` keeps the node's object |
| Scene.AddChildFirstWins | fxplib.py:54-56 | `add_child` never replaces a child, keeps names unique, and the name resolves to the first child registered under it |
| Scene.Partition | fxplib.py:63 | `partition("/")` gives the text before the first slash, with no slash in it, and the text after it; no slash gives the whole path and an empty rest |
| Scene.SplitAtFirstSlash | fxplib.py:63 | partitioning `a + "/" + b` at its first slash gives back `a` and `b` when `a` has no slash |
| Scene.GetChildWalks | fxplib.py:62-71 | a path of non-empty slash-free names resolves as the walk along those names, `None` at the first name missing |
| Scene.GetChildMissStops | fxplib.py:62-71 | a missing first name makes the whole path miss, whatever follows it |
| Scene.GetChild | fxplib.py:62-71 | defines `get_child`: `None` when the first segment is not a child, and the child itself for a path of one segment |
| Scene.Prioritised | fxplib.py:58-60 | each child paired with its current `z` |
| Scene.InsertByZ | fxplib.py:60 | insertion adds exactly one entry |
| Scene.InsertKeepsSorted | fxplib.py:60 | inserting an entry into entries in non-decreasing `z` keeps them in non-decreasing `z` |
| Scene.SortByZ | fxplib.py:58-60 | sorting returns exactly the entries given (stability is not stated) |
| Scene.SortByZSorted | fxplib.py:58-60 | the sorted children are in non-decreasing `z` and are a permutation of the children |
| Scene.SortedEnds | fxplib.py:704-705 | the first and last sorted children hold the least and the greatest `z` |
| Scene.SortedChildren | fxplib.py:58-60 | `get_sorted_children` on the heap returns the children sorted by their current `z` |
| Scene.ExecAll | fxplib.py:94-95 | executing a list of signals keeps the set of recorded signals |
| Scene.ExecTree | fxplib.py:90-95 | `execute_signals` keeps the set of recorded signals |
| Scene.ExecForest | fxplib.py:91-92 | the children loop keeps the set of recorded signals |
| Scene.ExecAllResets | fxplib.py:94-95 | executing signals only resets signals, leaves each inactive, and on inactive signals makes no call |
| Scene.ExecTreeResets | fxplib.py:90-95 | `execute_signals` only resets signals, leaves every signal of the subtree inactive, and makes no call on a quiet subtree |
| Scene.ExecForestResets | fxplib.py:91-92 | the same for each child subtree of the loop |
| Scene.ExecuteSignalsTwice | fxplib.py:90-95 | a second `execute_signals` right after the first makes no call and changes nothing |
| Scene.ExecuteSignals | fxplib.py:90-95 | `execute_signals` on the heap makes the calls of `ExecTree`, children first, and leaves the signals as it gives them |
| Scene.ExecuteOwn | fxplib.py:94-95 | the loop over the node's own signals makes the calls of `ExecAll` and leaves the signals as it gives them |
| Scene.ExecuteOne | fxplib.py:95 | one `signal.execute(owner)` makes the calls of `Executed` and resets the signal |
| Scene.Relative | fxplib.py:484-485 | the mouse made relative to an object plus the object's position is the mouse |
| Scene.FocusTree | fxplib.py:478-488 | `update_focus` keeps the set of recorded objects |
| Scene.FocusForest | fxplib.py:487-488 | the children loop keeps the set of recorded objects |
| Scene.UpdateFocus | fxplib.py:478-488 | `update_focus` on the heap leaves the objects as `FocusTree` gives them |
| Scene.FocusChildren | fxplib.py:487-488 | the children loop on the heap leaves the objects as `FocusForest` gives them |
| Scene.Inspect | fxplib.py:479 | reads whether an object is an image and whether it is displayed |
| Scene.Offset | fxplib.py:484-485 | the mouse read from the heap relative to an object is `Relative` of its recorded state |
| Scene.FocusOne | fxplib.py:481 | `check_focus` on the heap leaves the object as `Focused` gives it |
| Scene.FocusOnlyFocus | fxplib.py:478-488 | `update_focus` changes nothing but focus flags |
| Scene.FocusForestOnlyFocus | fxplib.py:487-488 | the children loop changes nothing but focus flags |
| Scene.OwnState | fxplib.py:495-505 | the own step of `update_state` keeps the recorded objects and signals |
| Scene.Clicks | fxplib.py:500-501 | emitting `click` keeps the recorded signals |
| Scene.StateTree | fxplib.py:491-509 | `update_state` keeps the recorded objects and signals |
| Scene.StateForest | fxplib.py:508-509 | the children loop keeps the recorded objects and signals |
| Scene.UpdateState | fxplib.py:491-509 | `update_state` on the heap leaves objects and signals as `StateTree` gives them, with `clicked = max(*mouse_but)` |
| Scene.StateChildren | fxplib.py:508-509 | the children loop on the heap leaves objects and signals as `StateForest` gives them |
| Scene.StateChild | fxplib.py:508-509 | one round of the loop extends `StateForest` by one child |
| Scene.StateOne | fxplib.py:495-505 | the own step on the heap leaves the object and signals as `OwnState` gives them |
| Scene.OwnStep | fxplib.py:495-505 | the own step sets the next state and emits `click` as `Clicks` gives it |
| Scene.WiredKept | fxplib.py:491-509 | `update_state` never changes which signals an object holds |
| Scene.OwnStateEffects | fxplib.py:495-505 | the own step changes only state and `force`, and only raises signal flags |
| Scene.SetStateEffects | fxplib.py:393-396 | `set_state` changes only the state and `force`, and leaves an INACTIVE object set INACTIVE as it was |
| Scene.WithStateUnstated | fxplib.py:393-396 | `set_state` writes nothing but the state and `force`, and setting INACTIVE on an INACTIVE object changes nothing |
| Scene.UpdateOnlyStates | fxplib.py:393-396 | storing an object's state written by `set_state` changes only states and `force`, and leaves an INACTIVE object as it was |
| Scene.ClicksRaise | fxplib.py:500-501 | emitting `click` with no response only raises a flag and queues nothing |
| Scene.StateEffects | fxplib.py:491-509 | `update_state` changes nothing but states and `force` flags, never touches an INACTIVE object and only raises signal flags without queueing a response |
| Scene.StateForestEffects | fxplib.py:508-509 | the same for the children loop |
| Physics.ApplyStep | fxplib.py:632-634 | `apply_vector` keeps the recorded objects and signals |
| Physics.ApplyAllStep | fxplib.py:636-642 | `apply_all_vectors` keeps the recorded objects and signals |
| Physics.MoveStep | fxplib.py:644-656 | `move` keeps the recorded objects and signals |
| Physics.EmitStep | fxplib.py:1099 | emitting `collide` keeps the recorded objects and signals |
| Physics.MoveTree | fxplib.py:659-667 | `move_all`, dispatched on the class, keeps the recorded objects and signals |
| Physics.MoveForest | fxplib.py:660-661 | the children loop of `move_all` keeps the recorded objects and signals |
| Physics.MovingPass | fxplib.py:659-667 | `MovingObject.move_all` keeps the recorded objects and signals |
| Physics.OwnMotion | fxplib.py:663-667 | the own part of `move_all` keeps the recorded objects and signals |
| Physics.Track | fxplib.py:693-694 | `update_vector` keeps the recorded objects and signals |
| Physics.CameraPart | fxplib.py:690-710 | the camera's scrolling keeps the recorded objects and signals |
| Physics.Scroll | fxplib.py:697-710 | the parallax loop keeps the recorded objects and signals |
| Physics.SpreadNonNegative | fxplib.py:704-705 | the spread of the sorted children's priorities is never negative, so the parallax divisor is at least 1 |
| Physics.ParallaxAll | fxplib.py:707-710 | moving the children by the scaled velocity keeps the recorded objects and signals |
| Physics.WorldPass | fxplib.py:1057-1151 | `World.move_all` keeps the recorded objects and signals |
| Physics.EnvAll | fxplib.py:1062-1065 | the environment loop keeps the recorded objects and signals |
| Physics.Shifted | fxplib.py:1069-1071 | the absolute position minus the parent's is the object's own position |
| Physics.Projected | fxplib.py:1110-1113 | projecting a solid entry requires the object to be recorded |
| Physics.Narrow | fxplib.py:1103-1148 | the narrow phase keeps the recorded objects and signals, and records each `(popped, obstacle)` pair it tests |
| Physics.Scan | fxplib.py:1116-1148 | testing the popped entry keeps the recorded objects and signals, and records the pair at each obstacle tested |
| Physics.HitRows | fxplib.py:1129-1148 | the loop over the popped entry's hitboxes keeps the recorded objects and signals |
| Physics.HitCols | fxplib.py:1133-1148 | the loop over the obstacle's hitboxes keeps the recorded objects and signals |
| Physics.Collide | fxplib.py:1079-1099 | `do_collide` keeps the recorded objects and signals |
| Physics.CollideAll | fxplib.py:1082-1095 | the registration loop of `do_collide` keeps the recorded objects and signals |
| Physics.WorldIgnoresArguments | fxplib.py:1057-1059 | `World.move_all` gives the same result whatever its `vectors` and `move` arguments |
| Physics.WorldListedTwice | fxplib.py:1102 | a solid world is the first broad-phase entry, at twice its own position |
| Physics.ExaminedOnce | fxplib.py:1103-1116 | the pop-last-then-scan order lists each pair `(i, j)` with `j < i` once and no other pair |
| Physics.ScanPairs | fxplib.py:1116-1118 | the pairs of one scan: the popped index with each obstacle index in turn |
| Physics.ScanTested | fxplib.py:1116-1148 | a scan that raises nothing tests the popped entry against every remaining obstacle, in list order, once each |
| Physics.NarrowTested | fxplib.py:1103-1148 | a narrow phase that raises nothing tests exactly the pairs of `Examined`, in that order |
| Physics.NarrowTestsPairsOnce | fxplib.py:1103-1148 | the narrow phase of `World.move_all` tests every unordered pair of distinct solid entries exactly once, the later entry against the earlier, and no other pair |
| Physics.CollideAllKeepsSignals | fxplib.py:1082-1095 | the collision registrations change velocities only, never a signal |
| Physics.CollideEmitsOnce | fxplib.py:1079-1099 | one overlapping hitbox pair changes at most one signal, activating it with one more response, a collision between the two objects |
| Physics.ApplyOne | fxplib.py:632-634 | `apply_vector` on the heap raises as `ApplyStep` does, or leaves the state it gives |
| Physics.ApplyAllOne | fxplib.py:636-642 | `apply_all_vectors` on the heap raises as `ApplyAllStep` does, or leaves the state it gives |
| Physics.MoveOne | fxplib.py:644-656 | `move` on the heap raises as `MoveStep` does, or leaves the state it gives |
| Physics.EmitOne | fxplib.py:1099 | `emit_signal("collide", ...)` on the heap ends as `EmitStep` gives it |
| Physics.MoveAll | fxplib.py:123-125 | `move_all` on the heap, on any class, raises as `MoveTree` does, or leaves the state it gives |
| Physics.MoveChildren | fxplib.py:660-661 | the children loop on the heap ends as `MoveForest` gives it |
| Physics.MoveChild | fxplib.py:660-661 | one child's `move_all` on the heap either raises what the rest of the loop raises or reduces it to the following children |
| Physics.MovingAll | fxplib.py:659-667 | `MovingObject.move_all` on the heap ends as `MovingPass` gives it |
| Physics.CameraMove | fxplib.py:689-713 | the camera's scrolling on the heap ends as `CameraPart` gives it |
| Physics.TrackOne | fxplib.py:693-694 | `update_vector` if there is a target, on the heap, ends as `Track` gives it |
| Physics.ScrollChildren | fxplib.py:697-710 | the parallax scrolling on the heap ends as `Scroll` gives it |
| Physics.ParallaxLoop | fxplib.py:707-710 | the loop over the sorted children on the heap ends as `ParallaxAll` gives it |
| Physics.World | fxplib.py:1057-1151 | `World.move_all` on the heap ends as `WorldPass` gives it |
| Physics.EnvLoop | fxplib.py:1062-1065 | the environment loop on the heap ends as `EnvAll` gives it |
| Physics.EnvOne | fxplib.py:1063-1065 | one environment registration on the heap either raises what the loop raises or reduces it to the following ones |
| Physics.GetSolid | fxplib.py:1068-1076 | `get_solid` returns the solid objects in pre-order with their absolute positions, as `SolidTree` lists them |
| Physics.Offset | fxplib.py:1069-1071 | the absolute position read from the heap is `Shifted` of the recorded state |
| Physics.SolidChildren | fxplib.py:1075-1076 | the children loop of `get_solid` returns what `SolidForest` lists |
| Physics.Project | fxplib.py:1110-1113 | the projected position read from the heap is `Projected` |
| Physics.NarrowPhase | fxplib.py:1103-1148 | the pop loop on the heap ends with the state or the exception of `Narrow` |
| Physics.ScanLoop | fxplib.py:1116-1148 | the scan of the remaining entries on the heap ends with the state or the exception of `Scan` |
| Physics.ScanOne | fxplib.py:1118-1148 | one obstacle on the heap either raises what the scan raises or reduces it to the following obstacles, recording that pair |
| Physics.HitRowsLoop | fxplib.py:1129-1148 | the hitbox loop on the heap ends as `HitRows` gives it |
| Physics.HitRow | fxplib.py:1130-1148 | one hitbox of the popped entry on the heap either raises what the loop raises or reduces it to the following hitboxes |
| Physics.HitColsLoop | fxplib.py:1133-1148 | the obstacle-hitbox loop on the heap ends as `HitCols` gives it |
| Physics.HitCol | fxplib.py:1134-1148 | one obstacle hitbox on the heap either raises what the loop raises or reduces it to the following hitboxes |
| Physics.CollideOne | fxplib.py:1079-1099 | `do_collide` on the heap ends as `Collide` gives it |
| Physics.CollideLoop | fxplib.py:1082-1095 | the registration loop on the heap ends as `CollideAll` gives it and returns the last vector applied |
| Collision.OverlapSymmetric | fxplib.py:1139-1143 | the rejection test does not depend on which rectangle is the moving one |
| Collision.OverlapSharesPoint | fxplib.py:1139-1143 | rectangles of positive size that pass the test share a point |
| Collision.SimpleRepulsion | fxplib.py:1701-1741 | `simple_repulsion` raises exactly when the object has no velocity, and otherwise returns a fresh enabled vector |
| Collision.RepulsionSingleAxis | fxplib.py:1723-1732 | the repulsion is along x when the x overlap is positive and at most the y overlap, else along y when that is positive and at most the x overlap, else zero; it points away from the obstacle's centre and its length is the overlap |
| Collision.RepulsionNonZero | fxplib.py:1723-1732 | with two positive overlaps the repulsion is never zero |
| Collision.UnitBoxesNotRepelled | fxplib.py:1709-1721 | two overlapping 1×1 hitboxes give no repulsion, because the floored half-widths are 0 |
| Collision.ExactRepulsion | fxplib.py:1701-1741 | `simple_repulsion` with exact halves raises exactly when the object has no velocity |
| Collision.ExactOverlapsIff | fxplib.py:1714-1721 | with exact halves, rectangles overlap exactly when both overlaps are positive |
| Collision.ExactRepulsionSeparates | fxplib.py:1723-1741 | with exact halves, an overlapping rectangle pushed by the repulsion no longer overlaps the obstacle |
| Tilesets.FirstFit | fxplib.py:1548-1552 | the rule chosen fits the flag and is one of the rules, and there is none exactly when no rule fits |
| Tilesets.MaskExtremes | fxplib.py:1539-1551 | a full mask fits exactly its own flag; an empty mask fits every flag |
| Tilesets.Tileset.constructor | fxplib.py:1522-1537 | a new tileset has the cut tiles, `w` tiles per row, no rule and is not solid |
| Tilesets.Tileset.AddRule | fxplib.py:1539-1540 | `add_rule` registers or replaces the rule under its name and keeps names unique |
| Tilesets.TileAt | fxplib.py:1542-1546 | each `(x, y)` of a grid of full rows names the tile cut at that column and row |
| Tilesets.TilesDistinct | fxplib.py:1544 | different cells of a row-major grid name different tiles |
| Tilesets.NegativeWraps | fxplib.py:1542-1546 | a negative `x` on the first row wraps to the end of the tile list |
| Tilesets.RuleChoice | fxplib.py:1548-1555 | with no rule fitting the tile at `(0, 0)` is drawn, otherwise the tile of a fitting rule |
| Tilesets.Tileset.GetTile | fxplib.py:1542-1546 | defines `get_tile`: a tile of the list, or `IndexError` |
| Tilesets.Tileset.GetTileByRule | fxplib.py:1548-1555 | defines `get_tile_by_rule`: a tile of the list, or `IndexError`, which an empty tileset always raises |
| Palettes.Color.constructor | fxplib.py:1558-1560 | a new colour has its name and no tone |
| Palettes.Color.SetRgb | fxplib.py:1562-1563 | `set_rgb` stores the tone as a dictionary assignment |
| Palettes.Color.GetRgb | fxplib.py:1565-1567 | defines `Color.get_rgb`: a value exactly for a tone that was set, and that tone's stored value |
| Palettes.Palette.constructor | fxplib.py:1570-1574 | a new palette has no colour, a black colour key and no default |
| Palettes.Palette.Append | fxplib.py:1576-1578 | `append` registers a colour under its name unless the name is taken, in which case the first colour stays |
| Palettes.Palette.ChangeTone | fxplib.py:1580-1582 | `change_tone` sets the tone of the named colour only, and does nothing for an unknown name |
| Palettes.Palette.SetColorkey | fxplib.py:1584-1585 | `set_colorkey` changes only the colour key |
| Palettes.Palette.SetDefault | fxplib.py:1590-1591 | `set_default` changes only the default |
| Palettes.Palette.GetRgb | fxplib.py:1593-1600 | `get_rgb` raises `KeyError` exactly for an unknown name with a truthy default that is not in the palette, gives the colour key for an unknown name with no default, the named colour's `get_rgb(tone)` for a known name, and the default colour's `get_rgb(tone)` for an unknown name whose truthy default is in the palette |
| Palettes.Palette.AllRgb | fxplib.py:1602-1608 | `get_all_rgb` is the colour key followed by every tone of every colour, in order |
| Palettes.Palette.Tones | fxplib.py:1604-1605 | the tone tables of the colours, in order |
| Palettes.TonesOf | fxplib.py:1604-1605 | one tone table per colour, in order |
| Palettes.AppendTones | fxplib.py:1605-1606 | the inner loop appends the values of one colour's tones |
| Palettes.RgbOf | fxplib.py:1605-1606 | one RGB value per tone, in order |
| Palettes.FlattenHoldsEach | fxplib.py:1602-1608 | every tone of every colour is in the list |
| Palettes.FlattenHoldsOnly | fxplib.py:1602-1608 | every value of the list is a tone of some colour |
| Palettes.AppendedAnswers | fxplib.py:1593-1595 | once a colour is appended under a new name, `get_rgb` of that name answers that colour's `get_rgb(tone)` |
| MapGrids.Cell | fxplib.py:863-873 | `get_tile` gives the id in the grid and 0 for a negative or out-of-range position |
| MapGrids.SetCell | fxplib.py:853-861 | `set_tile` keeps the number of rows and the length of each |
| MapGrids.CellAfterSet | fxplib.py:853-873 | writing a cell inside the grid changes that cell alone; a write outside it changes nothing |
| MapGrids.Offset | fxplib.py:878-908 | each neighbour offset is one step in some direction and never the cell itself |
| MapGrids.Neighbourhood | fxplib.py:878-908 | the occupancy of the eight neighbours |
| MapGrids.Rule | fxplib.py:875-911 | defines `get_rule`: the rule is 0 exactly when no neighbour holds a tile |
| MapGrids.RuleBits | fxplib.py:875-911 | bit `k` of `get_rule` is set exactly when neighbour `k` holds a non-zero id |
| MapGrids.PackBits | fxplib.py:876-911 | the sum of the weights of the occupied neighbours has bit `k` exactly when neighbour `k` is occupied |
| MapGrids.RuleExtremes | fxplib.py:875-911 | no occupied neighbour gives rule 0, all eight give 0xFF |
| MapFiles.Name | fxplib.py:818-823 | a name is read up to the next 0x02 or 0x03 or the end of the file |
| MapFiles.Scan | fxplib.py:812-828 | the header loop ends at a 0x03 inside the bytes, or raises `IndexError` |
| MapFiles.Repeat | fxplib.py:846-847 | `n` copies of the id |
| MapFiles.Pairs | fxplib.py:832 | the body is read as pairs, a lone last byte aside |
| MapFiles.Apply | fxplib.py:838-847 | a pair keeps at least one row |
| MapFiles.Expand | fxplib.py:835-847 | the decoded rows start from one row |
| MapFiles.Widest | fxplib.py:851 | `tiles_w` is the length of some row and at least that of every row |
| MapFiles.ForeignFileIgnored | fxplib.py:807-809 | a file without the magic `FXP`, or with a version other than 0, leaves the map unchanged |
| MapFiles.Load | fxplib.py:801-851 | defines `load_from_file` on the file's bytes: it raises at most `IndexError` or `ValueError`, and only appends header names and rows |
| MapFiles.LoadBody | fxplib.py:830-851 | defines the body part of `load_from_file`: it appends at least one row, keeps the header, raises at most `ValueError`, and otherwise sets `tiles_h` to the row count and `tiles_w` to a bound on every row |
| MapFiles.RowCount | fxplib.py:835-847 | the pairs decode to one row more than there are pairs with count 0 |
| MapFiles.EvenBody | fxplib.py:831-851 | a body of whole pairs appends the decoded rows, sets `tiles_h` to the number of rows and `tiles_w` to the longest |
| MapFiles.ReadName | fxplib.py:816-823 | the name loop reads `Name` from the byte after the 0x02 |
| MapFiles.ScanMark | fxplib.py:815-828 | a pass at a 0x02 adds the name that follows and skips past it |
| MapFiles.ScanSkip | fxplib.py:813-828 | a pass at any other byte but 0x03 skips it |
| MapFiles.ScanOne | fxplib.py:813-828 | one pass of the header loop moves forward and keeps the header read so far plus the rest equal to the whole header |
| MapFiles.ReadHeader | fxplib.py:812-828 | the header loop appends the names of `Scan` and stops at its 0x03, or raises `IndexError` at the end of the file |
| MapFiles.ReadPairs | fxplib.py:831-832 | the body pairs are `Pairs`, and a lone last byte is flagged |
| MapFiles.FillRow | fxplib.py:846-847 | the fill loop appends `n` copies of the id |
| MapFiles.ApplyAfter | fxplib.py:835-847 | decoding after rows already there appends to them |
| MapFiles.RoundTrip | fxplib.py:801-851 | loading an encoded map into an empty map gives back its names and rows, with the height the number of rows and the width the longest |
| MapFiles.PairsBack | fxplib.py:832 | the bytes of whole pairs are read back as those pairs |
| MapFiles.NameBack | fxplib.py:818-823 | an encoded name is read back up to its separator |
| MapFiles.ScanHeader | fxplib.py:812-828 | an encoded header is read back name by name up to its 0x03 |
| MapFiles.ExpandRow | fxplib.py:837-847 | the `(1, id)` pairs of a row append that row to the last row |
| MapFiles.ExpandBody | fxplib.py:835-847 | the encoded body decodes to the rows it was written from |
| MapCollisions.FreeCell | fxplib.py:946-951 | a cell starts a rectangle exactly when its id indexes the header, its tileset is not the void, is solid, and no hitbox covers it |
| MapCollisions.BlockedKept | fxplib.py:922-935 | more hitboxes never free a cell and never change whether its test raises |
| MapCollisions.FreeInGrid | fxplib.py:946-951 | only a cell of the grid can be free when id 0 is not a solid non-void tileset |
| MapCollisions.RowBlocked | fxplib.py:956-965 | the row test passes exactly when every cell of the row below is free |
| MapCollisions.ColBlocked | fxplib.py:972-981 | the column test passes exactly when every cell of the column to the right is free |
| MapCollisions.Round | fxplib.py:954-985 | a round keeps the rectangle in the grid, only grows it and leaves less to grow |
| MapCollisions.Grow | fxplib.py:954-985 | the growth loop ends with both flags set and the rectangle in the grid |
| MapCollisions.RoundFree | fxplib.py:954-985 | a round takes in only free rows and columns |
| MapCollisions.GrowFree | fxplib.py:954-985 | the rectangle a growth ends with is free |
| MapCollisions.HitboxCells | fxplib.py:988-990 | read back in cells, the hitbox covers exactly its rectangle |
| MapCollisions.Visit | fxplib.py:946-999 | a cursor position appends at most one hitbox |
| MapCollisions.Sweep | fxplib.py:945-1003 | the cursor loop only appends hitboxes |
| MapCollisions.VisitCovers | fxplib.py:946-999 | after a visit the cell under the cursor is blocked |
| MapCollisions.VisitClaims | fxplib.py:946-999 | a new hitbox covers only cells that were free |
| MapCollisions.SweepCovers | fxplib.py:945-1003 | a sweep that raises nothing leaves every cell it visits blocked |
| MapCollisions.SweepClaims | fxplib.py:945-1003 | each appended hitbox covers only cells that were free before it was added |
| MapCollisions.SweepHitboxes | fxplib.py:919-1003 | the appended hitboxes lie on solid cells of the grid and overlap neither each other nor the hitboxes there before |
| MapCollisions.SweepCoversSolid | fxplib.py:919-1003 | a sweep that raises nothing covers every solid cell of the `tiles_w` by `tiles_h` grid |
| MapCollisions.SweepSettled | fxplib.py:945-1003 | from a cursor at which every cell ahead is blocked, a sweep appends nothing and raises nothing |
| MapCollisions.SweepIdempotent | fxplib.py:919-1003 | a second `update_collisions` after one that raised nothing appends nothing |
| MapCollisions.IsTested | fxplib.py:922-934 | `is_tested` is true exactly when some hitbox covers the cell |
| MapCollisions.CheckCell | fxplib.py:946-951 | the test of one cell reads the id, the header, the tileset and the hitboxes as `Blocked` gives it |
| MapCollisions.RowCheck | fxplib.py:957-965 | the row loop gives `RowBlocked` |
| MapCollisions.ColCheck | fxplib.py:973-981 | the column loop gives `ColBlocked` |
| MapCollisions.GrowRect | fxplib.py:952-985 | the growth loop from a free cell gives `Grow` from a 1×1 rectangle |
| MapCollisions.DownStep | fxplib.py:956-969 | the row half of a round gives `GrowDown` |
| MapCollisions.RightStep | fxplib.py:972-985 | the column half of a round gives `GrowRight` |
| MapCollisions.VisitCell | fxplib.py:946-996 | one cursor position gives `Visit` |
| TileMaps.SolidOf | fxplib.py:950 | the `solid` flag of each tileset under its name |
| TileMaps.TileMap.constructor | fxplib.py:787-799 | a new map is an empty moving object with the tile size |
| TileMaps.TileMap.LoadFromBytes | fxplib.py:801-851 | `load_from_file` on the bytes of an ASCII file of at most 10 MiB sets the attributes and raises as `Load` gives them, and keeps the tilesets and the void |
| TileMaps.TileMap.LoadRest | fxplib.py:831-851 | the body part sets the attributes and raises as `LoadBody` gives them |
| TileMaps.TileMap.Uncompress | fxplib.py:835-847 | the uncompress loop appends the rows `Expand` decodes and changes nothing else |
| TileMaps.TileMap.SetTile | fxplib.py:853-861 | `set_tile` writes the cell at `pos + rel` if it is in the grid, and nothing else |
| TileMaps.TileMap.SetVoid | fxplib.py:913-914 | `set_void` changes only the void name |
| TileMaps.TileMap.GetTile | fxplib.py:863-873 | defines `Map.get_tile`: a non-zero id only for a cell inside the grid, and then that cell's id |
| TileMaps.TileMap.GetRule | fxplib.py:875-911 | defines `Map.get_rule`: 0 exactly when none of the eight neighbours holds a tile |
| TileMaps.TileMap.AddTileset | fxplib.py:916-917 | `add_tileset` registers or replaces the tileset under its name and keeps names unique |
| TileMaps.TileMap.UpdateCollisions | fxplib.py:919-1003 | `update_collisions` appends the hitboxes of `Sweep` and raises as it does, changing nothing else |
| TileMaps.NeighbourRule | fxplib.py:1548-1551 | a rule whose flag and mask are one neighbour's weight fits a cell's rule exactly when that neighbour holds a tile |
| Text.WordLen | test_server.py:40 | the first word runs up to the first whitespace |
| Text.Words | test_server.py:40 | `split()` gives non-empty words without whitespace |
| Text.NoWordsAllSpace | test_server.py:40-42 | a string has no word exactly when it is all whitespace |
| Text.WordsJoin | test_client.py:42 | splitting words joined by single spaces gives them back |
| Text.Strip | test_server.py:33 | `strip()` leaves no whitespace at either end |
| Text.WordsTrailingSpace | test_server.py:33 | trailing whitespace adds no word |
| Text.WordsStrip | test_server.py:33 | `strip()` before `split()` changes no word |
| Text.Digits | test_server.py:44 | the digits of a natural number are decimal digits, at least one |
| Text.Decimal | test_server.py:44 | `str` of an int is a non-empty word |
| Text.DigitsRoundTrip | test_server.py:44 | the digits of `n` read back as `n` |
| Text.DecimalRoundTrip | test_server.py:44 | `int(str(n)) == n` |
| Server.Handle | test_server.py:31-54 | `handle` sends exactly what `Reply` gives for the request |
| Server.Reply | test_server.py:31-54 | defines what `handle` sends: it raises only `IndexError`, and never sends an empty datagram |
| Server.Response | test_server.py:41-50 | defines the response to a first word: non-empty only for the four keywords, always non-empty for `DESC`/`OWNER`/`MOTD`, and empty for `LIST` exactly with no servers |
| Server.ListReply | test_server.py:42-44 | defines the `LIST` response: empty exactly with no servers, and otherwise ending in a line break |
| Server.SrvLine | test_server.py:44 | defines one server's line: it starts with `SRV ` and ends with a line break |
| Server.FirstWordDecides | test_server.py:33-42 | requests with the same first word get the same reply; further words are ignored |
| Server.NoWordRaises | test_server.py:40-42 | a request raises `IndexError` exactly when it is empty or all whitespace |
| Server.OneWordReply | test_server.py:33-54 | a one-word request, with trailing whitespace, is answered with the response to its word, or not at all if that is empty |
| Server.KeywordReplies | test_server.py:45-50 | `DESC`, `OWNER` and `MOTD` are always answered with the keyword and the field in double quotes |
| Server.SilentReplies | test_server.py:41-54 | an unknown first word is not answered, and `LIST` is not answered exactly when no server is listed |
| Server.ListReplyLines | test_server.py:42-44 | the `LIST` reply has exactly one line per listed server |
| Server.SrvLineBreaks | test_server.py:44 | a server's line has one line break |
| Server.SrvLineWords | test_server.py:44 | a `LIST` line splits into `SRV`, the quoted address and name, and the two counts, which read back as the numbers |
| Client.Format | test_client.py:46 | `format` raises only `IndexError` |
| Client.FormatSucceeds | test_client.py:46 | `format` succeeds exactly when there is an argument for every `{}` field |
| Client.FormatPlain | test_client.py:46 | a pattern without braces is returned as it is |
| Client.Request | test_client.py:41-46 | `parse_command` raises only `IndexError` |
| Client.ParseCommand | test_client.py:41-46 | the loop of `parse_command` gives `Request` of the words of the line |
| Client.RequestFirstMatch | test_client.py:43-46 | the request is the formatted pattern of the first command with the same name and arity, and `None` when none matches |
| Client.EmptyLineRaises | test_client.py:42-44 | a line with no word raises `IndexError` unless there is no command |
| Client.TableRequests | test_client.py:32-35 | each registered name alone gives its keyword, and with any argument gives no request |
| Client.ClientServerAgree | test_client.py:84 | the request the client sends for a registered name is answered by the server with the response to its keyword |
| Client.TableKeywords | test_client.py:32-35 | the registered keywords are single words |
| Client.Names | test_client.py:74 | one name per command, in order |
| Client.Loop | test_client.py:63-89 | the loop gives the events and the ending of `Run` on the typed lines |
| Client.Run | test_client.py:63-89 | defines the loop over typed lines: at most one event per line, an escaping error is `EOFError` or `IndexError`, and `EOFError` comes only after every line was handled |
| Client.Step | test_client.py:71-84 | defines one pass of the loop: help exactly for `h`/`help`, only `IndexError` escapes, and a message sent ends in a line break |
| Client.HelpText | test_client.py:72-74 | defines the help text: it starts with the fixed `help, quit, ` prefix |
| Client.RunStart | test_client.py:64-65 | the loop starts with no events, at the first line |
| Client.StepLine | test_client.py:71-84 | one line other than `q`/`quit` gives the event of `Step`: help, syntax error, or the request sent with a line break |
| Client.RunNext | test_client.py:65-84 | a line handled without ending the loop adds its event and goes on |
| Client.RunEnds | test_client.py:67-69 | the run ends with `Quit` on `q`/`quit`, with the exception of a failing line, or with `EOFError` at the end of input |
| Client.RunConcat | test_client.py:65-84 | a run that reads all of a first batch of lines goes on with the next batch as a run of it alone |
| Client.QuitIgnoresRest | test_client.py:68-69 | nothing typed after `q` or `quit` is read |
| Client.SentAreRequests | test_client.py:78-84 | every message sent is the non-empty request of a typed line with a line break after it |
| Client.ListThenQuit | test_client.py:63-89 | typing `list` then `quit` sends `LIST\n` and quits |

## Left out

- Rendering and pixel work are not modelled. This covers `Image.refresh`/`render`/`mirror`/`load_from_*`, `Background.duplicate`, `Map.load`, `Window`/`Label`/`Button`/`Separator` `load`, `Font` and `Surface`. They are pygame blits.
- `Tileset.__init__` cutting the picture is not modelled: the constructor takes the cut tiles and `w`.
- `Vector` polar form and trigonometry are left out (floating-point trigonometry). Vector components are exact reals, so no rounding is modelled.
- Python 2 dictionaries have no specified order. They are modelled as lists of unique-keyed pairs in insertion order, so every claim about dictionary order is for that order.
- Signal callbacks and force generators are user code. Callbacks are recorded as calls; generators are a parameter `Gens` that returns a vector or an exception. What they do to the scene is not modelled.
- Scene.AddChild: the children dictionaries are values, so their in-place update and sharing are not captured. In the code, `add_child` changes `self.objects` in place (fxplib.py:54-56), and `get_child` returns the child object itself (fxplib.py:62-71). So `root.get_child("a").add_child(x)` changes the tree that later passes walk, and an object added under two parents shares one `objects` dictionary. In the model, `AddChild` returns a new `Tree`: a caller must rebuild the enclosing tree, and an object added twice becomes two independent `Tree` values.
- `BinaryString` file reading is left out (file I/O): `load_from_file` is `LoadFromBytes` on the bytes of an ASCII file of at most 10 MiB.
- A file with a byte of 0x80 or more makes `bytearray(string, "ascii")` raise `UnicodeDecodeError` (fxplib.py:1694), and a file over 10 MiB leaves `string` unassigned, so that line raises `UnboundLocalError` (fxplib.py:1688-1694). Neither exception is modelled.
- MapFiles.RoundTrip: holds for any names and rows whose ids and counts fit a byte; because of the ASCII conversion, the program itself can load such a file only when every byte of it is below 0x80.
- `TileMaps.TileMap.constructor` with a file name is the constructor followed by `LoadFromBytes`.
- Rows of `Map.tiles` are values. `set_tile` and the uncompress loop rebuild a row instead of mutating a shared list, so aliasing between rows is not modelled.
- Sockets, `raw_input` and printing are left out.
  - The server request and the client's typed lines are parameters.
  - The datagram sent is a result.
  - The server's answer that `loop` prints is not modelled.
- `model.py` (palette files read with minidom), `view.py`, `controller.py` and `fxp2.py` (display set-up, scene assembly, the frame loop and key bindings) are not part of this model: they are file reading and pygame glue.
- `MasterServer`, `Builder` (XML and dynamic class lookup), `Input` (event polling) and the `tick` timing are left out (I/O and clocks).
- `check_force` (the redraw flag collected up the tree) is not modelled.
- `update_focus` idempotence is not proved; only that the pass changes nothing but focus flags.
- Scene.UpdateState: requires at least two mouse buttons, as `max(*mouse_but)` needs two arguments.
- Scene.Clicks: its test that the `click` signal is recorded only keeps the function total. Every recorded object's signals are recorded.
- Physics: the heap passes require that the recorded state covers every object they touch. The ghost error `Unrecorded` stands for a pass that would leave the record; the code never raises it.
- Physics.CameraMove: the target's `z` is read once per pass. The code reads `self.target.z` inside the loop, once per child (fxplib.py:708). The two agree because `child.move` never changes a `z`.
- Objects.Parallax: `z` values and the spread are exact reals, so the factor `1.0 + (z - z_target) / (spread + 1)` is computed by exact division. When every `z` is an int, as `gui.z = 1` and `cursor.z = 10` are in model.py:54-55, Python 2 floors that quotient. For `z = 1`, target `z = 10` and spread 9, the code gives the factor 0.0 and the model gives 0.1. The integer case is not modelled.
- Objects.RectOf: positions `x`/`y` are exact reals, so `get_rect` and `get_pos` divide them exactly. Python 2 floors `self.x / g` when the position is an int: `x = 5` on grid 2 gives 2 in the code and 2.5 in the model. Sizes are ints and are floor-divided, as in the code.
- TileMaps.TileMap.UpdateCollisions: requires a positive tile size and `ZeroStops` (id 0 is not a solid non-void tileset). Without the latter the growth loop of the code never ends at the edge of the grid. The sweep reads a snapshot of the map, which the loop does not change.
- Tilesets: rule flags and masks are 8-bit values, the range `get_rule` produces.
- Client.Format: handles automatically numbered `{}` fields only, the form the command table uses.
- Frames.Frame.constructor: requires a non-empty animation, as `animation[0]` raises otherwise.

## Findings

| source | as written | input that shows it | evidently intended | confidence | as-written member | corrected member |
|---|---|---|---|---|---|---|
| fxplib.py:1709-1715 | `w/2` and `ow/2` on the integer hitbox sizes floor the half-widths | two 1×1 hitboxes at `(0, 0)` and `(0.5, 0.5)`: they overlap, yet both overlaps are non-positive and the repulsion is zero | exact halves, so that the push separates overlapping rectangles | not executed; medium | Collision.UnitBoxesNotRepelled | Collision.ExactRepulsionSeparates |

=== FILE: client.dfy ===
/** The command-line client of the master server (test_client.py): the
    table of commands, `parse_command`, which turns a typed line into a
    request, and the read-eval loop. The socket is not modelled: the typed
    lines are a parameter, and what the loop does with each is an event. */
module Client {
  import opened Wrappers
  import opened Text
  import Server

  /** A `commands` entry: `(name, pattern, arguments)`. */
  datatype Command = Command(name: string, pattern: string, arity: nat)

  /** The commands `Main.__init__` registers, in order. */
  const Table: seq<Command> := [
    Command("list", "LIST", 0),
    Command("owner", "OWNER", 0),
    Command("desc", "DESC", 0),
    Command("motd", "MOTD", 0)
  ]

  // ---------------------------------------------------------------------------
  // str.format
  // ---------------------------------------------------------------------------

  /** The number of `{}` fields in `pattern`. */
  function Fields(pattern: string): nat
  {
    if pattern == [] then 0
    else if |pattern| >= 2 && pattern[0] == '{' && pattern[1] == '}' then 1 + Fields(pattern[2..])
    else Fields(pattern[1..])
  }

  /** `pattern.format(*args)` for automatically numbered `{}` fields: each
      field takes the next argument, a field with no argument left raises
      `IndexError`, and arguments left over are ignored. */
  function Format(pattern: string, args: seq<string>): (r: Result<string>)
    ensures r.Raise? ==> r.error == IndexError
  {
    if pattern == [] then Ok([])
    else if |pattern| >= 2 && pattern[0] == '{' && pattern[1] == '}' then
      if args == [] then Raise(IndexError)
      else
        var rest :- Format(pattern[2..], args[1..]);
        Ok(args[0] + rest)
    else
      var rest :- Format(pattern[1..], args);
      Ok([pattern[0]] + rest)
  }

  /** Formatting succeeds exactly when there is an argument for every field. */
  lemma {:induction false} FormatSucceeds(pattern: string, args: seq<string>)
    ensures Format(pattern, args).Ok? <==> Fields(pattern) <= |args|
  {
    if pattern == [] {
    } else if |pattern| >= 2 && pattern[0] == '{' && pattern[1] == '}' {
      if args != [] {
        FormatSucceeds(pattern[2..], args[1..]);
      }
    } else {
      FormatSucceeds(pattern[1..], args);
    }
  }

  /** A pattern without braces comes out as it is. */
  lemma {:induction false} FormatPlain(pattern: string, args: seq<string>)
    requires '{' !in pattern
    ensures Format(pattern, args) == Ok(pattern)
  {
    if pattern != [] {
      FormatPlain(pattern[1..], args);
      assert [pattern[0]] + pattern[1..] == pattern;
    }
  }

  // ---------------------------------------------------------------------------
  // parse_command
  // ---------------------------------------------------------------------------

  /** Command `c` applies to the split line `cmd`: same name, and one word
      after the name per argument. */
  predicate Matches(c: Command, cmd: seq<string>)
    requires cmd != []
  {
    cmd[0] == c.name && |cmd| - 1 == c.arity
  }

  /** The `for` loop of `parse_command` over `commands`: the first command
      that matches formats the request; none matching returns `None`;
      `cmd[0]` raises `IndexError` on an empty line, but only once a command
      is looked at. */
  function Request(commands: seq<Command>, cmd: seq<string>): (r: Result<Option<string>>)
    ensures r.Raise? ==> r.error == IndexError
  {
    if commands == [] then Ok(None)
    else if cmd == [] then Raise(IndexError)
    else if Matches(commands[0], cmd) then
      var m :- Format(commands[0].pattern, cmd[1..]);
      Ok(Some(m))
    else Request(commands[1..], cmd)
  }

  /** `parse_command(command)`. */
  method ParseCommand(commands: seq<Command>, command: string) returns (r: Result<Option<string>>)
    ensures r == Request(commands, Words(command))
  {
    var cmd := Words(command);
    var i := 0;
    while i < |commands|
      invariant 0 <= i <= |commands|
      invariant Request(commands, cmd) == Request(commands[i..], cmd)
    {
      if |cmd| == 0 {
        return Raise(IndexError);
      }
      var c := commands[i];
      if cmd[0] == c.name && |cmd| - 1 == c.arity {
        var m := Format(c.pattern, cmd[1..]);
        if m.Raise? {
          return Raise(m.error);
        }
        return Ok(Some(m.value));
      }
      assert commands[i..][1..] == commands[i + 1..];
      i := i + 1;
    }
    return Ok(None);
  }

  /** The request is that of the first command that matches, and a line
      that no command matches gives `None`. */
  lemma {:induction false} RequestFirstMatch(commands: seq<Command>, cmd: seq<string>, k: nat)
    requires cmd != [] && k <= |commands|
    requires forall j :: 0 <= j < k ==> !Matches(commands[j], cmd)
    ensures k < |commands| && Matches(commands[k], cmd) ==>
      Request(commands, cmd) == (var m :- Format(commands[k].pattern, cmd[1..]); Ok(Some(m)))
    ensures k == |commands| ==> Request(commands, cmd) == Ok(None)
    decreases k
  {
    if k > 0 {
      assert !Matches(commands[0], cmd);
      RequestFirstMatch(commands[1..], cmd, k - 1);
    }
  }

  /** A typed line with no word raises `IndexError` unless there are no
      commands at all. */
  lemma EmptyLineRaises(commands: seq<Command>, command: string)
    requires forall i :: 0 <= i < |command| ==> IsSpace(command[i])
    ensures Request(commands, Words(command)) == if commands == [] then Ok(None) else Raise(IndexError)
  {
    NoWordsAllSpace(command);
  }

  /** With the registered table, each command name alone gives its request
      keyword, and the same name with any argument gives no request. */
  lemma TableRequests(command: string, k: nat)
    requires k < |Table| && Words(command) != [] && Words(command)[0] == Table[k].name
    ensures |Words(command)| == 1 ==> Request(Table, Words(command)) == Ok(Some(Table[k].pattern))
    ensures |Words(command)| > 1 ==> Request(Table, Words(command)) == Ok(None)
  {
    var cmd := Words(command);
    FormatPlain(Table[k].pattern, cmd[1..]);
    RequestFirstMatch(Table, cmd, k);
    if |cmd| > 1 {
      RequestFirstMatch(Table, cmd, |Table|);
    }
  }

  /** The request the client sends for a registered command is answered by
      the master server with the response to that command's keyword. */
  lemma ClientServerAgree(command: string, k: nat, data: Server.ServerData)
    requires k < |Table| && Words(command) == [Table[k].name]
    ensures Request(Table, Words(command)) == Ok(Some(Table[k].pattern))
    ensures var response := Server.Response(Table[k].pattern, data);
      Server.Reply(Table[k].pattern + "\n", data) == Ok(if response == "" then None else Some(response))
  {
    TableRequests(command, k);
    TableKeywords(k);
    Server.OneWordReply(Table[k].pattern, '\n', data);
  }

  /** The request keywords of the table are single words. */
  lemma TableKeywords(k: nat)
    requires k < |Table|
    ensures NoSpace(Table[k].pattern)
  {
  }

  // ---------------------------------------------------------------------------
  // The read-eval loop
  // ---------------------------------------------------------------------------

  /** What the loop does with one typed line that does not end it. */
  datatype Event = HelpShown(text: string) | SyntaxError | Sent(message: string)

  /** How the loop ends: on `q` or `quit`, or with an exception that
      escapes it (`raw_input` at the end of the input raises `EOFError`). */
  datatype Ending = Quit | Crash(error: PyError)

  /** The text printed for `h` and `help`. */
  function HelpText(commands: seq<Command>): (text: string)
    ensures |text| >= 35 && text[..35] == "Possible commands are: help, quit, "
  {
    "Possible commands are: " + "help, quit, " + Join(Names(commands), ", ")
  }

  function Names(commands: seq<Command>): (names: seq<string>)
    ensures |names| == |commands| && forall k :: 0 <= k < |commands| ==> names[k] == commands[k].name
  {
    if commands == [] then [] else [commands[0].name] + Names(commands[1..])
  }

  /** What the loop does with a typed line other than `q` and `quit`: only
      a line equal to `h` or `help` shows the help; a request that is
      `None` or empty is a syntax error; a request is sent with a line
      break appended; an exception of `parse_command` escapes. */
  function Step(commands: seq<Command>, line: string): (r: Result<Event>)
    ensures r.Raise? ==> r.error == IndexError
    ensures r.Ok? && r.value.Sent? ==> |r.value.message| >= 2 && r.value.message[|r.value.message| - 1] == '\n'
    ensures r.Ok? && r.value.HelpShown? <==> line == "h" || line == "help"
  {
    if line == "h" || line == "help" then Ok(HelpShown(HelpText(commands)))
    else
      var m :- Request(commands, Words(line));
      if m == None || m == Some("") then Ok(SyntaxError) else Ok(Sent(m.value + "\n"))
  }

  /** The events and the ending of the loop reading `lines`. */
  function Run(commands: seq<Command>, lines: seq<string>): (r: (seq<Event>, Ending))
    ensures |r.0| <= |lines|
    ensures r.1.Crash? ==> r.1.error == EOFError || r.1.error == IndexError
    ensures r.1 == Crash(EOFError) ==> |r.0| == |lines|
  {
    if lines == [] then ([], Crash(EOFError))
    else if lines[0] == "q" || lines[0] == "quit" then ([], Quit)
    else match Step(commands, lines[0])
      case Raise(e) => ([], Crash(e))
      case Ok(ev) => Then([ev], Run(commands, lines[1..]))
  }

  /** Events `done` followed by a run. */
  function Then(done: seq<Event>, run: (seq<Event>, Ending)): (seq<Event>, Ending)
  {
    (done + run.0, run.1)
  }

  /** `Main.loop` on the typed `lines`; the printing of the server's answer
      after each request is not modelled. */
  method Loop(commands: seq<Command>, lines: seq<string>) returns (events: seq<Event>, ending: Ending)
    ensures (events, ending) == Run(commands, lines)
  {
    events := [];
    var i := 0;
    RunStart(commands, lines);
    while i < |lines|
      invariant 0 <= i <= |lines|
      invariant Run(commands, lines) == Then(events, Run(commands, lines[i..]))
    {
      var command := lines[i];
      if command == "q" || command == "quit" {
        RunEnds(commands, lines, i, events);
        return events, Quit;
      }
      var r := StepLine(commands, command);
      if r.Raise? {
        RunEnds(commands, lines, i, events);
        return events, Crash(r.error);
      }
      RunNext(commands, lines, i, events, r.value);
      events := events + [r.value];
      i := i + 1;
    }
    RunEnds(commands, lines, i, events);
    return events, Crash(EOFError);
  }

  /** The body of the loop for a line other than `q` and `quit`. */
  method StepLine(commands: seq<Command>, command: string) returns (r: Result<Event>)
    requires command != "q" && command != "quit"
    ensures r == Step(commands, command)
  {
    if command == "h" || command == "help" {
      return Ok(HelpShown(HelpText(commands)));
    }
    var message := ParseCommand(commands, command);
    if message.Raise? {
      return Raise(message.error);
    }
    if message.value == None || message.value == Some("") {
      return Ok(SyntaxError);
    }
    return Ok(Sent(message.value.value + "\n"));
  }

  /** The loop starts with no events, at the first line. */
  lemma RunStart(commands: seq<Command>, lines: seq<string>)
    ensures Run(commands, lines) == Then([], Run(commands, lines[0..]))
  {
    assert lines[0..] == lines;
    assert [] + Run(commands, lines).0 == Run(commands, lines).0;
  }

  /** A line that is handled without ending the run adds its event. */
  lemma RunNext(commands: seq<Command>, lines: seq<string>, i: nat, events: seq<Event>, ev: Event)
    requires i < |lines| && lines[i] != "q" && lines[i] != "quit" && Step(commands, lines[i]) == Ok(ev)
    requires Run(commands, lines) == Then(events, Run(commands, lines[i..]))
    ensures Run(commands, lines) == Then(events + [ev], Run(commands, lines[i + 1..]))
  {
    assert lines[i..][0] == lines[i] && lines[i..][1..] == lines[i + 1..];
    var after := Run(commands, lines[i + 1..]).0;
    assert (events + [ev]) + after == events + ([ev] + after);
  }

  /** The three ways the run ends: `q` or `quit`, an exception, or the
      end of the input. */
  lemma RunEnds(commands: seq<Command>, lines: seq<string>, i: nat, events: seq<Event>)
    requires i <= |lines| && Run(commands, lines) == Then(events, Run(commands, lines[i..]))
    ensures i == |lines| ==> Run(commands, lines) == (events, Crash(EOFError))
    ensures i < |lines| && (lines[i] == "q" || lines[i] == "quit") ==> Run(commands, lines) == (events, Quit)
    ensures i < |lines| && lines[i] != "q" && lines[i] != "quit" && Step(commands, lines[i]).Raise? ==>
      Run(commands, lines) == (events, Crash(Step(commands, lines[i]).error))
  {
    assert events + [] == events;
    if i < |lines| {
      assert lines[i..][0] == lines[i];
    } else {
      assert lines[i..] == [];
    }
  }

  /** A run that reads all of `first` without stopping goes on with `rest`
      exactly as a run of `rest` alone. */
  lemma {:induction false} RunConcat(commands: seq<Command>, first: seq<string>, rest: seq<string>)
    requires Run(commands, first).1 == Crash(EOFError)
    ensures Run(commands, first + rest) == Then(Run(commands, first).0, Run(commands, rest))
  {
    if first == [] {
      assert first + rest == rest;
      assert [] + Run(commands, rest).0 == Run(commands, rest).0;
    } else {
      assert (first + rest)[0] == first[0] && (first + rest)[1..] == first[1..] + rest;
      var ev := Step(commands, first[0]).value;
      RunConcat(commands, first[1..], rest);
      var a, b := Run(commands, first[1..]).0, Run(commands, rest).0;
      assert [ev] + (a + b) == ([ev] + a) + b;
    }
  }

  /** Nothing typed after `q` or `quit` is read. */
  lemma QuitIgnoresRest(commands: seq<Command>, first: seq<string>, quit: string, rest: seq<string>)
    requires Run(commands, first).1 == Crash(EOFError)
    requires quit == "q" || quit == "quit"
    ensures Run(commands, first + [quit] + rest) == (Run(commands, first).0, Quit)
  {
    RunConcat(commands, first, [quit] + rest);
    assert first + [quit] + rest == first + ([quit] + rest);
    assert ([quit] + rest)[0] == quit;
    assert Run(commands, first).0 + [] == Run(commands, first).0;
  }

  /** Every message sent is the request of a typed line, with a line
      break after it. */
  lemma {:induction false} SentAreRequests(commands: seq<Command>, lines: seq<string>, e: Event)
    requires e in Run(commands, lines).0 && e.Sent?
    ensures exists k, m :: 0 <= k < |lines| && Request(commands, Words(lines[k])) == Ok(Some(m)) && m != "" && e.message == m + "\n"
  {
    var ev := Step(commands, lines[0]).value;
    var tail := Run(commands, lines[1..]).0;
    assert Run(commands, lines).0 == [ev] + tail;
    if e == ev {
      var m := Request(commands, Words(lines[0])).value.value;
      assert Request(commands, Words(lines[0])) == Ok(Some(m));
    } else {
      assert e in tail;
      SentAreRequests(commands, lines[1..], e);
      var k, m :| 0 <= k < |lines[1..]| && Request(commands, Words(lines[1..][k])) == Ok(Some(m)) && m != "" && e.message == m + "\n";
      assert lines[k + 1] == lines[1..][k];
    }
  }

  /** The client asking for the list and quitting. */
  lemma ListThenQuit()
    ensures Run(Table, ["list", "quit"]) == ([Sent("LIST\n")], Quit)
  {
    assert Join(["list"], " ") == "list";
    WordsJoin(["list"]);
    assert Words("list") == ["list"];
    TableRequests("list", 0);
    assert Request(Table, Words("list")) == Ok(Some("LIST"));
    assert "LIST" + "\n" == "LIST\n";
    assert Step(Table, "list") == Ok(Sent("LIST\n"));
    assert ["list", "quit"][1..] == ["quit"];
    assert Run(Table, ["quit"]) == ([], Quit);
    assert [Sent("LIST\n")] + [] == [Sent("LIST\n")];
    assert Run(Table, ["list", "quit"]) == Then([Sent("LIST\n")], Run(Table, ["quit"]));
  }
}

=== FILE: collision.dfy ===
/** Hitbox rectangles in world coordinates, the overlap test of the World's
    narrow phase, and the built-in `simple_repulsion` force generator. */
module Collision {
  import opened Wrappers
  import opened PyNumbers
  import opened Vectors

  /** `(x, y, w, h)`: an absolute position (a float once a velocity has been
      added) and an integer size. */
  datatype Rect = Rect(x: real, y: real, w: int, h: int)

  /** The narrow-phase test: the rectangles overlap unless one of the four
      rejection conditions holds; touching edges do not overlap. */
  predicate Overlap(r: Rect, o: Rect)
  {
    !(o.x >= r.x + r.w as real || o.x + o.w as real <= r.x ||
      o.y >= r.y + r.h as real || o.y + o.h as real <= r.y)
  }

  /** The test does not depend on which rectangle is the moving one. */
  lemma OverlapSymmetric(r: Rect, o: Rect)
    ensures Overlap(r, o) <==> Overlap(o, r)
  {
  }

  /** Overlapping rectangles of positive size share a point. */
  lemma OverlapSharesPoint(r: Rect, o: Rect)
    requires r.w > 0 && r.h > 0 && o.w > 0 && o.h > 0
    requires Overlap(r, o)
    ensures var px := if r.x >= o.x then r.x else o.x;
      var py := if r.y >= o.y then r.y else o.y;
      r.x <= px < r.x + r.w as real && o.x <= px < o.x + o.w as real &&
      r.y <= py < r.y + r.h as real && o.y <= py < o.y + o.h as real
  {
  }

  // ---------------------------------------------------------------------------
  // simple_repulsion
  // ---------------------------------------------------------------------------

  /** How far the rectangles would have to separate along x and along y, with
      the half-sizes divided as Python 2 integers. */
  function Overlaps(r: Rect, o: Rect): (d: (real, real))
  {
    var xdiff := (r.x + Half(r.w) as real) - (o.x + Half(o.w) as real);
    var ydiff := (r.y + Half(r.h) as real) - (o.y + Half(o.h) as real);
    ((Half(r.w) + Half(o.w)) as real - RealAbs(xdiff),
     (Half(r.h) + Half(o.h)) as real - RealAbs(ydiff))
  }

  /** `abs(v)`. */
  function RealAbs(v: real): (r: real)
    ensures r >= 0.0 && (r == v || r == -v)
  {
    if v >= 0.0 then v else -v
  }

  /** Whether this rectangle's centre is not left of (not above) the
      obstacle's centre. */
  function Ahead(r: Rect, o: Rect): (d: (bool, bool))
  {
    ((r.x + Half(r.w) as real) - (o.x + Half(o.w) as real) >= 0.0,
     (r.y + Half(r.h) as real) - (o.y + Half(o.h) as real) >= 0.0)
  }

  /** `simple_repulsion(obj, obstacle, rect, orect)`: the vector that pushes
      `obj` out along the axis of least overlap, x winning ties; `vel` is
      `obj.velocity`, read first, so a missing one raises. */
  function SimpleRepulsion(vel: Option<Vector>, r: Rect, o: Rect): (v: Result<Vector>)
    ensures vel.None? <==> v == Raise(AttributeError)
    ensures v.Ok? ==> v.value.name == None && v.value.enable
  {
    if vel.None? then Raise(AttributeError)
    else
      var (xrep, yrep) := Overlaps(r, o);
      var (right, down) := Ahead(r, o);
      if xrep <= yrep && xrep > 0.0 then Ok(Fresh(if right then xrep else -xrep, 0.0))
      else if yrep <= xrep && yrep > 0.0 then Ok(Fresh(0.0, if down then yrep else -yrep))
      else Ok(Fresh(0.0, 0.0))
  }

  /** The repulsion acts along one axis only: along x when the x overlap is
      positive and not above the y overlap (so ties go to x), otherwise
      along y when the y overlap is positive and not above the x overlap,
      otherwise not at all; it points away from the obstacle's centre and
      its length is that overlap. */
  lemma RepulsionSingleAxis(vel: Vector, r: Rect, o: Rect)
    ensures var v := SimpleRepulsion(Some(vel), r, o).value;
      var (xrep, yrep) := Overlaps(r, o);
      var (right, down) := Ahead(r, o);
      (v.x == 0.0 || v.y == 0.0) &&
      (xrep > 0.0 && xrep <= yrep ==> v.y == 0.0 && RealAbs(v.x) == xrep && (v.x > 0.0 <==> right)) &&
      (!(xrep > 0.0 && xrep <= yrep) && yrep > 0.0 && yrep <= xrep ==>
         v.x == 0.0 && RealAbs(v.y) == yrep && (v.y > 0.0 <==> down)) &&
      (xrep <= 0.0 || yrep <= 0.0 ==> v.x == 0.0 && v.y == 0.0)
  {
  }

  /** With two positive overlaps the push is never zero. */
  lemma RepulsionNonZero(vel: Vector, r: Rect, o: Rect)
    requires Overlaps(r, o).0 > 0.0 && Overlaps(r, o).1 > 0.0
    ensures var v := SimpleRepulsion(Some(vel), r, o).value;
      v.x != 0.0 || v.y != 0.0
  {
  }

  /** Two 1x1 hitboxes half a unit apart overlap, yet the floored half-widths
      make both overlaps non-positive, so no repulsion comes out. */
  lemma UnitBoxesNotRepelled()
    ensures Overlap(Rect(0.0, 0.0, 1, 1), Rect(0.5, 0.5, 1, 1))
    ensures SimpleRepulsion(Some(Zero), Rect(0.0, 0.0, 1, 1), Rect(0.5, 0.5, 1, 1)) == Ok(Fresh(0.0, 0.0))
  {
    assert Half(1) == 0;
  }

  // ---------------------------------------------------------------------------
  // The repulsion with exact half-sizes
  // ---------------------------------------------------------------------------

  /** The overlaps along x and y with the half-sizes taken exactly. */
  function ExactOverlaps(r: Rect, o: Rect): (d: (real, real))
  {
    var xdiff := (r.x + r.w as real / 2.0) - (o.x + o.w as real / 2.0);
    var ydiff := (r.y + r.h as real / 2.0) - (o.y + o.h as real / 2.0);
    ((r.w + o.w) as real / 2.0 - RealAbs(xdiff), (r.h + o.h) as real / 2.0 - RealAbs(ydiff))
  }

  /** `simple_repulsion` with exact halves. */
  function ExactRepulsion(vel: Option<Vector>, r: Rect, o: Rect): (v: Result<Vector>)
    ensures vel.None? <==> v == Raise(AttributeError)
  {
    if vel.None? then Raise(AttributeError)
    else
      var (xrep, yrep) := ExactOverlaps(r, o);
      var right := (r.x + r.w as real / 2.0) - (o.x + o.w as real / 2.0) >= 0.0;
      var down := (r.y + r.h as real / 2.0) - (o.y + o.h as real / 2.0) >= 0.0;
      if xrep <= yrep && xrep > 0.0 then Ok(Fresh(if right then xrep else -xrep, 0.0))
      else if yrep <= xrep && yrep > 0.0 then Ok(Fresh(0.0, if down then yrep else -yrep))
      else Ok(Fresh(0.0, 0.0))
  }

  /** With exact halves, rectangles of non-negative size overlap exactly when
      both overlaps are positive. */
  lemma ExactOverlapsIff(r: Rect, o: Rect)
    requires r.w >= 0 && r.h >= 0 && o.w >= 0 && o.h >= 0
    ensures Overlap(r, o) <==> ExactOverlaps(r, o).0 > 0.0 && ExactOverlaps(r, o).1 > 0.0
  {
  }

  /** With exact halves, pushing an overlapping rectangle by the repulsion
      leaves it touching the obstacle but no longer overlapping it. */
  lemma ExactRepulsionSeparates(vel: Vector, r: Rect, o: Rect)
    requires r.w >= 0 && r.h >= 0 && o.w >= 0 && o.h >= 0
    requires Overlap(r, o)
    ensures var v := ExactRepulsion(Some(vel), r, o).value;
      !Overlap(r.(x := r.x + v.x, y := r.y + v.y), o)
  {
    ExactOverlapsIff(r, o);
  }
}

=== FILE: containers.dfy ===
/** Python list indexing, and Python dicts as sequences of key/value pairs
    with distinct keys, kept in insertion order. Where the code iterates
    over a dict, the sequence order stands for Python 2's iteration order,
    which the language leaves unspecified. */
module Containers {
  import opened Wrappers

  /** `s[i]` on a list: a negative index counts from the end; an index
      outside `-len(s) .. len(s) - 1` raises `IndexError`. */
  function PyIndex<T>(s: seq<T>, i: int): (r: Result<T>)
    ensures r.Ok? <==> -|s| <= i < |s|
    ensures r.Raise? ==> r.error == IndexError
    ensures 0 <= i < |s| ==> r == Ok(s[i])
  {
    if 0 <= i < |s| then Ok(s[i])
    else if -|s| <= i < 0 then Ok(s[|s| + i])
    else Raise(IndexError)
  }

  predicate UniqueKeys<K(==), V>(d: seq<(K, V)>)
  {
    forall i, j :: 0 <= i < j < |d| ==> d[i].0 != d[j].0
  }

  /** The position of key `k`, if present. */
  function Find<K(==), V>(d: seq<(K, V)>, k: K): (r: Option<nat>)
    ensures r.Some? ==> r.value < |d| && d[r.value].0 == k && forall i :: 0 <= i < r.value ==> d[i].0 != k
    ensures r.None? ==> forall i :: 0 <= i < |d| ==> d[i].0 != k
  {
    if d == [] then None
    else if d[0].0 == k then Some(0)
    else match Find(d[1..], k)
      case None => None
      case Some(i) => Some(i + 1)
  }

  /** `k in d`. */
  predicate Has<K(==), V>(d: seq<(K, V)>, k: K)
  {
    Find(d, k).Some?
  }

  /** `d[k]`, or `None` when `k` is missing. */
  function Get<K(==), V>(d: seq<(K, V)>, k: K): Option<V>
  {
    match Find(d, k)
      case None => None
      case Some(i) => Some(d[i].1)
  }

  /** `d[k]`: `KeyError` when `k` is missing. */
  function Subscript<K(==), V>(d: seq<(K, V)>, k: K): (r: Result<V>)
    ensures r.Ok? <==> Has(d, k)
    ensures r.Ok? ==> Get(d, k) == Some(r.value)
    ensures r.Raise? ==> r.error == KeyError
  {
    match Get(d, k)
      case None => Raise(KeyError)
      case Some(v) => Ok(v)
  }

  /** `d[k] = v`: the value of a present key is replaced where it stands; a
      new key goes last. */
  function Put<K(==), V>(d: seq<(K, V)>, k: K, v: V): (r: seq<(K, V)>)
  {
    match Find(d, k)
      case None => d + [(k, v)]
      case Some(i) => d[i := (k, v)]
  }

  /** After `d[k] = v`, `d[k]` is `v` and every other key keeps its value;
      keys stay distinct. */
  lemma PutGet<K, V>(d: seq<(K, V)>, k: K, v: V, other: K)
    ensures Get(Put(d, k, v), k) == Some(v)
    ensures other != k ==> Get(Put(d, k, v), other) == Get(d, other)
    ensures UniqueKeys(d) ==> UniqueKeys(Put(d, k, v))
  {
    var r := Put(d, k, v);
    match Find(d, k)
    case None =>
      FindAppend(d, (k, v), k);
      FindAppend(d, (k, v), other);
    case Some(i) =>
      FindReplace(d, i, v, k);
      FindReplace(d, i, v, other);
  }

  lemma FindAppend<K, V>(d: seq<(K, V)>, p: (K, V), k: K)
    ensures Find(d + [p], k) == if Find(d, k).Some? then Find(d, k) else if p.0 == k then Some(|d|) else None
    decreases |d|
  {
    if d != [] {
      assert (d + [p])[1..] == d[1..] + [p];
      FindAppend(d[1..], p, k);
    }
  }

  lemma FindReplace<K, V>(d: seq<(K, V)>, i: nat, v: V, k: K)
    requires i < |d|
    ensures Find(d[i := (d[i].0, v)], k) == Find(d, k)
  {
    var e := d[i := (d[i].0, v)];
    var r := Find(e, k);
    if r.Some? {
      assert e[r.value].0 == d[r.value].0;
    }
    var s := Find(d, k);
    if s.Some? {
      assert e[s.value].0 == d[s.value].0;
    }
  }
}

=== FILE: frame.dfy ===
/** `Frame`: the cursor of a cyclic animation (fxplib.py). */
module Frames {

  /** An animation step `(delay, rect)`: how long it shows and which cell
      of the image it shows. */
  datatype Cel = Cel(delay: int, rect: (int, int))

  /** The index `next()` moves to from `i` in an animation of `n` steps. */
  function NextIndex(i: nat, n: nat): (j: nat)
    requires n > 0
    ensures j < n
  {
    if i + 1 >= n then 0 else i + 1
  }

  /** The index after `k` calls of `next()` from `i`. */
  function After(i: nat, k: nat, n: nat): (j: nat)
    requires n > 0
  {
    if k == 0 then i else NextIndex(After(i, k - 1, n), n)
  }

  /** From a valid index, `k` steps advance the index by `k` modulo the
      animation's length. */
  lemma AfterModulo(i: nat, k: nat, n: nat)
    requires i < n
    ensures After(i, k, n) == (i + k) % n
  {
    var q := AfterQuotient(i, k, n);
    ModUnique(i + k, q, After(i, k, n), n);
  }

  /** How many times the index wrapped around in `k` steps. */
  lemma {:induction false} AfterQuotient(i: nat, k: nat, n: nat) returns (q: int)
    requires i < n
    ensures i + k == q * n + After(i, k, n)
  {
    if k == 0 {
      q := 0;
    } else {
      var q0 := AfterQuotient(i, k - 1, n);
      if After(i, k - 1, n) + 1 == n {
        q := q0 + 1;
        assert q * n == q0 * n + n;
      } else {
        q := q0;
      }
    }
  }

  /** The remainder is the only one in range. */
  lemma ModUnique(a: int, q: int, r: int, n: int)
    requires n > 0 && 0 <= r < n && a == q * n + r
    ensures a % n == r
  {
    var q', r' := a / n, a % n;
    assert (q - q') * n == r' - r;
    if q > q' {
      AtLeastOnce(q - q', n);
    } else if q < q' {
      AtLeastOnce(q' - q, n);
    }
  }

  lemma AtLeastOnce(d: int, n: int)
    requires d >= 1 && n >= 1
    ensures d * n >= n
  {
  }

  /** The animation comes back to where it was after as many steps as it has. */
  lemma Periodic(i: nat, n: nat)
    requires i < n
    ensures After(i, n, n) == i
  {
    AfterModulo(i, n, n);
    ModUnique(i + n, 1, i, n);
  }

  class Frame {
    var animation: seq<Cel>
    var delay: int
    var rect: (int, int)
    /** `iterator` in the source. */
    var index: int

    /** The index points into the animation, and `delay` and `rect` are
        those of the step it points to. */
    predicate Valid()
      reads this
    {
      0 <= index < |animation| &&
      delay == animation[index].delay && rect == animation[index].rect
    }

    /** `Frame(animation)`: the first step is shown. */
    constructor (animation: seq<Cel>)
      requires animation != []
      ensures Valid() && this.animation == animation && index == 0
    {
      this.animation := animation;
      delay := animation[0].delay;
      rect := animation[0].rect;
      index := 0;
    }

    /** `next()`: move to the following step, wrapping to the first after
        the last. */
    method Next()
      requires Valid()
      modifies this
      ensures Valid() && animation == old(animation)
      ensures index == NextIndex(old(index), |animation|)
    {
      index := index + 1;
      if index >= |animation| {
        index := 0;
      }
      delay := animation[index].delay;
      rect := animation[index].rect;
    }
  }
}

=== FILE: mapcollide.dfy ===
/** The hitboxes of a `Map` (`update_collisions` in fxplib.py): a cursor
    walks the cells row by row; at each solid cell that no hitbox covers
    yet it grows a rectangle downwards and rightwards while the new row and
    the new column are solid and uncovered, then appends that rectangle,
    in pixels, to the hitboxes. */
module MapCollisions {
  import opened Wrappers
  import opened PyNumbers
  import opened Containers
  import opened Objects
  import opened MapGrids

  /** What `update_collisions` reads from the map: the cells, the header of
      tileset names, the void name, the `solid` flag of each registered
      tileset by name, the tile size, `tiles_w` and `tiles_h`. */
  datatype View = View(
    tiles: Grid, header: seq<string>, void: string, solid: seq<(string, bool)>,
    ts: int, w: int, h: int)

  /** The test of `is_tested` for one hitbox: its position and size are
      divided by the tile size (integer division, rounding down) and the
      cell must lie inside. */
  predicate Covers(b: Box, x: int, y: int, ts: int)
    requires ts != 0
  {
    var rx, ry := FloorDiv(b.x, ts), FloorDiv(b.y, ts);
    rx <= x < rx + FloorDiv(b.w, ts) && ry <= y < ry + FloorDiv(b.h, ts)
  }

  /** `is_tested((x, y))`: some hitbox covers the cell. */
  predicate Tested(hs: seq<Box>, x: int, y: int, ts: int)
    requires ts != 0
  {
    exists i :: 0 <= i < |hs| && Covers(hs[i], x, y, ts)
  }

  /** Whether a cell stops a rectangle: `Ok(true)` when its tileset is the
      void, is not solid or the cell is covered already, `Ok(false)` for a
      solid uncovered cell. The id indexes the header as a list (a cell
      outside the grid reads 0) and the name is looked up among the
      tilesets, so either can raise. The start test of the cursor is the
      negation of the same expression, with the same exceptions. */
  function Blocked(v: View, hs: seq<Box>, x: int, y: int): Result<bool>
    requires v.ts != 0
  {
    var name :- PyIndex(v.header, Cell(v.tiles, x, y));
    if name == v.void then Ok(true)
    else
      var solid :- Subscript(v.solid, name);
      Ok(!solid || Tested(hs, x, y, v.ts))
  }

  /** A free cell holds a non-void, solid tileset and no hitbox covers it. */
  lemma FreeCell(v: View, hs: seq<Box>, x: int, y: int)
    requires v.ts != 0
    ensures Blocked(v, hs, x, y) == Ok(false) <==>
      PyIndex(v.header, Cell(v.tiles, x, y)).Ok? &&
      var name := PyIndex(v.header, Cell(v.tiles, x, y)).value;
      name != v.void && Get(v.solid, name) == Some(true) && !Tested(hs, x, y, v.ts)
  {
  }

  /** More hitboxes never free a cell, and never change whether the test of
      a cell raises. */
  lemma BlockedKept(v: View, hs: seq<Box>, more: seq<Box>, x: int, y: int)
    requires v.ts != 0
    ensures Blocked(v, hs, x, y) == Ok(true) ==> Blocked(v, hs + more, x, y) == Ok(true)
    ensures Blocked(v, hs, x, y).Raise? ==> Blocked(v, hs + more, x, y) == Blocked(v, hs, x, y)
    ensures Blocked(v, hs + more, x, y) == Ok(false) ==> Blocked(v, hs, x, y) == Ok(false)
  {
    if Tested(hs, x, y, v.ts) {
      var i :| 0 <= i < |hs| && Covers(hs[i], x, y, v.ts);
      assert (hs + more)[i] == hs[i];
    }
  }

  /** Tileset id 0, which every cell outside the grid reads, is not a solid
      non-void tileset. Without this a rectangle that reaches the edge of
      the grid grows for ever. */
  predicate ZeroStops(v: View)
  {
    match PyIndex(v.header, 0)
      case Raise(_) => true
      case Ok(name) => name == v.void || Get(v.solid, name) != Some(true)
  }

  /** Only a cell of the grid can be free. */
  lemma FreeInGrid(v: View, hs: seq<Box>, x: int, y: int)
    requires v.ts != 0 && ZeroStops(v)
    requires Blocked(v, hs, x, y) == Ok(false)
    ensures InGrid(v.tiles, x, y)
  {
  }

  /** The `for cur_x in range(0, w)` test of the row below a rectangle:
      whether one of the `n` cells from `(x, y)` rightwards stops it,
      scanning left to right up to the first that does. */
  function RowBlocked(v: View, hs: seq<Box>, x: int, y: int, n: nat): (r: Result<bool>)
    requires v.ts != 0
    ensures r == Ok(false) <==> forall c :: x <= c < x + n ==> Blocked(v, hs, c, y) == Ok(false)
    ensures n > 0 && r == Ok(false) ==> Blocked(v, hs, x, y) == Ok(false)
    decreases n
  {
    if n == 0 then Ok(false)
    else match Blocked(v, hs, x, y)
      case Raise(e) => Raise(e)
      case Ok(stop) =>
        if stop then Ok(true)
        else RowBlocked(v, hs, x + 1, y, n - 1)
  }

  /** The `for cur_y in range(0, h)` test of the column right of a
      rectangle, scanning top to bottom. */
  function ColBlocked(v: View, hs: seq<Box>, x: int, y: int, n: nat): (r: Result<bool>)
    requires v.ts != 0
    ensures r == Ok(false) <==> forall c :: y <= c < y + n ==> Blocked(v, hs, x, c) == Ok(false)
    ensures n > 0 && r == Ok(false) ==> Blocked(v, hs, x, y) == Ok(false)
    decreases n
  {
    if n == 0 then Ok(false)
    else match Blocked(v, hs, x, y)
      case Raise(e) => Raise(e)
      case Ok(stop) =>
        if stop then Ok(true)
        else ColBlocked(v, hs, x, y + 1, n - 1)
  }

  /** The variables of the growing rectangle: its size in cells and the
      flags `h_end` and `v_end`. */
  datatype Growth = Growth(w: nat, h: nat, hEnd: bool, vEnd: bool)

  const Start := Growth(1, 1, false, false)

  /** The rectangle at `(tx, ty)` lies inside the grid: its rows below
      the last row of the grid and its columns inside the first row. */
  predicate Sized(v: View, tx: int, ty: int, g: Growth)
  {
    0 <= tx && 0 <= ty && 1 <= g.w && 1 <= g.h &&
    ty + g.h <= |v.tiles| && tx + g.w <= |v.tiles[ty]|
  }

  /** What is left to grow: room below, room to the right, and flags not
      yet set. */
  function Measure(v: View, tx: int, ty: int, g: Growth): nat
    requires Sized(v, tx, ty, g)
  {
    (|v.tiles| - ty - g.h) + (|v.tiles[ty]| - tx - g.w) +
    (if g.hEnd then 0 else 1) + (if g.vEnd then 0 else 1)
  }

  /** The first half of a round: unless `h_end`, test the row below and
      either set `h_end` or take the row in. */
  function GrowDown(v: View, hs: seq<Box>, tx: int, ty: int, g: Growth): Result<Growth>
    requires v.ts != 0
  {
    if g.hEnd then Ok(g)
    else
      var stop :- RowBlocked(v, hs, tx, ty + g.h, g.w);
      Ok(if stop then g.(hEnd := true) else g.(h := g.h + 1))
  }

  /** The second half: unless `v_end`, test the column to the right, over
      the height just reached, and either set `v_end` or take it in. */
  function GrowRight(v: View, hs: seq<Box>, tx: int, ty: int, g: Growth): Result<Growth>
    requires v.ts != 0
  {
    if g.vEnd then Ok(g)
    else
      var stop :- ColBlocked(v, hs, tx + g.w, ty, g.h);
      Ok(if stop then g.(vEnd := true) else g.(w := g.w + 1))
  }

  /** One pass of `while not (h_end and v_end)`. It keeps the rectangle
      in the grid and leaves less to grow. */
  function Round(v: View, hs: seq<Box>, tx: int, ty: int, g: Growth): (r: Result<Growth>)
    requires v.ts != 0 && ZeroStops(v) && Sized(v, tx, ty, g)
    ensures r.Ok? ==> Sized(v, tx, ty, r.value)
    ensures r.Ok? && !(g.hEnd && g.vEnd) ==> Measure(v, tx, ty, r.value) < Measure(v, tx, ty, g)
    ensures r.Ok? ==> g.w <= r.value.w && g.h <= r.value.h
  {
    var down :- GrowDown(v, hs, tx, ty, g);
    assert down.h > g.h ==> InGrid(v.tiles, tx, ty + g.h) by {
      if down.h > g.h {
        FreeInGrid(v, hs, tx, ty + g.h);
      }
    }
    var right :- GrowRight(v, hs, tx, ty, down);
    assert right.w > down.w ==> InGrid(v.tiles, tx + down.w, ty) by {
      if right.w > down.w {
        FreeInGrid(v, hs, tx + down.w, ty);
      }
    }
    Ok(right)
  }

  /** The growth loop: rounds until both flags are set. */
  function Grow(v: View, hs: seq<Box>, tx: int, ty: int, g: Growth): (r: Result<Growth>)
    requires v.ts != 0 && ZeroStops(v) && Sized(v, tx, ty, g)
    ensures r.Ok? ==> Sized(v, tx, ty, r.value) && r.value.hEnd && r.value.vEnd
    ensures r.Ok? ==> g.w <= r.value.w && g.h <= r.value.h
    decreases Measure(v, tx, ty, g)
  {
    if g.hEnd && g.vEnd then Ok(g)
    else
      var next :- Round(v, hs, tx, ty, g);
      Grow(v, hs, tx, ty, next)
  }

  /** Every cell of the `w` by `h` rectangle at `(tx, ty)` is free. */
  predicate Free(v: View, hs: seq<Box>, tx: int, ty: int, w: int, h: int)
    requires v.ts != 0
  {
    forall x, y :: tx <= x < tx + w && ty <= y < ty + h ==> Blocked(v, hs, x, y) == Ok(false)
  }

  /** A round only takes in free rows and columns. */
  lemma RoundFree(v: View, hs: seq<Box>, tx: int, ty: int, g: Growth)
    requires v.ts != 0 && ZeroStops(v) && Sized(v, tx, ty, g)
    requires Free(v, hs, tx, ty, g.w, g.h)
    requires Round(v, hs, tx, ty, g).Ok?
    ensures var r := Round(v, hs, tx, ty, g).value; Free(v, hs, tx, ty, r.w, r.h)
  {
    var down := GrowDown(v, hs, tx, ty, g).value;
    assert Free(v, hs, tx, ty, down.w, down.h) by {
      if down.h > g.h {
        forall x, y | tx <= x < tx + down.w && ty <= y < ty + down.h
          ensures Blocked(v, hs, x, y) == Ok(false)
        {
        }
      }
    }
    var right := GrowRight(v, hs, tx, ty, down).value;
    if right.w > down.w {
      forall x, y | tx <= x < tx + right.w && ty <= y < ty + right.h
        ensures Blocked(v, hs, x, y) == Ok(false)
      {
      }
    }
  }

  /** The rectangle a growth ends with is free. */
  lemma {:induction false} GrowFree(v: View, hs: seq<Box>, tx: int, ty: int, g: Growth)
    requires v.ts != 0 && ZeroStops(v) && Sized(v, tx, ty, g)
    requires Free(v, hs, tx, ty, g.w, g.h)
    requires Grow(v, hs, tx, ty, g).Ok?
    ensures var r := Grow(v, hs, tx, ty, g).value; Free(v, hs, tx, ty, r.w, r.h)
    decreases Measure(v, tx, ty, g)
  {
    if !(g.hEnd && g.vEnd) {
      RoundFree(v, hs, tx, ty, g);
      GrowFree(v, hs, tx, ty, Round(v, hs, tx, ty, g).value);
    }
  }

  /** The hitbox, in pixels, of the `w` by `h` rectangle at `(tx, ty)`. */
  function Hitbox(tx: int, ty: int, g: Growth, ts: int): Box
  {
    Box(tx * ts, ty * ts, g.w * ts, g.h * ts)
  }

  /** Read back in cells, the hitbox covers exactly its rectangle. */
  lemma HitboxCells(tx: int, ty: int, g: Growth, ts: int, x: int, y: int)
    requires ts != 0
    ensures Covers(Hitbox(tx, ty, g, ts), x, y, ts) <==> tx <= x < tx + g.w && ty <= y < ty + g.h
  {
    FloorDivExact(tx, ts);
    FloorDivExact(ty, ts);
    FloorDivExact(g.w, ts);
    FloorDivExact(g.h, ts);
  }

  /** One position of the cursor: the hitboxes after it. A free cell
      starts a rectangle at `Start`, whose hitbox is appended once both
      flags are set. */
  function Visit(v: View, hs: seq<Box>, tx: int, ty: int): (r: Result<seq<Box>>)
    requires v.ts != 0 && ZeroStops(v)
    ensures r.Ok? ==> hs <= r.value && |r.value| <= |hs| + 1
  {
    var stop :- Blocked(v, hs, tx, ty);
    if stop then Ok(hs)
    else
      assert Sized(v, tx, ty, Start) by {
        FreeInGrid(v, hs, tx, ty);
      }
      var g :- Grow(v, hs, tx, ty, Start);
      Ok(hs + [Hitbox(tx, ty, g, v.ts)])
  }

  /** The cursor loop from `(tx, ty)` on: the hitboxes at the end and the
      exception that ended it, if any. The cursor moves one cell right,
      and to the start of the next row once it reaches `tiles_w`. */
  function Sweep(v: View, hs: seq<Box>, tx: int, ty: int): (r: (seq<Box>, Option<PyError>))
    requires v.ts != 0 && ZeroStops(v)
    ensures hs <= r.0
    decreases v.h - ty, v.w - tx
  {
    if ty >= v.h then (hs, None)
    else match Visit(v, hs, tx, ty)
      case Raise(e) => (hs, Some(e))
      case Ok(next) =>
        if tx + 1 >= v.w then Sweep(v, next, 0, ty + 1) else Sweep(v, next, tx + 1, ty)
  }

  // ---------------------------------------------------------------------------
  // What the hitboxes of a sweep cover
  // ---------------------------------------------------------------------------

  /** The cells the cursor visits from `(tx, ty)`: the rest of row `ty`,
      then every later row above `tiles_h`, each `tiles_w` cells wide; the
      cursor visits the cell it stands on even when `tiles_w` is 0. */
  predicate Ahead(v: View, tx: int, ty: int, x: int, y: int)
  {
    ty <= y < v.h &&
    var first := if y == ty then tx else 0;
    first <= x && (x < v.w || x == first)
  }

  /** A cell whose tileset is registered, solid and not the void. */
  predicate SolidCell(v: View, x: int, y: int)
  {
    var name := PyIndex(v.header, Cell(v.tiles, x, y));
    name.Ok? && name.value != v.void && Get(v.solid, name.value) == Some(true)
  }

  /** After a visit the cell under the cursor stops rectangles: it was
      blocked already or the new hitbox covers it. */
  lemma VisitCovers(v: View, hs: seq<Box>, tx: int, ty: int)
    requires v.ts > 0 && ZeroStops(v)
    requires Visit(v, hs, tx, ty).Ok?
    ensures Blocked(v, Visit(v, hs, tx, ty).value, tx, ty) == Ok(true)
  {
    if Blocked(v, hs, tx, ty) == Ok(false) {
      FreeInGrid(v, hs, tx, ty);
      var g := Grow(v, hs, tx, ty, Start).value;
      var next := Visit(v, hs, tx, ty).value;
      HitboxCells(tx, ty, g, v.ts, tx, ty);
      assert Covers(next[|hs|], tx, ty, v.ts);
    }
  }

  /** A visit adds at most one hitbox, and every cell it covers was free. */
  lemma VisitClaims(v: View, hs: seq<Box>, tx: int, ty: int)
    requires v.ts > 0 && ZeroStops(v)
    requires Visit(v, hs, tx, ty).Ok?
    ensures var next := Visit(v, hs, tx, ty).value;
      |next| > |hs| ==> forall x, y :: Covers(next[|hs|], x, y, v.ts) ==> Blocked(v, hs, x, y) == Ok(false)
  {
    var next := Visit(v, hs, tx, ty).value;
    if |next| > |hs| {
      FreeInGrid(v, hs, tx, ty);
      GrowFree(v, hs, tx, ty, Start);
      var g := Grow(v, hs, tx, ty, Start).value;
      forall x, y | Covers(next[|hs|], x, y, v.ts)
        ensures Blocked(v, hs, x, y) == Ok(false)
      {
        HitboxCells(tx, ty, g, v.ts, x, y);
      }
    }
  }

  /** A sweep that raises nothing leaves every cell it visits blocked:
      void, not solid, or covered by a hitbox. */
  lemma {:induction false} SweepCovers(v: View, hs: seq<Box>, tx: int, ty: int)
    requires v.ts > 0 && ZeroStops(v)
    ensures var r := Sweep(v, hs, tx, ty);
      r.1 == None ==> forall x, y :: Ahead(v, tx, ty, x, y) ==> Blocked(v, r.0, x, y) == Ok(true)
    decreases v.h - ty, v.w - tx
  {
    if ty < v.h && Visit(v, hs, tx, ty).Ok? {
      var next := Visit(v, hs, tx, ty).value;
      var (nx, ny) := if tx + 1 >= v.w then (0, ty + 1) else (tx + 1, ty);
      var r := Sweep(v, hs, tx, ty);
      assert r == Sweep(v, next, nx, ny);
      SweepCovers(v, next, nx, ny);
      if r.1 == None {
        forall x, y | Ahead(v, tx, ty, x, y)
          ensures Blocked(v, r.0, x, y) == Ok(true)
        {
          if (x, y) == (tx, ty) {
            VisitCovers(v, hs, tx, ty);
            BlockedKept(v, next, r.0[|next|..], x, y);
            assert next + r.0[|next|..] == r.0;
          } else {
            assert Ahead(v, nx, ny, x, y);
          }
        }
      }
    }
  }

  /** Each hitbox of `r` from position `|hs|` on covers only cells that
      were free before it was added. */
  ghost predicate Claimed(v: View, hs: seq<Box>, r: seq<Box>)
    requires v.ts != 0
  {
    forall i, x, y :: |hs| <= i < |r| && Covers(r[i], x, y, v.ts) ==> Blocked(v, r[..i], x, y) == Ok(false)
  }

  /** Each hitbox a sweep appends covers only cells that were free before
      it was added. */
  lemma {:induction false} SweepClaims(v: View, hs: seq<Box>, tx: int, ty: int)
    requires v.ts > 0 && ZeroStops(v)
    ensures Claimed(v, hs, Sweep(v, hs, tx, ty).0)
    decreases v.h - ty, v.w - tx
  {
    if ty < v.h && Visit(v, hs, tx, ty).Ok? {
      var next := Visit(v, hs, tx, ty).value;
      var (nx, ny) := if tx + 1 >= v.w then (0, ty + 1) else (tx + 1, ty);
      var r := Sweep(v, hs, tx, ty).0;
      assert r == Sweep(v, next, nx, ny).0;
      SweepClaims(v, next, nx, ny);
      VisitClaims(v, hs, tx, ty);
      forall i, x, y | |hs| <= i < |r| && Covers(r[i], x, y, v.ts)
        ensures Blocked(v, r[..i], x, y) == Ok(false)
      {
        if i < |next| {
          assert r[..i] == hs && r[i] == next[|hs|];
        }
      }
    }
  }

  /** The hitboxes a sweep appends lie on solid cells of the grid and do
      not overlap each other or the hitboxes there before. */
  lemma SweepHitboxes(v: View, hs: seq<Box>)
    requires v.ts > 0 && ZeroStops(v)
    ensures var r := Sweep(v, hs, 0, 0).0;
      forall i, x, y :: |hs| <= i < |r| && Covers(r[i], x, y, v.ts) ==>
        InGrid(v.tiles, x, y) && SolidCell(v, x, y)
    ensures var r := Sweep(v, hs, 0, 0).0;
      forall i, j, x, y :: |hs| <= i < |r| && 0 <= j < i && Covers(r[i], x, y, v.ts) ==>
        !Covers(r[j], x, y, v.ts)
  {
    var r := Sweep(v, hs, 0, 0).0;
    SweepClaims(v, hs, 0, 0);
    assert Claimed(v, hs, r);
    forall i, x, y | |hs| <= i < |r| && Covers(r[i], x, y, v.ts)
      ensures InGrid(v.tiles, x, y) && SolidCell(v, x, y)
      ensures forall j :: 0 <= j < i ==> !Covers(r[j], x, y, v.ts)
    {
      FreeInGrid(v, r[..i], x, y);
      FreeCell(v, r[..i], x, y);
      forall j | 0 <= j < i
        ensures !Covers(r[j], x, y, v.ts)
      {
        assert r[..i][j] == r[j];
      }
    }
  }

  /** A sweep that raises nothing leaves every solid cell of the
      `tiles_w` by `tiles_h` grid covered. */
  lemma SweepCoversSolid(v: View, hs: seq<Box>)
    requires v.ts > 0 && ZeroStops(v)
    ensures var r := Sweep(v, hs, 0, 0);
      r.1 == None ==> forall x, y :: 0 <= x < v.w && 0 <= y < v.h && SolidCell(v, x, y) ==> Tested(r.0, x, y, v.ts)
  {
    var r := Sweep(v, hs, 0, 0);
    SweepCovers(v, hs, 0, 0);
    if r.1 == None {
      forall x, y | 0 <= x < v.w && 0 <= y < v.h && SolidCell(v, x, y)
        ensures Tested(r.0, x, y, v.ts)
      {
        assert Ahead(v, 0, 0, x, y);
      }
    }
  }

  /** From a cursor at which every cell ahead is blocked, a sweep adds
      nothing and raises nothing. */
  lemma {:induction false} SweepSettled(v: View, hs: seq<Box>, tx: int, ty: int)
    requires v.ts > 0 && ZeroStops(v)
    requires forall x, y :: Ahead(v, tx, ty, x, y) ==> Blocked(v, hs, x, y) == Ok(true)
    ensures Sweep(v, hs, tx, ty) == (hs, None)
    decreases v.h - ty, v.w - tx
  {
    if ty < v.h {
      assert Ahead(v, tx, ty, tx, ty);
      var (nx, ny) := if tx + 1 >= v.w then (0, ty + 1) else (tx + 1, ty);
      assert forall x, y :: Ahead(v, nx, ny, x, y) ==> Ahead(v, tx, ty, x, y);
      SweepSettled(v, hs, nx, ny);
    }
  }

  /** A second sweep after one that raised nothing appends nothing. */
  lemma SweepIdempotent(v: View, hs: seq<Box>)
    requires v.ts > 0 && ZeroStops(v)
    ensures var r := Sweep(v, hs, 0, 0);
      r.1 == None ==> Sweep(v, r.0, 0, 0) == r
  {
    SweepCovers(v, hs, 0, 0);
    var r := Sweep(v, hs, 0, 0);
    if r.1 == None {
      SweepSettled(v, r.0, 0, 0);
    }
  }

  // ---------------------------------------------------------------------------
  // The loops of `update_collisions`
  // ---------------------------------------------------------------------------

  /** `is_tested((x, y))`: the hitboxes are tried in order. */
  method IsTested(hs: seq<Box>, x: int, y: int, ts: int) returns (t: bool)
    requires ts != 0
    ensures t == Tested(hs, x, y, ts)
  {
    var i := 0;
    while i < |hs|
      invariant 0 <= i <= |hs|
      invariant forall k :: 0 <= k < i ==> !Covers(hs[k], x, y, ts)
    {
      var b := hs[i];
      var rx, ry, rw, rh := FloorDiv(b.x, ts), FloorDiv(b.y, ts), FloorDiv(b.w, ts), FloorDiv(b.h, ts);
      if x >= rx && x < rx + rw && y >= ry && y < ry + rh {
        return true;
      }
      i := i + 1;
    }
    return false;
  }

  /** The test of one cell: its id, the header entry for it, the tileset
      of that name and the hitboxes, in that order. */
  method CheckCell(v: View, hs: seq<Box>, x: int, y: int) returns (r: Result<bool>)
    requires v.ts != 0
    ensures r == Blocked(v, hs, x, y)
  {
    var name := PyIndex(v.header, Cell(v.tiles, x, y));
    if name.Raise? {
      return Raise(name.error);
    }
    if name.value == v.void {
      return Ok(true);
    }
    var solid := Subscript(v.solid, name.value);
    if solid.Raise? {
      return Raise(solid.error);
    }
    if !solid.value {
      return Ok(true);
    }
    var t := IsTested(hs, x, y, v.ts);
    return Ok(t);
  }

  /** `for cur_x in range(0, w)` over the row below the rectangle. */
  method RowCheck(v: View, hs: seq<Box>, x: int, y: int, n: nat) returns (r: Result<bool>)
    requires v.ts != 0
    ensures r == RowBlocked(v, hs, x, y, n)
  {
    var k := 0;
    while k < n
      invariant 0 <= k <= n
      invariant RowBlocked(v, hs, x, y, n) == RowBlocked(v, hs, x + k, y, n - k)
    {
      var c := CheckCell(v, hs, x + k, y);
      if c.Raise? {
        return Raise(c.error);
      }
      if c.value {
        return Ok(true);
      }
      k := k + 1;
    }
    return Ok(false);
  }

  /** `for cur_y in range(0, h)` over the column right of the rectangle. */
  method ColCheck(v: View, hs: seq<Box>, x: int, y: int, n: nat) returns (r: Result<bool>)
    requires v.ts != 0
    ensures r == ColBlocked(v, hs, x, y, n)
  {
    var k := 0;
    while k < n
      invariant 0 <= k <= n
      invariant ColBlocked(v, hs, x, y, n) == ColBlocked(v, hs, x, y + k, n - k)
    {
      var c := CheckCell(v, hs, x, y + k);
      if c.Raise? {
        return Raise(c.error);
      }
      if c.value {
        return Ok(true);
      }
      k := k + 1;
    }
    return Ok(false);
  }

  /** `while not (h_end and v_end)` from a free cell. */
  method GrowRect(v: View, hs: seq<Box>, tx: int, ty: int) returns (r: Result<Growth>)
    requires v.ts != 0 && ZeroStops(v)
    requires Blocked(v, hs, tx, ty) == Ok(false)
    ensures Sized(v, tx, ty, Start) && r == Grow(v, hs, tx, ty, Start)
  {
    FreeInGrid(v, hs, tx, ty);
    var g := Start;
    while !(g.hEnd && g.vEnd)
      invariant Sized(v, tx, ty, g)
      invariant Grow(v, hs, tx, ty, Start) == Grow(v, hs, tx, ty, g)
      decreases Measure(v, tx, ty, g)
    {
      var down := DownStep(v, hs, tx, ty, g);
      if down.Raise? {
        return Raise(down.error);
      }
      var right := RightStep(v, hs, tx, ty, down.value);
      if right.Raise? {
        return Raise(right.error);
      }
      assert Round(v, hs, tx, ty, g) == right;
      g := right.value;
    }
    return Ok(g);
  }

  /** The row test of a round and `h += 1` when it passes. */
  method DownStep(v: View, hs: seq<Box>, tx: int, ty: int, g: Growth) returns (r: Result<Growth>)
    requires v.ts != 0
    ensures r == GrowDown(v, hs, tx, ty, g)
  {
    if g.hEnd {
      return Ok(g);
    }
    var stop := RowCheck(v, hs, tx, ty + g.h, g.w);
    if stop.Raise? {
      return Raise(stop.error);
    }
    return Ok(if stop.value then g.(hEnd := true) else g.(h := g.h + 1));
  }

  /** The column test of a round and `w += 1` when it passes. */
  method RightStep(v: View, hs: seq<Box>, tx: int, ty: int, g: Growth) returns (r: Result<Growth>)
    requires v.ts != 0
    ensures r == GrowRight(v, hs, tx, ty, g)
  {
    if g.vEnd {
      return Ok(g);
    }
    var stop := ColCheck(v, hs, tx + g.w, ty, g.h);
    if stop.Raise? {
      return Raise(stop.error);
    }
    return Ok(if stop.value then g.(vEnd := true) else g.(w := g.w + 1));
  }

  /** One position of the cursor: the start test, then the growth and the
      new hitbox in pixels. */
  method VisitCell(v: View, hs: seq<Box>, tx: int, ty: int) returns (r: Result<seq<Box>>)
    requires v.ts != 0 && ZeroStops(v)
    ensures r == Visit(v, hs, tx, ty)
  {
    var c := CheckCell(v, hs, tx, ty);
    if c.Raise? {
      return Raise(c.error);
    }
    if c.value {
      return Ok(hs);
    }
    var g := GrowRect(v, hs, tx, ty);
    if g.Raise? {
      return Raise(g.error);
    }
    var ts := v.ts;
    return Ok(hs + [Box(tx * ts, ty * ts, g.value.w * ts, g.value.h * ts)]);
  }
}

=== FILE: mapfile.dfy ===
/** The FXP map format read by `Map.load_from_file` (fxplib.py): the magic
    `FXP`, a version byte 0, a header of tileset names each introduced by
    0x02 and closed by 0x03, then a body of `(count, id)` byte pairs in
    which a count of 0 starts a new row and any other count repeats `id`
    that many times in the current row. */
module MapFiles {
  import opened Wrappers
  import opened PyNumbers
  import opened MapGrids

  /** An element of the `bytearray` the file is read into. */
  type Byte = b: int | 0 <= b < 256

  const Magic: seq<Byte> := [70, 88, 80]

  /** The attributes `load_from_file` writes. */
  datatype MapData = MapData(header: seq<string>, tiles: Grid, tilesW: int, tilesH: int)

  /** The characters of a tileset name: the bytes up to the next 0x02 or
      0x03, or up to the end of the file. */
  function Name(s: seq<Byte>): (n: string)
    ensures |n| <= |s|
    ensures |n| < |s| ==> s[|n|] == 2 || s[|n|] == 3
  {
    if s == [] || s[0] == 2 || s[0] == 3 then [] else [s[0] as char] + Name(s[1..])
  }

  /** `e` with its index moved `k` further on. */
  function Shift(e: Result<nat>, k: nat): Result<nat>
  {
    if e.Ok? then Ok(e.value + k) else e
  }

  /** The header loop of `load_from_file`, run on the bytes from its
      cursor: the names it appends, and the offset of the closing 0x03, or
      `IndexError` when the file ends first. A 0x02 starts a name; any
      other byte before the 0x03 is skipped. */
  function Scan(s: seq<Byte>): (r: (seq<string>, Result<nat>))
    ensures r.1.Ok? ==> r.1.value < |s|
    ensures r.1.Raise? ==> r.1.error == IndexError
    decreases |s|
  {
    if s == [] then ([], Raise(IndexError))
    else if s[0] == 3 then ([], Ok(0))
    else if s[0] == 2 then
      var n := Name(s[1..]);
      var rest := Scan(s[|n| + 1..]);
      ([n] + rest.0, Shift(rest.1, |n| + 1))
    else
      var rest := Scan(s[1..]);
      (rest.0, Shift(rest.1, 1))
  }

  function Repeat(id: int, n: nat): (r: seq<int>)
    ensures |r| == n && forall k :: 0 <= k < n ==> r[k] == id
  {
    if n == 0 then [] else Repeat(id, n - 1) + [id]
  }

  /** A body pair `(count, id)`. */
  type Pair = (Byte, Byte)

  /** `[tuple(b[c:c+2]) for c in range(0, len(b), 2)]` without the lone
      last byte of an odd-length body, which makes a 1-tuple. */
  function Pairs(b: seq<Byte>): (ps: seq<Pair>)
    ensures |b| == 2 * |ps| || |b| == 2 * |ps| + 1
    decreases |b|
  {
    if |b| < 2 then [] else [(b[0], b[1])] + Pairs(b[2..])
  }

  /** One body pair applied to the rows read so far: a count of 0 starts a
      new row, any other count appends that many copies of the id to the
      current row. */
  function Apply(rows: Grid, p: Pair): (r: Grid)
    requires rows != []
    ensures r != []
  {
    if p.0 == 0 then rows + [[]] else AppendToLast(rows, Repeat(p.1, p.0))
  }

  /** The rows with `xs` appended to the last one. */
  function AppendToLast(rows: Grid, xs: seq<int>): (r: Grid)
    requires rows != []
    ensures |r| == |rows|
  {
    rows[..|rows| - 1] + [rows[|rows| - 1] + xs]
  }

  /** The rows the pairs decode to, starting from one empty row. */
  function Expand(ps: seq<Pair>): (rows: Grid)
    ensures rows != []
  {
    if ps == [] then [[]] else Apply(Expand(ps[..|ps| - 1]), ps[|ps| - 1])
  }

  /** `max([len(line) for line in tiles])`. */
  function Widest(tiles: Grid): (w: int)
    requires tiles != []
    ensures exists k :: 0 <= k < |tiles| && w == |tiles[k]|
    ensures forall k :: 0 <= k < |tiles| ==> |tiles[k]| <= w
  {
    var lens := seq(|tiles|, k requires 0 <= k < |tiles| => |tiles[k]|);
    assert forall k :: 0 <= k < |tiles| ==> lens[k] == |tiles[k]|;
    Max(lens)
  }

  /** `load_from_file` on the bytes `a` of the file: the new attributes and
      the exception raised, if any. A file without the magic or with
      another version is ignored; the header names are appended even when
      the header runs off the end. */
  function Load(d: MapData, a: seq<Byte>): (r: (MapData, Option<PyError>))
    ensures r.1 == None || r.1 == Some(IndexError) || r.1 == Some(ValueError)
    ensures |d.header| <= |r.0.header| && r.0.header[..|d.header|] == d.header
    ensures |d.tiles| <= |r.0.tiles| && r.0.tiles[..|d.tiles|] == d.tiles
  {
    if |a| < 3 || a[..3] != Magic then (d, None)
    else if |a| == 3 then (d, Some(IndexError))
    else if a[3] != 0 then (d, None)
    else
      var scan := Scan(a[4..]);
      var named := d.(header := d.header + scan.0);
      match scan.1
        case Raise(e) => (named, Some(e))
        case Ok(t) => LoadBody(named, a[4 + t + 1..])
  }

  /** The body part of `load_from_file`, from the byte after the 0x03: the
      decoded rows are appended even when the body ends with a lone byte,
      which raises `ValueError` before the sizes are updated. */
  function LoadBody(d: MapData, b: seq<Byte>): (r: (MapData, Option<PyError>))
    ensures r.1 == None || r.1 == Some(ValueError)
    ensures r.0.header == d.header && |d.tiles| < |r.0.tiles| && r.0.tiles[..|d.tiles|] == d.tiles
    ensures r.1 == None ==> r.0.tilesH == |r.0.tiles| && forall k :: 0 <= k < |r.0.tiles| ==> |r.0.tiles[k]| <= r.0.tilesW
  {
    var ps := Pairs(b);
    var tiles := d.tiles + Expand(ps);
    assert tiles[..|d.tiles|] == d.tiles;
    if |b| == 2 * |ps| + 1 then (d.(tiles := tiles), Some(ValueError))
    else (d.(tiles := tiles, tilesH := |tiles|, tilesW := Widest(tiles)), None)
  }

  /** A file that is not an FXP file of version 0 leaves the map as it was. */
  lemma ForeignFileIgnored(d: MapData, a: seq<Byte>)
    requires |a| < 3 || a[..3] != Magic || (|a| > 3 && a[3] != 0)
    ensures Load(d, a) == (d, None)
  {
  }

  /** The number of pairs with count 0. */
  function NewLines(ps: seq<Pair>): nat
  {
    if ps == [] then 0 else NewLines(ps[..|ps| - 1]) + (if ps[|ps| - 1].0 == 0 then 1 else 0)
  }

  /** The pairs decode to one row more than there are pairs with count 0,
      and each id lands in the last row with as many copies as its count. */
  lemma {:induction false} RowCount(ps: seq<Pair>)
    ensures |Expand(ps)| == 1 + NewLines(ps)
  {
    if ps != [] {
      RowCount(ps[..|ps| - 1]);
    }
  }

  /** A body of whole pairs sets the height to the number of rows and the
      width to the longest row; the rows already there count too. */
  lemma EvenBody(d: MapData, b: seq<Byte>)
    requires |b| == 2 * |Pairs(b)|
    ensures var tiles := d.tiles + Expand(Pairs(b));
      LoadBody(d, b) == (d.(tiles := tiles, tilesH := |tiles|, tilesW := Widest(tiles)), None) &&
      tiles[..|d.tiles|] == d.tiles && tiles[|d.tiles|..] == Expand(Pairs(b)) &&
      forall k :: 0 <= k < |tiles| ==> |tiles[k]| <= LoadBody(d, b).0.tilesW
  {
    var tiles := d.tiles + Expand(Pairs(b));
    assert tiles[..|d.tiles|] == d.tiles && tiles[|d.tiles|..] == Expand(Pairs(b));
  }

  // ---------------------------------------------------------------------------
  // The loops of `load_from_file`
  // ---------------------------------------------------------------------------

  /** The name loop: characters from index `j` up to the next 0x02 or
      0x03, or to the end. */
  method ReadName(a: seq<Byte>, j: nat) returns (s: string)
    requires j <= |a|
    ensures s == Name(a[j..])
  {
    s := [];
    var k := j;
    while k < |a| && a[k] != 2 && a[k] != 3
      invariant j <= k <= |a|
      invariant Name(a[j..]) == s + Name(a[k..])
    {
      NameStep(a, j, k, s);
      s := s + [a[k] as char];
      k := k + 1;
    }
    NameEnd(a, j, k, s);
  }

  lemma NameStep(a: seq<Byte>, j: nat, k: nat, s: string)
    requires j <= k < |a| && a[k] != 2 && a[k] != 3
    requires Name(a[j..]) == s + Name(a[k..])
    ensures Name(a[j..]) == (s + [a[k] as char]) + Name(a[k + 1..])
  {
    assert a[k..][1..] == a[k + 1..];
    assert Name(a[k..]) == [a[k] as char] + Name(a[k + 1..]);
  }

  lemma NameEnd(a: seq<Byte>, j: nat, k: nat, s: string)
    requires j <= k <= |a| && (k == |a| || a[k] == 2 || a[k] == 3)
    requires Name(a[j..]) == s + Name(a[k..])
    ensures s == Name(a[j..])
  {
    assert Name(a[k..]) == [];
    assert s + [] == s;
  }

  /** A pass of the header loop at a 0x02 reads the name that follows;
      the next pass starts at the separator after it. */
  lemma ScanMark(a: seq<Byte>, i: nat, n: string, next: nat)
    requires i < |a| && a[i] == 2 && n == Name(a[i + 1..]) && next == i + 1 + |n|
    ensures next <= |a|
    ensures Scan(a[i..]) == ([n] + Scan(a[next..]).0, Shift(Scan(a[next..]).1, next - i))
  {
    assert a[i..][1..] == a[i + 1..];
    assert a[i..][|n| + 1..] == a[next..];
  }

  /** A pass at any other byte but 0x03 skips it. */
  lemma ScanSkip(a: seq<Byte>, i: nat, next: nat)
    requires i < |a| && a[i] != 2 && a[i] != 3 && next == i + 1
    ensures Scan(a[i..]) == ([] + Scan(a[next..]).0, Shift(Scan(a[next..]).1, next - i))
  {
    assert a[i..][1..] == a[next..];
    assert [] + Scan(a[next..]).0 == Scan(a[next..]).0;
  }

  /** One pass of the header loop at index `i`: the name read there, if
      the byte is 0x02, and the index of the next pass. */
  method ScanOne(a: seq<Byte>, i: nat) returns (names: seq<string>, next: nat)
    requires i < |a| && a[i] != 3
    ensures i < next <= |a|
    ensures Scan(a[i..]) == (names + Scan(a[next..]).0, Shift(Scan(a[next..]).1, next - i))
  {
    if a[i] == 2 {
      var s := ReadName(a, i + 1);
      names, next := [s], i + 1 + |s|;
      ScanMark(a, i, s, next);
    } else {
      names, next := [], i + 1;
      ScanSkip(a, i, next);
    }
  }

  /** Moving an index twice moves it by the sum. */
  lemma ShiftTwice(e: Result<nat>, j: nat, k: nat)
    ensures Shift(Shift(e, j), k) == Shift(e, j + k)
  {
  }

  /** The header loop of `load_from_file`, from index 4 up to the 0x03
      that closes it: the names it reads, and the index of the 0x03. */
  method ReadHeader(a: seq<Byte>) returns (names: seq<string>, i: nat, err: Option<PyError>)
    requires |a| >= 4
    ensures names == Scan(a[4..]).0
    ensures err == if Scan(a[4..]).1.Ok? then None else Some(IndexError)
    ensures err.None? ==> i == 4 + Scan(a[4..]).1.value && i < |a|
  {
    names, i := [], 4;
    while i < |a| && a[i] != 3
      invariant 4 <= i <= |a|
      invariant Scan(a[4..]).0 == names + Scan(a[i..]).0
      invariant Scan(a[4..]).1 == Shift(Scan(a[i..]).1, i - 4)
      decreases |a| - i
    {
      var found, next := ScanOne(a, i);
      HeaderStep(a, i, next, found, names);
      names, i := names + found, next;
    }
    if i == |a| {
      return names, i, Some(IndexError);
    }
    return names, i, None;
  }

  /** One pass of the header loop keeps what is read so far followed by
      what the rest of the header holds equal to the whole header. */
  lemma HeaderStep(a: seq<Byte>, i: nat, next: nat, found: seq<string>, names: seq<string>)
    requires 4 <= i < next <= |a|
    requires Scan(a[i..]) == (found + Scan(a[next..]).0, Shift(Scan(a[next..]).1, next - i))
    requires Scan(a[4..]).0 == names + Scan(a[i..]).0
    requires Scan(a[4..]).1 == Shift(Scan(a[i..]).1, i - 4)
    ensures Scan(a[4..]).0 == (names + found) + Scan(a[next..]).0
    ensures Scan(a[4..]).1 == Shift(Scan(a[next..]).1, next - 4)
  {
    assert names + (found + Scan(a[next..]).0) == (names + found) + Scan(a[next..]).0;
    ShiftTwice(Scan(a[next..]).1, next - i, i - 4);
  }

  /** The list of body pairs, and whether a lone byte ends the body. */
  method ReadPairs(a: seq<Byte>, start: nat) returns (ps: seq<Pair>, lone: bool)
    requires start <= |a|
    ensures ps == Pairs(a[start..])
    ensures lone <==> |a[start..]| == 2 * |ps| + 1
  {
    ps := [];
    var c := start;
    while c + 1 < |a|
      invariant start <= c <= |a| && c - start == 2 * |ps|
      invariant Pairs(a[start..]) == ps + Pairs(a[c..])
    {
      assert a[c..][2..] == a[c + 2..];
      ps := ps + [(a[c], a[c + 1])];
      c := c + 2;
    }
    lone := c < |a|;
  }

  /** `for x in range(0, n): line.append(tileset_id)`. */
  method FillRow(line: seq<int>, id: int, n: nat) returns (r: seq<int>)
    ensures r == line + Repeat(id, n)
  {
    r := line;
    var x := 0;
    while x < n
      invariant 0 <= x <= n
      invariant r == line + Repeat(id, x)
    {
      r := r + [id];
      x := x + 1;
    }
  }

  /** Decoding after rows already there appends to them. */
  lemma ApplyAfter(d: Grid, e: Grid, p: Pair)
    requires e != []
    ensures d + Apply(e, p) == if p.0 == 0 then (d + e) + [[]] else AppendToLast(d + e, Repeat(p.1, p.0))
  {
    if p.0 != 0 {
      var de := d + e;
      assert de[..|de| - 1] == d + e[..|e| - 1];
      assert de[|de| - 1] == e[|e| - 1];
    }
  }

  // ---------------------------------------------------------------------------
  // Writing a map in the format, and reading it back
  // ---------------------------------------------------------------------------

  /** A name the format can carry: byte-sized characters other than the
      separators. */
  predicate Plain(n: string)
  {
    forall k :: 0 <= k < |n| ==> n[k] as int < 256 && n[k] as int != 2 && n[k] as int != 3
  }

  /** Ids that fit in a byte. */
  predicate ByteRow(row: seq<int>)
  {
    forall k :: 0 <= k < |row| ==> 0 <= row[k] < 256
  }

  /** Names and rows the format can carry, with at least one row. */
  predicate Encodable(names: seq<string>, rows: Grid)
  {
    (forall i :: 0 <= i < |names| ==> Plain(names[i])) &&
    (forall i :: 0 <= i < |rows| ==> ByteRow(rows[i])) &&
    rows != []
  }

  function NameBytes(n: string): (r: seq<Byte>)
    requires Plain(n)
    ensures |r| == |n|
  {
    if n == [] then [] else [n[0] as int as Byte] + NameBytes(n[1..])
  }

  /** The header: each name after a 0x02. */
  function HeaderBytes(names: seq<string>): (r: seq<Byte>)
    requires forall i :: 0 <= i < |names| ==> Plain(names[i])
  {
    if names == [] then [] else [2 as Byte] + NameBytes(names[0]) + HeaderBytes(names[1..])
  }

  /** A row: each id once, as the pair `(1, id)`. */
  function RowPairs(row: seq<int>): (r: seq<Pair>)
    requires ByteRow(row)
  {
    if row == [] then [] else RowPairs(row[..|row| - 1]) + [(1, row[|row| - 1] as Byte)]
  }

  /** The body: the rows, with the pair `(0, 0)` between two rows. */
  function BodyPairs(rows: Grid): (r: seq<Pair>)
    requires rows != [] && forall i :: 0 <= i < |rows| ==> ByteRow(rows[i])
  {
    if |rows| == 1 then RowPairs(rows[0])
    else BodyPairs(rows[..|rows| - 1]) + [(0, 0)] + RowPairs(rows[|rows| - 1])
  }

  /** The pairs written out byte by byte. */
  function PairBytes(ps: seq<Pair>): (b: seq<Byte>)
    ensures |b| == 2 * |ps|
  {
    if ps == [] then [] else [ps[0].0, ps[0].1] + PairBytes(ps[1..])
  }

  /** A complete version-0 file holding the names and the rows. */
  function Encode(names: seq<string>, rows: Grid): seq<Byte>
    requires Encodable(names, rows)
  {
    Magic + [0 as Byte] + HeaderBytes(names) + [3 as Byte] + PairBytes(BodyPairs(rows))
  }

  /** Loading an encoded map into an empty one gives back its names and
      rows, with the height the number of rows and the width the longest. */
  lemma RoundTrip(names: seq<string>, rows: Grid)
    requires Encodable(names, rows)
    ensures Load(MapData([], [], 0, 0), Encode(names, rows)) ==
      (MapData(names, rows, Widest(rows), |rows|), None)
  {
    var d := MapData([], [], 0, 0);
    var a := Encode(names, rows);
    var h := HeaderBytes(names);
    var body := PairBytes(BodyPairs(rows));
    assert a[..3] == Magic && a[3] == 0;
    assert a[4..] == h + ([3 as Byte] + body);
    ScanHeader(names, body);
    var t := |h|;
    assert Scan(a[4..]) == (names, Ok(t));
    assert a[4 + t + 1..] == body;
    assert d.(header := d.header + names) == d.(header := names);
    assert Load(d, a) == LoadBody(d.(header := names), body);
    PairsBack(BodyPairs(rows));
    ExpandBody(rows);
    EvenBody(d.(header := names), body);
    assert [] + rows == rows;
  }

  /** The bytes of whole pairs are read back as those pairs. */
  lemma {:induction false} PairsBack(ps: seq<Pair>)
    ensures Pairs(PairBytes(ps)) == ps
  {
    if ps != [] {
      var b := PairBytes(ps);
      assert b[2..] == PairBytes(ps[1..]);
      PairsBack(ps[1..]);
      assert [ps[0]] + ps[1..] == ps;
    }
  }

  /** The name at the head of a header is read back up to its separator. */
  lemma {:induction false} NameBack(n: string, sep: Byte, rest: seq<Byte>)
    requires Plain(n)
    requires sep == 2 || sep == 3
    ensures Name(NameBytes(n) + [sep] + rest) == n
    decreases |n|
  {
    if n == [] {
      assert NameBytes(n) + [sep] + rest == [sep] + rest;
    } else {
      NameBack(n[1..], sep, rest);
      NameBackStep(n, sep, rest);
    }
  }

  lemma NameBackStep(n: string, sep: Byte, rest: seq<Byte>)
    requires Plain(n) && n != []
    requires sep == 2 || sep == 3
    requires Name(NameBytes(n[1..]) + [sep] + rest) == n[1..]
    ensures Name(NameBytes(n) + [sep] + rest) == n
  {
    NameBytesHead(n, sep, rest);
    HeadTail(n);
  }

  /** The first byte of a name, and the bytes after it. */
  lemma NameBytesHead(n: string, sep: Byte, rest: seq<Byte>)
    requires Plain(n) && n != []
    ensures var s := NameBytes(n) + [sep] + rest;
      s != [] && s[0] as char == n[0] && s[0] != 2 && s[0] != 3 && s[1..] == NameBytes(n[1..]) + [sep] + rest
  {
    var s := NameBytes(n) + [sep] + rest;
    assert s[1..] == NameBytes(n[1..]) + [sep] + rest;
  }

  /** The header is read back name by name up to its 0x03. */
  lemma {:induction false} ScanHeader(names: seq<string>, rest: seq<Byte>)
    requires forall i :: 0 <= i < |names| ==> Plain(names[i])
    ensures Scan(HeaderBytes(names) + ([3 as Byte] + rest)) == (names, Ok(|HeaderBytes(names)|))
    decreases |names|
  {
    if names == [] {
      assert HeaderBytes(names) + ([3 as Byte] + rest) == [3 as Byte] + rest;
    } else {
      ScanHeader(names[1..], rest);
      ScanHeaderStep(names, rest);
    }
  }

  lemma ScanHeaderStep(names: seq<string>, rest: seq<Byte>)
    requires names != [] && forall i :: 0 <= i < |names| ==> Plain(names[i])
    requires Scan(HeaderBytes(names[1..]) + ([3 as Byte] + rest)) == (names[1..], Ok(|HeaderBytes(names[1..])|))
    ensures Scan(HeaderBytes(names) + ([3 as Byte] + rest)) == (names, Ok(|HeaderBytes(names)|))
  {
    HeaderSplit(names, rest);
    HeaderStart(names[1..], rest);
    ScanName(names[0], HeaderBytes(names[1..]) + ([3 as Byte] + rest));
    ShiftOk(|HeaderBytes(names[1..])|, |names[0]| + 1, |HeaderBytes(names)|);
    HeadTail(names);
  }

  /** The first name of a header, and the rest of it. */
  lemma HeaderSplit(names: seq<string>, rest: seq<Byte>)
    requires names != [] && forall i :: 0 <= i < |names| ==> Plain(names[i])
    ensures HeaderBytes(names) + ([3 as Byte] + rest) ==
      [2 as Byte] + NameBytes(names[0]) + (HeaderBytes(names[1..]) + ([3 as Byte] + rest))
    ensures |HeaderBytes(names)| == |HeaderBytes(names[1..])| + (|names[0]| + 1)
  {
    HeaderUnfold(names);
    Regroup([2 as Byte] + NameBytes(names[0]), HeaderBytes(names[1..]), [3 as Byte] + rest);
  }

  lemma HeaderUnfold(names: seq<string>)
    requires names != [] && forall i :: 0 <= i < |names| ==> Plain(names[i])
    ensures HeaderBytes(names) == [2 as Byte] + NameBytes(names[0]) + HeaderBytes(names[1..])
  {
  }

  lemma HeadTail<T>(s: seq<T>)
    requires s != []
    ensures [s[0]] + s[1..] == s
  {
  }

  lemma Regroup(h: seq<Byte>, t: seq<Byte>, x: seq<Byte>)
    ensures (h + t) + x == h + (t + x)
  {
  }

  /** What follows a name in a header is a separator. */
  lemma HeaderStart(names: seq<string>, rest: seq<Byte>)
    requires forall i :: 0 <= i < |names| ==> Plain(names[i])
    ensures var s := HeaderBytes(names) + ([3 as Byte] + rest);
      s != [] && (s[0] == 2 || s[0] == 3)
  {
  }

  /** A 0x02 and a name, followed by a separator, add that name. */
  lemma ScanName(n: string, tail: seq<Byte>)
    requires Plain(n) && tail != [] && (tail[0] == 2 || tail[0] == 3)
    ensures var after := Scan(tail);
      Scan([2 as Byte] + NameBytes(n) + tail) == ([n] + after.0, Shift(after.1, |n| + 1))
  {
    var s := [2 as Byte] + NameBytes(n) + tail;
    NameAfterMark(n, tail);
    RestAfterName(n, tail);
    assert s != [] && s[0] == 2;
  }

  lemma ShiftOk(a: nat, k: nat, b: nat)
    requires b == a + k
    ensures Shift(Ok(a), k) == Ok(b)
  {
  }

  lemma NameAfterMark(n: string, tail: seq<Byte>)
    requires Plain(n) && tail != [] && (tail[0] == 2 || tail[0] == 3)
    ensures Name(([2 as Byte] + NameBytes(n) + tail)[1..]) == n
  {
    NameBack(n, tail[0], tail[1..]);
    assert ([2 as Byte] + NameBytes(n) + tail)[1..] == NameBytes(n) + [tail[0]] + tail[1..];
  }

  lemma RestAfterName(n: string, tail: seq<Byte>)
    requires Plain(n)
    ensures ([2 as Byte] + NameBytes(n) + tail)[|n| + 1..] == tail
  {
  }

  /** The ids of a row are appended to the last row read. */
  lemma {:induction false} ExpandRow(ps: seq<Pair>, row: seq<int>)
    requires ByteRow(row)
    ensures Expand(ps + RowPairs(row)) == AppendToLast(Expand(ps), row)
    decreases |row|
  {
    if row == [] {
      NoRow(ps, row);
    } else {
      ExpandRow(ps, row[..|row| - 1]);
      RowStep(ps, row);
    }
  }

  lemma NoRow(ps: seq<Pair>, row: seq<int>)
    requires ByteRow(row) && row == []
    ensures Expand(ps + RowPairs(row)) == AppendToLast(Expand(ps), row)
  {
    assert ps + RowPairs(row) == ps;
    AppendNothing(Expand(ps));
  }

  lemma RowStep(ps: seq<Pair>, row: seq<int>)
    requires ByteRow(row) && row != []
    requires Expand(ps + RowPairs(row[..|row| - 1])) == AppendToLast(Expand(ps), row[..|row| - 1])
    ensures Expand(ps + RowPairs(row)) == AppendToLast(Expand(ps), row)
  {
    var c := ps + RowPairs(row[..|row| - 1]);
    var id := row[|row| - 1] as Byte;
    SnocPairs(ps, row);
    ExpandOne(c, id);
    AppendSnoc(Expand(ps), row);
  }

  lemma SnocPairs(ps: seq<Pair>, row: seq<int>)
    requires ByteRow(row) && row != []
    ensures ps + RowPairs(row) == (ps + RowPairs(row[..|row| - 1])) + [(1, row[|row| - 1] as Byte)]
  {
  }

  lemma AppendNothing(rows: Grid)
    requires rows != []
    ensures AppendToLast(rows, []) == rows
  {
    assert rows[|rows| - 1] + [] == rows[|rows| - 1];
    assert rows[..|rows| - 1] + [rows[|rows| - 1]] == rows;
  }

  lemma AppendSnoc(rows: Grid, xs: seq<int>)
    requires rows != [] && xs != []
    ensures AppendToLast(AppendToLast(rows, xs[..|xs| - 1]), [xs[|xs| - 1]]) == AppendToLast(rows, xs)
  {
    var n := |rows| - 1;
    assert (rows[n] + xs[..|xs| - 1]) + [xs[|xs| - 1]] == rows[n] + xs;
  }

  /** A pair with count 1 appends its id to the last row. */
  lemma ExpandOne(c: seq<Pair>, id: Byte)
    ensures Expand(c + [(1, id)]) == AppendToLast(Expand(c), [id])
  {
    assert (c + [(1, id)])[..|c|] == c;
    assert Repeat(id, 1) == [id];
  }

  /** The body decodes to the rows it was written from. */
  lemma {:induction false} ExpandBody(rows: Grid)
    requires rows != [] && forall i :: 0 <= i < |rows| ==> ByteRow(rows[i])
    ensures Expand(BodyPairs(rows)) == rows
    decreases |rows|
  {
    if |rows| == 1 {
      SingleRow(rows);
    } else {
      ExpandBody(rows[..|rows| - 1]);
      BodyStep(rows);
    }
  }

  lemma SingleRow(rows: Grid)
    requires |rows| == 1 && ByteRow(rows[0])
    ensures Expand(BodyPairs(rows)) == rows
  {
    ExpandRow([], rows[0]);
    assert [] + RowPairs(rows[0]) == RowPairs(rows[0]);
    assert AppendToLast([[]], rows[0]) == rows by {
      assert [] + rows[0] == rows[0];
    }
  }

  lemma BodyStep(rows: Grid)
    requires |rows| > 1 && forall i :: 0 <= i < |rows| ==> ByteRow(rows[i])
    requires Expand(BodyPairs(rows[..|rows| - 1])) == rows[..|rows| - 1]
    ensures Expand(BodyPairs(rows)) == rows
  {
    var init := rows[..|rows| - 1];
    var last := rows[|rows| - 1];
    var c := BodyPairs(init) + [(0, 0)];
    NewRowPair(BodyPairs(init));
    BodyUnfold(rows);
    ExpandRow(c, last);
    LastRow(rows);
  }

  /** A pair with count 0 adds an empty row. */
  lemma NewRowPair(ps: seq<Pair>)
    ensures Expand(ps + [(0, 0)]) == Expand(ps) + [[]]
  {
    assert (ps + [(0, 0)])[..|ps|] == ps;
  }

  lemma BodyUnfold(rows: Grid)
    requires |rows| > 1 && forall i :: 0 <= i < |rows| ==> ByteRow(rows[i])
    ensures BodyPairs(rows) == (BodyPairs(rows[..|rows| - 1]) + [(0, 0)]) + RowPairs(rows[|rows| - 1])
  {
  }

  lemma LastRow(rows: Grid)
    requires |rows| > 1
    ensures AppendToLast(rows[..|rows| - 1] + [[]], rows[|rows| - 1]) == rows
  {
    var init := rows[..|rows| - 1];
    assert (init + [[]])[..|init|] == init;
    assert [] + rows[|rows| - 1] == rows[|rows| - 1];
  }
}

=== FILE: mapgrid.dfy ===
/** The cell grid of a `Map` (fxplib.py): rows of tileset ids, read and
    written by position, and the neighbour pattern of a cell. */
module MapGrids {

  /** `map.tiles`: one list of tileset ids per row; rows may differ in length. */
  type Grid = seq<seq<int>>

  predicate InGrid(tiles: Grid, x: int, y: int)
  {
    0 <= y < |tiles| && 0 <= x < |tiles[y]|
  }

  /** `get_tile((x, y))`: the id at column `x` of row `y`, and 0 for a
      position with a negative coordinate or past the end of its row or of
      the grid. */
  function Cell(tiles: Grid, x: int, y: int): (id: int)
    ensures !InGrid(tiles, x, y) ==> id == 0
    ensures InGrid(tiles, x, y) ==> id == tiles[y][x]
  {
    if x < 0 || y < 0 || y >= |tiles| || x >= |tiles[y]| then 0 else tiles[y][x]
  }

  /** `set_tile(value, (x, y))`: a position outside the grid is ignored. */
  function SetCell(tiles: Grid, x: int, y: int, value: int): (r: Grid)
    ensures |r| == |tiles| && forall k :: 0 <= k < |r| ==> |r[k]| == |tiles[k]|
  {
    if InGrid(tiles, x, y) then tiles[y := tiles[y][x := value]] else tiles
  }

  /** Writing a cell inside the grid changes that cell alone; a write
      outside it changes nothing. */
  lemma CellAfterSet(tiles: Grid, x: int, y: int, value: int, x': int, y': int)
    ensures Cell(SetCell(tiles, x, y, value), x', y') ==
      if (x', y') == (x, y) && InGrid(tiles, x, y) then value else Cell(tiles, x', y')
    ensures !InGrid(tiles, x, y) ==> SetCell(tiles, x, y, value) == tiles
  {
  }

  /** The eight neighbours in the order of `get_rule`: upper row left to
      right, then left and right, then lower row left to right. */
  function Offset(k: nat): (d: (int, int))
    requires k < 8
    ensures -1 <= d.0 <= 1 && -1 <= d.1 <= 1 && d != (0, 0)
  {
    [(-1, -1), (0, -1), (1, -1), (-1, 0), (1, 0), (-1, 1), (0, 1), (1, 1)][k]
  }

  /** The bit `get_rule` gives to neighbour `k`: 0x80 down to 0x01. */
  function Weight(k: nat): bv8
    requires k < 8
  {
    [0x80, 0x40, 0x20, 0x10, 0x08, 0x04, 0x02, 0x01][k]
  }

  function Bit(occupied: bool, weight: bv8): bv8
  {
    if occupied then weight else 0
  }

  /** Whether neighbour `k` of the cell holds a tile (an id other than 0). */
  predicate Occupied(tiles: Grid, x: int, y: int, k: nat)
    requires k < 8
  {
    Cell(tiles, x + Offset(k).0, y + Offset(k).1) != 0
  }

  /** The occupancy of the eight neighbours, in `Offset` order. */
  function Neighbourhood(tiles: Grid, x: int, y: int): (bits: seq<bool>)
    ensures |bits| == 8
  {
    seq(8, k requires 0 <= k < 8 => Occupied(tiles, x, y, k))
  }

  /** `get_rule((x, y))`: the sum of the weights of the occupied
      neighbours. The weights are distinct bits, so the sum never carries. */
  function Rule(tiles: Grid, x: int, y: int): (rule: bv8)
    ensures rule == 0 <==> forall k :: 0 <= k < 8 ==> !Occupied(tiles, x, y, k)
  {
    Pack(Neighbourhood(tiles, x, y))
  }

  function Pack(bits: seq<bool>): bv8
    requires |bits| == 8
  {
    Bit(bits[0], 0x80) + Bit(bits[1], 0x40) + Bit(bits[2], 0x20) + Bit(bits[3], 0x10) +
    Bit(bits[4], 0x08) + Bit(bits[5], 0x04) + Bit(bits[6], 0x02) + Bit(bits[7], 0x01)
  }

  /** Bit `k` of the rule is set exactly when neighbour `k` is occupied. */
  lemma RuleBits(tiles: Grid, x: int, y: int, k: nat)
    requires k < 8
    ensures Rule(tiles, x, y) & Weight(k) != 0 <==> Occupied(tiles, x, y, k)
  {
    PackBits(Neighbourhood(tiles, x, y), k);
  }

  lemma PackBits(bits: seq<bool>, k: nat)
    requires |bits| == 8 && k < 8
    ensures Pack(bits) & Weight(k) != 0 <==> bits[k]
  {
    if k == 0 {} else if k == 1 {} else if k == 2 {} else if k == 3 {}
    else if k == 4 {} else if k == 5 {} else if k == 6 {} else {}
  }

  /** A cell with no occupied neighbour gets rule 0, and one whose
      neighbours are all occupied gets 0xFF. */
  lemma RuleExtremes(tiles: Grid, x: int, y: int)
    ensures (forall k :: 0 <= k < 8 ==> !Occupied(tiles, x, y, k)) ==> Rule(tiles, x, y) == 0
    ensures (forall k :: 0 <= k < 8 ==> Occupied(tiles, x, y, k)) ==> Rule(tiles, x, y) == 0xFF
  {
  }

  /** Each weight is a single bit: masking any flag with it leaves 0 or
      the weight itself. */
  lemma SingleBit(r: bv8, k: nat)
    requires k < 8
    ensures r & Weight(k) == 0 || r & Weight(k) == Weight(k)
  {
    if k == 0 {} else if k == 1 {} else if k == 2 {} else if k == 3 {}
    else if k == 4 {} else if k == 5 {} else if k == 6 {} else {}
  }
}

=== FILE: numbers.dfy ===
/** Python 2 integer arithmetic that differs from Dafny's. */
module PyNumbers {

  /** Python 2 `a / b` on ints: division rounded toward negative infinity. */
  function FloorDiv(a: int, b: int): int
    requires b != 0
  {
    if b > 0 then a / b else (-a) / (-b)
  }

  /** The quotient is the floor of the exact ratio, whatever the signs. */
  lemma FloorDivBounds(a: int, b: int)
    requires b != 0
    ensures b > 0 ==> FloorDiv(a, b) * b <= a < FloorDiv(a, b) * b + b
    ensures b < 0 ==> FloorDiv(a, b) * b >= a > FloorDiv(a, b) * b + b
  {
  }

  /** `w / 2` for an int size: the size halved, rounded down. */
  function Half(w: int): (r: int)
    ensures 2 * r <= w <= 2 * r + 1
  {
    FloorDiv(w, 2)
  }

  /** `max(xs)` of a non-empty list. */
  function Max(xs: seq<int>): (m: int)
    requires |xs| >= 1
    ensures m in xs
    ensures forall i :: 0 <= i < |xs| ==> xs[i] <= m
  {
    if |xs| == 1 then xs[0]
    else var rest := Max(xs[1..]); if xs[0] >= rest then xs[0] else rest
  }
}

=== FILE: objects.dfy ===
/** Scene objects (`Object`, `Image`, `MovingObject`, `Background`, `Camera`,
    `World`, `Window` in fxplib.py) and their per-object operations.

    Python creates one instance of some subclass; the model has one class
    `Obj` whose fields are the union of the subclasses' attributes and whose
    constant `kind` records which subclass it was built as. `Snapshot()` is
    the value of all its mutable fields; every state-changing method states
    its new snapshot through a specification function on `Attrs`. */
module Objects {
  import opened Wrappers
  import opened PyNumbers
  import opened Vectors
  import opened Signals

  /** The Python class an object was built as. Label, Button, Separator,
      Dimension and Zone behave as plain images here. */
  datatype Kind =
    | PlainObject
    | ImageObject
    | MovingObject
    | BackgroundObject
    | CameraObject
    | MapObject
    | WorldObject
    | WindowObject
  {
    /** Subclasses of `Image`. */
    predicate IsImage() {
      !PlainObject?
    }

    /** Subclasses of `MovingObject`. */
    predicate IsMoving() {
      MovingObject? || BackgroundObject? || CameraObject? || MapObject? || WorldObject?
    }
  }

  /** `h_mode` / `v_mode`: how a background repeats along an axis; only
      whether a mode is set matters to the motion. */
  datatype ScrollMode = NoScroll | Mirrored | Duplicated

  /** The values `Image.state` takes. */
  datatype UiState = Idle | MouseOver | Clicked | Inactive

  /** A hitbox `(x, y, w, h)` relative to its object. */
  datatype Box = Box(x: int, y: int, w: int, h: int)

  /** Position and size (`Image`): positions may be floats, sizes are ints. */
  datatype Geometry = Geometry(x: real, y: real, w: int, h: int, gridSize: int)

  /** Display and interaction flags (`Image`, `Window`). */
  datatype Look = Look(
    state: UiState, force: bool, display: bool, focused: bool,
    hMode: ScrollMode, vMode: ScrollMode, hMirrored: bool, vMirrored: bool,
    isOpen: bool)

  /** Forces and collision data (`MovingObject`). */
  datatype Kinetics = Kinetics(
    constVectors: seq<Vector>, tempVectors: seq<Vector>, velocity: Option<Vector>,
    fixed: bool, solid: bool, hitboxes: seq<Box>)

  /** Force generators and the objects they apply to (`World`); a generator is
      identified by a `FnId`. */
  datatype Registry = Registry(
    envVectors: map<string, FnId>, envObjects: seq<(string, Obj)>,
    collideVectors: map<string, FnId>, collideObjects: seq<(string, Obj)>)

  /** What a `Camera` follows. */
  datatype Tracking = Tracking(active: bool, target: Option<Obj>)

  /** The value of every mutable attribute of an object. */
  datatype Attrs = Attrs(
    kind: Kind, z: real, signals: seq<Signal>,
    geo: Geometry, look: Look, kin: Kinetics, cam: Tracking, reg: Registry)

  /** The attributes a fresh object of the given kind starts with, signals aside. */
  function Initial(kind: Kind): Attrs
  {
    Attrs(kind, 0.0, [],
          Geometry(0.0, 0.0, 0, 0, 1),
          Look(Idle, false, true, false, NoScroll, NoScroll, false, false, false),
          Kinetics([], [], None, kind.CameraObject?, false, []),
          Tracking(true, None),
          Registry(map[], [], map[], []))
  }

  /** The signal names a fresh object of the given kind registers, in order. */
  function InitialSignals(kind: Kind): seq<string>
  {
    if kind.PlainObject? then []
    else if kind.WorldObject? then ["click", "mouseover", "collide"]
    else if kind.WindowObject? then ["click", "mouseover", "close"]
    else ["click", "mouseover"]
  }

  // ---------------------------------------------------------------------------
  // Lookups by name in the sequences that model Python dicts
  // ---------------------------------------------------------------------------

  /** The first element of `xs` named `name`, if any: the lookup `d[name]`
      in a dict kept as a list in insertion order with unique names. */
  function FindNamed<T(==), N(==)>(xs: seq<T>, nameOf: T -> N, name: N): (r: Option<T>)
    ensures r.Some? <==> exists i :: 0 <= i < |xs| && nameOf(xs[i]) == name
    ensures r.Some? ==> r.value in xs && nameOf(r.value) == name
  {
    if xs == [] then None
    else if nameOf(xs[0]) == name then Some(xs[0])
    else FindNamed(xs[1..], nameOf, name)
  }

  /** Appending an element leaves every name found before as it was, and
      makes the element's own name found if it was not. */
  lemma {:induction false} FindNamedAppend<T, N>(xs: seq<T>, nameOf: T -> N, x: T, name: N)
    ensures FindNamed(xs + [x], nameOf, name) ==
      if FindNamed(xs, nameOf, name).Some? then FindNamed(xs, nameOf, name)
      else if nameOf(x) == name then Some(x) else None
  {
    if xs != [] {
      assert (xs + [x])[1..] == xs[1..] + [x];
      FindNamedAppend(xs[1..], nameOf, x, name);
    }
  }

  /** `self.signals[name]` if present. */
  function FindSignal(ss: seq<Signal>, name: string): (r: Option<Signal>)
    ensures r.Some? <==> exists i :: 0 <= i < |ss| && ss[i].name == name
    ensures r.Some? ==> r.value in ss && r.value.name == name
  {
    FindNamed(ss, (s: Signal) => s.name, name)
  }

  /** The vector registered under `name` if present. */
  function FindVector(vs: seq<Vector>, name: Option<string>): (r: Option<Vector>)
    ensures r.Some? <==> exists i :: 0 <= i < |vs| && vs[i].name == name
    ensures r.Some? ==> r.value in vs && r.value.name == name
  {
    FindNamed(vs, (v: Vector) => v.name, name)
  }

  /** Registering under a name that is already taken keeps the first vector. */
  function AddVector(vs: seq<Vector>, v: Vector): (r: seq<Vector>)
  {
    if FindVector(vs, v.name).Some? then vs else vs + [v]
  }

  lemma AddVectorFirstWins(vs: seq<Vector>, v: Vector, name: Option<string>)
    ensures FindVector(vs, name).Some? ==> FindVector(AddVector(vs, v), name) == FindVector(vs, name)
    ensures FindVector(vs, v.name).None? ==> FindVector(AddVector(vs, v), v.name) == Some(v)
    ensures name != v.name ==> FindVector(AddVector(vs, v), name) == FindVector(vs, name)
  {
    if FindVector(vs, v.name).None? {
      FindVectorAppend(vs, v, name);
      FindVectorAppend(vs, v, v.name);
    }
  }

  lemma FindVectorAppend(vs: seq<Vector>, v: Vector, name: Option<string>)
    ensures FindVector(vs + [v], name) ==
      if FindVector(vs, name).Some? then FindVector(vs, name)
      else if v.name == name then Some(v) else None
  {
    FindNamedAppend(vs, (v: Vector) => v.name, v, name);
  }

  // ---------------------------------------------------------------------------
  // Kinetics: apply_vector, apply_all_vectors, move
  // ---------------------------------------------------------------------------

  /** `apply_vector` needs a velocity to add an enabled vector to. */
  predicate CanApply(vel: Option<Vector>, vs: seq<Vector>)
  {
    vel.Some? || forall i :: 0 <= i < |vs| ==> !vs[i].enable
  }

  predicate CanPush(vel: Option<Vector>, v: Vector)
  {
    vel.Some? || !v.enable
  }

  /** The velocity after `apply_vector(v)`. */
  function Push(vel: Option<Vector>, v: Vector): (r: Option<Vector>)
    requires CanPush(vel, v)
    ensures !v.enable ==> r == vel
    ensures v.enable ==> r == Some(Add(vel.value, v))
  {
    if v.enable then Some(Add(vel.value, v)) else vel
  }

  /** The velocity after `apply_vector` on each of `vs` in order. */
  function PushAll(vel: Option<Vector>, vs: seq<Vector>): (r: Option<Vector>)
    requires CanApply(vel, vs)
    ensures vel.Some? ==> r.Some?
    ensures (forall i :: 0 <= i < |vs| ==> !vs[i].enable) ==> r == vel
  {
    if vs == [] then vel
    else
      var before := PushAll(vel, vs[..|vs| - 1]);
      assert CanPush(before, vs[|vs| - 1]);
      Push(before, vs[|vs| - 1])
  }

  /** Applying a concatenation is applying its parts in turn. */
  lemma {:induction false} PushAllAppend(vel: Option<Vector>, us: seq<Vector>, vs: seq<Vector>)
    requires CanApply(vel, us + vs)
    ensures CanApply(vel, us) && CanApply(PushAll(vel, us), vs)
    ensures PushAll(vel, us + vs) == PushAll(PushAll(vel, us), vs)
  {
    assert CanApply(vel, us) by {
      if vel.None? {
        forall i | 0 <= i < |us| ensures !us[i].enable { assert us[i] == (us + vs)[i]; }
      }
    }
    assert CanApply(PushAll(vel, us), vs) by {
      if vel.None? {
        forall i | 0 <= i < |vs| ensures !vs[i].enable { assert vs[i] == (us + vs)[|us| + i]; }
      }
    }
    if vs != [] {
      assert (us + vs)[..|us + vs| - 1] == us + vs[..|vs| - 1];
      PushAllAppend(vel, us, vs[..|vs| - 1]);
    } else {
      assert us + vs == us;
    }
  }

  /** Disabled vectors are skipped: only the enabled ones reach the velocity. */
  function Enabled(vs: seq<Vector>): (r: seq<Vector>)
    ensures forall i :: 0 <= i < |r| ==> r[i].enable && r[i] in vs
  {
    if vs == [] then []
    else Enabled(vs[..|vs| - 1]) + (if vs[|vs| - 1].enable then [vs[|vs| - 1]] else [])
  }

  lemma {:induction false} PushAllEnabled(vel: Option<Vector>, vs: seq<Vector>)
    requires vel.Some?
    ensures PushAll(vel, vs) == PushAll(vel, Enabled(vs))
  {
    if vs != [] {
      var front, last := vs[..|vs| - 1], vs[|vs| - 1];
      PushAllEnabled(vel, front);
      var e := Enabled(front);
      if last.enable {
        assert Enabled(vs) == e + [last];
        assert (e + [last])[..|e + [last]| - 1] == e;
      } else {
        assert Enabled(vs) == e;
      }
    }
  }

  /** The attributes after `apply_all_vectors`: const vectors then temp vectors,
      temp vectors dropped afterwards. */
  function AppliedAll(a: Attrs): (r: Attrs)
    requires CanApply(a.kin.velocity, a.kin.constVectors + a.kin.tempVectors)
  {
    a.(kin := a.kin.(velocity := PushAll(a.kin.velocity, a.kin.constVectors + a.kin.tempVectors), tempVectors := []))
  }

  /** `apply_all_vectors` changes nothing but the velocity and the temp vectors,
      keeps the const vectors, and applying twice adds the const vectors again
      but no temp vector. */
  lemma AppliedAllOnce(a: Attrs)
    requires a.kin.velocity.Some?
    ensures AppliedAll(a).kin.constVectors == a.kin.constVectors && AppliedAll(a).kin.tempVectors == []
    ensures AppliedAll(a) == a.(kin := a.kin.(velocity := AppliedAll(a).kin.velocity, tempVectors := []))
    ensures AppliedAll(AppliedAll(a)).kin.velocity == PushAll(AppliedAll(a).kin.velocity, a.kin.constVectors)
  {
    assert a.kin.constVectors + [] == a.kin.constVectors;
  }

  /** The vector `move(vector)` uses: a Vector instance is always truthy, so
      only `None` falls back to the velocity. */
  function MoveVector(a: Attrs, v: Option<Vector>): Option<Vector>
  {
    if v.Some? then v else a.kin.velocity
  }

  /** `MovingObject.move(vector)`. */
  function Displaced(a: Attrs, v: Option<Vector>): (r: Attrs)
  {
    var vec := MoveVector(a, v);
    if vec.Some? && !a.kin.fixed && vec.value.enable then
      a.(geo := a.geo.(x := a.geo.x + vec.value.x, y := a.geo.y + vec.value.y), look := a.look.(force := true))
    else a
  }

  /** One axis of `Background.move`'s wrap-around, `pos` being the coordinate
      after the plain move and `d` the direction component. */
  function Wrap(pos: real, size: int, d: real): (r: real)
  {
    var half := Half(size) as real;
    if d < 0.0 then (if pos + half <= 0.0 then pos + half else pos)
    else if d > 0.0 then (if pos + half >= half then pos - half else pos)
    else pos
  }

  /** `Background.move` reads `vector.x`, which fails on a missing velocity. */
  predicate CanMove(a: Attrs, v: Option<Vector>)
  {
    a.kind.BackgroundObject? && (a.look.hMode != NoScroll || a.look.vMode != NoScroll) ==> MoveVector(a, v).Some?
  }

  /** The wrap-around `Background.move` applies after the plain move. */
  function Wrapped(m: Attrs, vec: Option<Vector>): (r: Attrs)
    requires m.look.hMode != NoScroll || m.look.vMode != NoScroll ==> vec.Some?
  {
    if m.look.hMode == NoScroll && m.look.vMode == NoScroll then m
    else
      m.(geo := m.geo.(x := if m.look.hMode != NoScroll then Wrap(m.geo.x, m.geo.w, vec.value.x) else m.geo.x,
                       y := if m.look.vMode != NoScroll then Wrap(m.geo.y, m.geo.h, vec.value.y) else m.geo.y))
  }

  /** `move(vector)` as dispatched on the object's class. */
  function Moved(a: Attrs, v: Option<Vector>): (r: Attrs)
    requires CanMove(a, v)
  {
    if a.kind.BackgroundObject? then Wrapped(Displaced(a, v), MoveVector(a, v))
    else Displaced(a, v)
  }

  /** A plain move leaves a fixed object, or one given a disabled vector, where
      it is; otherwise it adds exactly the vector's components and raises `force`. */
  lemma MovedDisplacement(a: Attrs, v: Option<Vector>)
    requires !a.kind.BackgroundObject?
    ensures var vec := MoveVector(a, v);
      if vec.None? || a.kin.fixed || !vec.value.enable then Moved(a, v) == a
      else Moved(a, v) == a.(geo := a.geo.(x := a.geo.x + vec.value.x, y := a.geo.y + vec.value.y),
                             look := a.look.(force := true))
  {
  }

  /** Moving by a vector and then by its negation returns to the start. */
  lemma MoveThenBack(a: Attrs, v: Vector)
    requires !a.kind.BackgroundObject? && !a.kin.fixed && v.enable
    ensures Moved(Moved(a, Some(v)), Some(Neg(v))).geo == a.geo
    ensures Moved(Moved(a, Some(v)), Some(Neg(v))) == Moved(a, Some(Zero))
  {
  }

  /** The wrap-around shifts a coordinate by at most one half-size, in the
      direction opposite to the motion. */
  lemma WrapShiftsOnce(pos: real, size: int, d: real)
    ensures var half := Half(size) as real;
      Wrap(pos, size, d) == pos
      || (d < 0.0 && Wrap(pos, size, d) == pos + half)
      || (d > 0.0 && Wrap(pos, size, d) == pos - half)
  {
  }

  /** One axis of the wrap-around keeps a coordinate in `[-half, 0]` when the
      step is at most `half`, whether or not the plain move happened. */
  lemma WrapBand(start: real, pos: real, size: int, d: real)
    requires Half(size) > 0
    requires -(Half(size) as real) <= start <= 0.0
    requires pos == start || pos == start + d
    requires -(Half(size) as real) <= d <= Half(size) as real
    ensures -(Half(size) as real) <= Wrap(pos, size, d) <= 0.0
  {
  }

  /** A horizontally scrolling background whose `x` lies in `[-w/2, 0]` stays
      there after any move by at most half its width. */
  lemma WrapKeepsBand(a: Attrs, v: Option<Vector>)
    requires a.kind.BackgroundObject? && a.look.hMode != NoScroll && CanMove(a, v)
    requires Half(a.geo.w) > 0
    requires -(Half(a.geo.w) as real) <= a.geo.x <= 0.0
    requires -(Half(a.geo.w) as real) <= MoveVector(a, v).value.x <= Half(a.geo.w) as real
    ensures -(Half(a.geo.w) as real) <= Moved(a, v).geo.x <= 0.0
  {
    WrapBand(a.geo.x, Displaced(a, v).geo.x, a.geo.w, MoveVector(a, v).value.x);
  }

  // ---------------------------------------------------------------------------
  // Image geometry, focus and state
  // ---------------------------------------------------------------------------

  /** `set_state(state)`. */
  function WithState(a: Attrs, s: UiState): (r: Attrs)
  {
    if a.look.state != s then a.(look := a.look.(state := s, force := true)) else a
  }

  /** `check_focus(mouse_pos)`: the half-open rectangle `[x, x+w) × [y, y+h)`. */
  predicate Hovered(a: Attrs, mx: real, my: real)
  {
    mx >= a.geo.x && mx < a.geo.x + a.geo.w as real && my >= a.geo.y && my < a.geo.y + a.geo.h as real
  }

  /** The state `update_state` gives a displayed object, and whether it emits
      `click`. */
  function NextUiState(s: UiState, focused: bool, clicked: bool): (UiState, bool)
  {
    if s == Inactive then (s, false)
    else if focused then
      if clicked then (Clicked, false) else (MouseOver, s == Clicked)
    else (Idle, false)
  }

  /** A click is a press followed by a release over the object: `click` is
      emitted exactly on a release after CLICKED while still focused, and an
      INACTIVE object never changes. */
  lemma ClickOnRelease(s: UiState, focused: bool, clicked: bool)
    ensures NextUiState(s, focused, clicked).1 <==> (s == Clicked && focused && !clicked)
    ensures s == Inactive <==> NextUiState(s, focused, clicked).0 == Inactive
    ensures s != Inactive && !focused ==> NextUiState(s, focused, clicked).0 == Idle
    ensures NextUiState(s, focused, clicked).0 == Clicked <==> s != Inactive && focused && clicked
  {
  }

  /** `clicked = max(*mouse_but)` is true when some button is down. */
  predicate Pressed(buttons: seq<int>)
    requires |buttons| >= 2
  {
    Max(buttons) != 0
  }

  lemma PressedIffSomeButton(buttons: seq<int>)
    requires |buttons| >= 2
    requires forall i :: 0 <= i < |buttons| ==> buttons[i] >= 0
    ensures Pressed(buttons) <==> exists i :: 0 <= i < |buttons| && buttons[i] != 0
  {
    if exists i :: 0 <= i < |buttons| && buttons[i] != 0 {
      var i :| 0 <= i < |buttons| && buttons[i] != 0;
      assert buttons[i] <= Max(buttons);
    }
  }

  /** `get_rect(grid)`: positions divide as floats, sizes as Python 2 ints. */
  datatype RectValue = RectValue(x: real, y: real, w: int, h: int)

  function GridOf(a: Attrs, grid: bool): int
  {
    if grid then a.geo.gridSize else 1
  }

  function RectOf(a: Attrs, grid: bool): (r: Result<RectValue>)
    ensures r.Raise? <==> GridOf(a, grid) == 0
    ensures r.Raise? ==> r.error == ZeroDivisionError
  {
    var g := GridOf(a, grid);
    if g == 0 then Raise(ZeroDivisionError)
    else Ok(RectValue(a.geo.x / g as real, a.geo.y / g as real, FloorDiv(a.geo.w, g), FloorDiv(a.geo.h, g)))
  }

  /** `set_rect(rect, grid)`. */
  function WithRect(a: Attrs, r: RectValue, grid: bool): Attrs
  {
    var g := GridOf(a, grid);
    a.(geo := a.geo.(x := r.x * g as real, y := r.y * g as real, w := r.w * g, h := r.h * g))
  }

  /** `set_pos(pos, grid)`: also raises `force`. */
  function WithPos(a: Attrs, px: real, py: real, grid: bool): Attrs
  {
    var g := GridOf(a, grid) as real;
    a.(geo := a.geo.(x := px * g, y := py * g), look := a.look.(force := true))
  }

  /** `set_size(size, grid)`: also raises `force`. */
  function WithSize(a: Attrs, sw: int, sh: int, grid: bool): Attrs
  {
    var g := GridOf(a, grid);
    a.(geo := a.geo.(w := sw * g, h := sh * g), look := a.look.(force := true))
  }

  /** Reading back a position just set on the same grid gives it back, and
      the size is untouched. */
  lemma PosRoundTrip(a: Attrs, px: real, py: real, grid: bool)
    requires GridOf(a, grid) != 0
    ensures RectOf(WithPos(a, px, py, grid), grid).Ok?
    ensures var r := RectOf(WithPos(a, px, py, grid), grid).value;
      r.x == px && r.y == py && Ok(r.(x := 0.0, y := 0.0)) == RectOf(a, grid).(value := RectOf(a, grid).value.(x := 0.0, y := 0.0))
  {
  }

  /** Reading back a size just set on the same grid gives it back, and the
      position is untouched. */
  lemma SizeRoundTrip(a: Attrs, sw: int, sh: int, grid: bool)
    requires GridOf(a, grid) != 0
    ensures RectOf(WithSize(a, sw, sh, grid), grid).Ok?
    ensures var r := RectOf(WithSize(a, sw, sh, grid), grid).value;
      r.w == sw && r.h == sh && Ok(r.(w := 0, h := 0)) == RectOf(a, grid).(value := RectOf(a, grid).value.(w := 0, h := 0))
  {
    var g := GridOf(a, grid);
    FloorDivExact(sw, g);
    FloorDivExact(sh, g);
  }

  /** Reading back a rectangle just set on the same grid gives it back. */
  lemma RectRoundTrip(a: Attrs, r: RectValue, grid: bool)
    requires GridOf(a, grid) != 0
    ensures RectOf(WithRect(a, r, grid), grid) == Ok(r)
  {
    var g := GridOf(a, grid);
    var b := WithRect(a, r, grid);
    assert FloorDiv(r.w * g, g) == r.w by { FloorDivExact(r.w, g); }
    assert FloorDiv(r.h * g, g) == r.h by { FloorDivExact(r.h, g); }
    assert b.geo.x / g as real == r.x;
    assert b.geo.y / g as real == r.y;
  }

  lemma FloorDivExact(k: int, g: int)
    requires g != 0
    ensures FloorDiv(k * g, g) == k
  {
    var q := FloorDiv(k * g, g);
    FloorDivBounds(k * g, g);
    if q != k {
      var d := k - q;
      assert d * g == k * g - q * g;
      if g > 0 {
        MulAtLeast(if d > 0 then d else -d, g);
      } else {
        MulAtLeast(if d > 0 then d else -d, -g);
      }
    }
  }

  lemma MulAtLeast(a: int, b: int)
    requires a >= 1 && b >= 1
    ensures a * b >= b
  {
  }

  /** `get_center()`: half the size, rounded down as Python 2 ints. */
  function CenterOf(a: Attrs): (c: (int, int))
    ensures 2 * c.0 <= a.geo.w <= 2 * c.0 + 1
    ensures 2 * c.1 <= a.geo.h <= 2 * c.1 + 1
  {
    (Half(a.geo.w), Half(a.geo.h))
  }

  // ---------------------------------------------------------------------------
  // Camera
  // ---------------------------------------------------------------------------

  /** `update_vector()`: the scroll that brings the target's centre onto the
      camera's centre; the velocity object keeps its name and flag. */
  function Aimed(cam: Attrs, target: Attrs): (r: Attrs)
    requires cam.kin.velocity.Some?
  {
    var (mx, my) := CenterOf(cam);
    var (cx, cy) := CenterOf(target);
    var scroll := cam.kin.velocity.value.(x := mx as real - (target.geo.x + cx as real),
                                          y := my as real - (target.geo.y + cy as real));
    cam.(kin := cam.kin.(velocity := Some(scroll)))
  }

  /** Moving the target by the camera's new scroll puts its centre on the
      camera's centre. */
  lemma AimedCentres(cam: Attrs, target: Attrs)
    requires cam.kin.velocity.Some?
    ensures var v := Aimed(cam, target).kin.velocity.value;
      target.geo.x + v.x + CenterOf(target).0 as real == CenterOf(cam).0 as real &&
      target.geo.y + v.y + CenterOf(target).1 as real == CenterOf(cam).1 as real
  {
  }

  /** Parallax factor `1 + (z - z_target) / (priority_diff + 1)`. */
  function Parallax(z: real, zTarget: real, spread: real): (d: real)
    requires spread >= 0.0
    ensures z == zTarget ==> d == 1.0
    ensures z > zTarget ==> d > 1.0
    ensures z < zTarget ==> d < 1.0
  {
    1.0 + (z - zTarget) / (spread + 1.0)
  }

  // ---------------------------------------------------------------------------
  // The object class
  // ---------------------------------------------------------------------------

  /** A scene object. The attributes that each Python class adds are kept
      together in one field per class: `geo` and `look` for `Image`, `kin`
      for `MovingObject`, `cam` for `Camera`, `reg` for `World`. */
  class Obj {
    const name: string
    const kind: Kind
    var z: real
    var signals: seq<Signal>
    var geo: Geometry
    var look: Look
    var kin: Kinetics
    var cam: Tracking
    var reg: Registry

    function Snapshot(): Attrs
      reads this
    {
      Attrs(kind, z, signals, geo, look, kin, cam, reg)
    }

    /** The signal objects this object owns. */
    function SignalSet(): set<Signal>
      reads this
    {
      set s | s in signals
    }

    constructor (name: string, kind: Kind)
      ensures this.name == name && this.kind == kind
      ensures Snapshot() == Initial(kind).(signals := signals)
      ensures |signals| == |InitialSignals(kind)|
      ensures forall i :: 0 <= i < |signals| ==>
        fresh(signals[i]) && signals[i].name == InitialSignals(kind)[i] && signals[i].State() == SignalState([], [], false)
    {
      this.name := name;
      this.kind := kind;
      var a := Initial(kind);
      z, geo, look, kin, cam, reg := a.z, a.geo, a.look, a.kin, a.cam, a.reg;
      var names := InitialSignals(kind);
      var ss: seq<Signal> := [];
      var i := 0;
      while i < |names|
        invariant 0 <= i <= |names| && |ss| == i
        invariant forall k :: 0 <= k < i ==>
          fresh(ss[k]) && ss[k].name == names[k] && ss[k].State() == SignalState([], [], false)
      {
        var s := new Signal(names[i]);
        ss := ss + [s];
        i := i + 1;
      }
      signals := ss;
    }

    // --- signals (Object) ----------------------------------------------------

    /** `add_signal(name)`: a name already present keeps its signal. */
    method AddSignal(name: string)
      modifies this
      ensures FindSignal(old(signals), name).Some? ==> signals == old(signals)
      ensures FindSignal(old(signals), name).None? ==>
        |signals| == |old(signals)| + 1 && signals[..|old(signals)|] == old(signals) &&
        fresh(signals[|old(signals)|]) && signals[|old(signals)|].name == name &&
        signals[|old(signals)|].State() == SignalState([], [], false)
      ensures Snapshot() == old(Snapshot()).(signals := signals)
    {
      if FindSignal(signals, name).None? {
        var s := new Signal(name);
        signals := signals + [s];
      }
    }

    /** `connect_signal(name, function, data)`: unknown names are ignored. */
    method ConnectSignal(name: string, fn: FnId, data: Value)
      modifies SignalSet()
      ensures FindSignal(signals, name).Some? ==>
        var s := FindSignal(signals, name).value;
        s.State() == old(s.State()).(functions := old(s.functions) + [Callback(fn, data)])
      ensures forall s :: s in SignalSet() && Some(s) != FindSignal(signals, name) ==> s.State() == old(s.State())
    {
      var found := FindSignal(signals, name);
      if found.Some? {
        found.value.AddFunction(fn, data);
      }
    }

    /** `emit_signal(name, response)`: activates the named signal if present. */
    method EmitSignal(name: string, response: Value)
      modifies SignalSet()
      ensures FindSignal(signals, name).Some? ==>
        var s := FindSignal(signals, name).value;
        s.State() == Activated(old(s.State()), true, response)
      ensures forall s :: s in SignalSet() && Some(s) != FindSignal(signals, name) ==> s.State() == old(s.State())
    {
      var found := FindSignal(signals, name);
      if found.Some? {
        found.value.Activate(true, response);
      }
    }

    // --- forces (MovingObject) ----------------------------------------------

    /** `make_movable()`: a zero velocity named "move". */
    method MakeMovable()
      requires kind.IsMoving()
      modifies this
      ensures Snapshot() == old(Snapshot()).(kin := old(kin).(velocity := Some(Vector(Some("move"), 0.0, 0.0, true))))
    {
      kin := kin.(velocity := Some(Vector(Some("move"), 0.0, 0.0, true)));
    }

    /** `add_const_vector(vector)`: the first vector under a name wins. */
    method AddConstVector(v: Vector)
      requires kind.IsMoving()
      modifies this
      ensures Snapshot() == old(Snapshot()).(kin := old(kin).(constVectors := AddVector(old(kin.constVectors), v)))
    {
      if FindVector(kin.constVectors, v.name).None? {
        kin := kin.(constVectors := kin.constVectors + [v]);
      }
    }

    /** `add_temp_vector(vector)`: the first vector under a name wins. */
    method AddTempVector(v: Vector)
      requires kind.IsMoving()
      modifies this
      ensures Snapshot() == old(Snapshot()).(kin := old(kin).(tempVectors := AddVector(old(kin.tempVectors), v)))
    {
      if FindVector(kin.tempVectors, v.name).None? {
        kin := kin.(tempVectors := kin.tempVectors + [v]);
      }
    }

    /** `apply_vector(vector)`: only an enabled vector changes the velocity. */
    method ApplyVector(v: Vector)
      requires kind.IsMoving() && CanPush(kin.velocity, v)
      modifies this
      ensures Snapshot() == old(Snapshot()).(kin := old(kin).(velocity := Push(old(kin.velocity), v)))
    {
      if v.enable {
        kin := kin.(velocity := Some(Add(kin.velocity.value, v)));
      }
    }

    /** `apply_vector` on each of `vs` in order. */
    method ApplyEach(vs: seq<Vector>)
      requires kind.IsMoving() && CanApply(kin.velocity, vs)
      modifies this
      ensures Snapshot() == old(Snapshot()).(kin := old(kin).(velocity := PushAll(old(kin.velocity), vs)))
    {
      var i := 0;
      while i < |vs|
        invariant 0 <= i <= |vs|
        invariant CanApply(kin.velocity, vs[i..])
        invariant Snapshot() == old(Snapshot()).(kin := old(kin).(velocity := PushAll(old(kin.velocity), vs[..i])))
      {
        assert vs[..i + 1][..i] == vs[..i];
        assert vs[i..][0] == vs[i];
        ApplyVector(vs[i]);
        i := i + 1;
      }
      assert vs[..i] == vs;
    }

    /** `apply_all_vectors()`: the const vectors, then the temp vectors, which
        are then dropped. */
    method ApplyAllVectors()
      requires kind.IsMoving() && CanApply(kin.velocity, kin.constVectors + kin.tempVectors)
      modifies this
      ensures Snapshot() == AppliedAll(old(Snapshot()))
    {
      PushAllAppend(kin.velocity, kin.constVectors, kin.tempVectors);
      ApplyEach(kin.constVectors);
      ApplyEach(kin.tempVectors);
      kin := kin.(tempVectors := []);
    }

    /** `move(vector)`, dispatched to `Background.move` for backgrounds. */
    method Move(v: Option<Vector>)
      requires kind.IsMoving() && CanMove(Snapshot(), v)
      modifies this
      ensures Snapshot() == Moved(old(Snapshot()), v)
    {
      var vec := if v.Some? then v else kin.velocity;
      if vec.Some? && !kin.fixed && vec.value.enable {
        geo := geo.(x := geo.x + vec.value.x, y := geo.y + vec.value.y);
        look := look.(force := true);
      }
      if kind.BackgroundObject? {
        WrapAround(vec);
      }
    }

    /** The scrolling part of `Background.move`. */
    method WrapAround(vec: Option<Vector>)
      requires look.hMode != NoScroll || look.vMode != NoScroll ==> vec.Some?
      modifies this
      ensures Snapshot() == Wrapped(old(Snapshot()), vec)
    {
      if look.hMode != NoScroll {
        geo := geo.(x := Wrap(geo.x, geo.w, vec.value.x));
      }
      if look.vMode != NoScroll {
        geo := geo.(y := Wrap(geo.y, geo.h, vec.value.y));
      }
    }

    /** `Camera.update_vector()`. */
    method UpdateVector()
      requires kind.CameraObject? && kin.velocity.Some? && cam.target.Some?
      modifies this
      ensures Snapshot() == Aimed(old(Snapshot()), old(cam.target.value.Snapshot()))
    {
      var t := cam.target.value;
      var (mx, my) := CenterOf(Snapshot());
      var (cx, cy) := CenterOf(t.Snapshot());
      var px, py := t.geo.x, t.geo.y;
      kin := kin.(velocity := Some(kin.velocity.value.(x := mx as real - (px + cx as real),
                                                       y := my as real - (py + cy as real))));
    }

    // --- Image ----------------------------------------------------------------

    /** `set_state(state)`: `force` rises only on a change. */
    method SetState(s: UiState)
      requires kind.IsImage()
      modifies this
      ensures Snapshot() == WithState(old(Snapshot()), s)
    {
      if look.state != s {
        look := look.(state := s, force := true);
      }
    }

    /** `flip(horizontal, state)`: toggles, or sets, one mirroring flag. */
    method Flip(horizontal: bool, value: Option<bool>)
      requires kind.IsImage()
      modifies this
      ensures horizontal ==> look.hMirrored == (if value.Some? then value.value else !old(look.hMirrored))
      ensures !horizontal ==> look.vMirrored == (if value.Some? then value.value else !old(look.vMirrored))
      ensures Snapshot() == old(Snapshot()).(look := old(look).(hMirrored := look.hMirrored, vMirrored := look.vMirrored, force := true))
      ensures horizontal ==> look.vMirrored == old(look.vMirrored)
      ensures !horizontal ==> look.hMirrored == old(look.hMirrored)
    {
      var current := if horizontal then look.hMirrored else look.vMirrored;
      var next := if value.Some? then value.value else !current;
      if horizontal {
        look := look.(hMirrored := next);
      } else {
        look := look.(vMirrored := next);
      }
      look := look.(force := true);
    }

    /** `set_rect(rect, grid)`. */
    method SetRect(r: RectValue, grid: bool)
      requires kind.IsImage()
      modifies this
      ensures Snapshot() == WithRect(old(Snapshot()), r, grid)
    {
      var g := if grid then geo.gridSize else 1;
      geo := geo.(x := r.x * g as real, y := r.y * g as real, w := r.w * g, h := r.h * g);
    }

    /** `set_pos(pos, grid)`. */
    method SetPos(px: real, py: real, grid: bool)
      requires kind.IsImage()
      modifies this
      ensures Snapshot() == WithPos(old(Snapshot()), px, py, grid)
    {
      var g := if grid then geo.gridSize else 1;
      geo := geo.(x := px * g as real, y := py * g as real);
      look := look.(force := true);
    }

    /** `set_size(size, grid)`. */
    method SetSize(sw: int, sh: int, grid: bool)
      requires kind.IsImage()
      modifies this
      ensures Snapshot() == WithSize(old(Snapshot()), sw, sh, grid)
    {
      var g := if grid then geo.gridSize else 1;
      geo := geo.(w := sw * g, h := sh * g);
      look := look.(force := true);
    }

    /** `check_focus(mouse_pos)`. */
    method CheckFocus(mx: real, my: real)
      requires kind.IsImage()
      modifies this
      ensures Snapshot() == old(Snapshot()).(look := old(look).(focused := Hovered(old(Snapshot()), mx, my)))
    {
      look := look.(focused := Hovered(Snapshot(), mx, my));
    }

    /** The part of `update_state` that concerns this object itself
        (a displayed image): emits `click` on release after CLICKED. */
    method UpdateOwnState(clicked: bool)
      requires kind.IsImage()
      modifies this, SignalSet()
      ensures var (s, emit) := NextUiState(old(look.state), old(look.focused), clicked);
        Snapshot() == WithState(old(Snapshot()), s) &&
        (forall sig :: sig in old(SignalSet()) ==>
          sig.State() == if emit && Some(sig) == FindSignal(old(signals), "click")
                         then Activated(old(sig.State()), true, NoneValue) else old(sig.State()))
    {
      if look.state != Inactive {
        if look.focused {
          if clicked {
            SetState(Clicked);
          } else {
            if look.state == Clicked {
              EmitSignal("click", NoneValue);
            }
            SetState(MouseOver);
          }
        } else {
          SetState(Idle);
        }
      }
    }

    // --- Window ---------------------------------------------------------------

    /** `Window.open()`: shows a hidden window. */
    method Open()
      requires kind.WindowObject?
      modifies this
      ensures var a := old(Snapshot());
        Snapshot() == if a.look.display then a else a.(look := a.look.(display := true, isOpen := true))
    {
      if !look.display {
        look := look.(display := true, isOpen := true);
      }
    }

    /** `Window.close()`: hides a shown window. */
    method Close()
      requires kind.WindowObject?
      modifies this
      ensures var a := old(Snapshot());
        Snapshot() == if a.look.display then a.(look := a.look.(display := false, isOpen := false)) else a
    {
      if look.display {
        look := look.(display := false, isOpen := false);
      }
    }

    /** `Window.switch()`: closes an opened window, otherwise opens it; when
        `display` and `opened` agree it flips both. */
    method Switch()
      requires kind.WindowObject?
      modifies this
      ensures var a := old(Snapshot());
        Snapshot() == if a.look.isOpen then (if a.look.display then a.(look := a.look.(display := false, isOpen := false)) else a)
                      else (if a.look.display then a else a.(look := a.look.(display := true, isOpen := true)))
      ensures old(look.display) == old(look.isOpen) ==> look.display == !old(look.display) && look.isOpen == look.display
    {
      if look.isOpen {
        Close();
      } else {
        Open();
      }
    }
  }
}

=== FILE: palette.dfy ===
/** `Color` and `Palette` (fxplib.py): named colours with one RGB value per
    tone, and a palette of colours with a colour key and a default colour. */
module Palettes {
  import opened Wrappers
  import opened Containers

  type Rgb = (int, int, int)

  class Color {
    const name: string
    /** `values`: tone name to RGB value. */
    var values: seq<(string, Rgb)>

    constructor (name: string)
      ensures this.name == name && values == []
    {
      this.name := name;
      values := [];
    }

    /** `set_rgb(tone, rgb)`. */
    method SetRgb(tone: string, rgb: Rgb)
      modifies this
      ensures values == Put(old(values), tone, rgb)
    {
      values := Put(values, tone, rgb);
    }

    /** `get_rgb(tone)`: `None` for a tone never set. */
    function GetRgb(tone: string): (r: Option<Rgb>)
      reads this
      ensures r.Some? <==> Has(values, tone)
      ensures r.Some? ==> (tone, r.value) in values
    {
      Get(values, tone)
    }
  }

  /** The value of `self.default` in a test: `None` and `""` are false. */
  predicate Truthy(default: Option<string>)
  {
    default.Some? && default.value != ""
  }

  class Palette {
    var name: string
    /** `colors`: colour name to colour, each registered under its own name. */
    var colors: seq<(string, Color)>
    var colorkey: Rgb
    var default: Option<string>

    /** The colour objects of the palette. */
    function Colors(): set<Color>
      reads this
    {
      set k | 0 <= k < |colors| :: colors[k].1
    }

    /** Every colour is registered under its name, and names are distinct. */
    predicate Valid()
      reads this
    {
      UniqueKeys(colors) && forall k :: 0 <= k < |colors| ==> colors[k].0 == colors[k].1.name
    }

    constructor (name: string)
      ensures Valid() && this.name == name && colors == [] && colorkey == (0, 0, 0) && default == None
    {
      this.name := name;
      colors := [];
      colorkey := (0, 0, 0);
      default := None;
    }

    /** `append(color)`: a colour whose name is taken is ignored, so the
        first colour registered under a name stays. */
    method Append(color: Color)
      requires Valid()
      modifies this
      ensures Valid()
      ensures colors == if Has(old(colors), color.name) then old(colors) else old(colors) + [(color.name, color)]
      ensures Get(colors, color.name) == if Has(old(colors), color.name) then Get(old(colors), color.name) else Some(color)
      ensures name == old(name) && colorkey == old(colorkey) && default == old(default)
    {
      FindAppend(colors, (color.name, color), color.name);
      if !Has(colors, color.name) {
        colors := colors + [(color.name, color)];
      }
    }

    /** `change_tone(name, tone, rgb)`: sets the tone of the colour called
        `name`, if there is one. */
    method ChangeTone(colorName: string, tone: string, rgb: Rgb)
      requires Valid()
      modifies Colors()
      ensures forall c :: c in Colors() ==>
        c.values == if Get(colors, colorName) == Some(c) then Put(old(c.values), tone, rgb) else old(c.values)
    {
      var i := Find(colors, colorName);
      if i.Some? {
        var c := colors[i.value].1;
        c.SetRgb(tone, rgb);
        forall d | d in Colors() && d != c ensures Get(colors, colorName) != Some(d) {
        }
      }
    }

    method SetColorkey(rgb: Rgb)
      modifies this
      ensures colorkey == rgb && colors == old(colors) && default == old(default) && name == old(name)
    {
      colorkey := rgb;
    }

    method SetDefault(colorName: Option<string>)
      modifies this
      ensures default == colorName && colors == old(colors) && colorkey == old(colorkey) && name == old(name)
    {
      default := colorName;
    }

    /** `get_rgb(name, tone)`: the tone of the colour called `name`; for an
        unknown name, the tone of the default colour when a default is set,
        which raises `KeyError` if that colour is not in the palette; the
        colour key otherwise. */
    function GetRgb(colorName: string, tone: string): (r: Result<Option<Rgb>>)
      reads this, Colors()
      ensures r.Raise? <==> !Has(colors, colorName) && Truthy(default) && !Has(colors, default.value)
      ensures r.Raise? ==> r.error == KeyError
      ensures r == Ok(Some(colorkey)) <== !Has(colors, colorName) && !Truthy(default)
      ensures Has(colors, colorName) ==> r == Ok(Get(colors, colorName).value.GetRgb(tone))
      ensures !Has(colors, colorName) && Truthy(default) && Has(colors, default.value) ==>
        r == Ok(Get(colors, default.value).value.GetRgb(tone))
    {
      match Find(colors, colorName)
        case Some(i) => Ok(colors[i].1.GetRgb(tone))
        case None =>
          if Truthy(default) then
            match Find(colors, default.value)
              case Some(j) => Ok(colors[j].1.GetRgb(tone))
              case None => Raise(KeyError)
          else Ok(Some(colorkey))
    }

    /** `get_all_rgb()`: the colour key, then every tone of every colour. */
    method AllRgb() returns (result: seq<Rgb>)
      ensures result == [colorkey] + Flatten(Tones())
    {
      ghost var tones := Tones();
      result := [colorkey];
      var i := 0;
      while i < |colors|
        invariant 0 <= i <= |colors| == |tones|
        invariant result == [colorkey] + Flatten(tones[..i])
      {
        var c := colors[i].1;
        assert tones[..i + 1][..i] == tones[..i] && tones[i] == c.values;
        result := AppendTones(result, c.values);
        i := i + 1;
      }
      assert tones[..i] == tones;
    }

    /** The tone tables of the colours, in order. */
    function Tones(): (t: seq<seq<(string, Rgb)>>)
      reads this, Colors()
      ensures |t| == |colors| && forall k :: 0 <= k < |colors| ==> t[k] == colors[k].1.values
    {
      TonesOf(colors)
    }
  }

  function TonesOf(colors: seq<(string, Color)>): (t: seq<seq<(string, Rgb)>>)
    reads set k | 0 <= k < |colors| :: colors[k].1
    ensures |t| == |colors| && forall k :: 0 <= k < |colors| ==> t[k] == colors[k].1.values
  {
    if colors == [] then [] else [colors[0].1.values] + TonesOf(colors[1..])
  }

  /** The inner loop of `get_all_rgb`: the values of one colour appended. */
  method AppendTones(result: seq<Rgb>, values: seq<(string, Rgb)>) returns (r: seq<Rgb>)
    ensures r == result + RgbOf(values)
  {
    r := result;
    var j := 0;
    while j < |values|
      invariant 0 <= j <= |values|
      invariant r == result + RgbOf(values[..j])
    {
      assert values[..j + 1][..j] == values[..j];
      r := r + [values[j].1];
      j := j + 1;
    }
    assert values[..j] == values;
  }

  function RgbOf(vs: seq<(string, Rgb)>): (r: seq<Rgb>)
    ensures |r| == |vs| && forall k :: 0 <= k < |vs| ==> r[k] == vs[k].1
  {
    if vs == [] then [] else RgbOf(vs[..|vs| - 1]) + [vs[|vs| - 1].1]
  }

  /** The values of the tables one after the other. */
  function Flatten(tables: seq<seq<(string, Rgb)>>): seq<Rgb>
  {
    if tables == [] then [] else Flatten(tables[..|tables| - 1]) + RgbOf(tables[|tables| - 1])
  }

  /** Every tone of every table is in the flattened list, and the list holds
      nothing else: it has one entry per tone. */
  lemma {:induction false} FlattenHoldsEach(tables: seq<seq<(string, Rgb)>>, k: nat, j: nat)
    requires k < |tables| && j < |tables[k]|
    ensures tables[k][j].1 in Flatten(tables)
  {
    if k == |tables| - 1 {
      assert RgbOf(tables[k])[j] == tables[k][j].1;
    } else {
      FlattenHoldsEach(tables[..|tables| - 1], k, j);
    }
  }

  lemma {:induction false} FlattenHoldsOnly(tables: seq<seq<(string, Rgb)>>, v: Rgb)
    requires v in Flatten(tables)
    ensures exists k, j :: 0 <= k < |tables| && 0 <= j < |tables[k]| && tables[k][j].1 == v
  {
    var n := |tables| - 1;
    if v in Flatten(tables[..n]) {
      FlattenHoldsOnly(tables[..n], v);
      var k, j :| 0 <= k < n && 0 <= j < |tables[..n][k]| && tables[..n][k][j].1 == v;
      assert tables[k] == tables[..n][k];
    } else {
      var j :| 0 <= j < |tables[n]| && RgbOf(tables[n])[j] == v;
    }
  }

  /** A colour appended under a new name answers `get_rgb` for that name
      with its own tones. */
  lemma AppendedAnswers(p: Palette, before: seq<(string, Color)>, c: Color, tone: string)
    requires !Has(before, c.name) && p.colors == before + [(c.name, c)]
    ensures p.GetRgb(c.name, tone) == Ok(c.GetRgb(tone))
  {
    FindAppend(before, (c.name, c), c.name);
  }
}

=== FILE: physics.dfy ===
/** The motion passes: `move_all(vectors, move)` as `MovingObject`,
    `Camera` and `World` define it (fxplib.py), over the scene tree.

    Each pass is specified by a function from the recorded `State` to the
    state it leaves, or to the Python exception that escapes it
    (`Raise(Unrecorded)` when the record lacks an object the pass reads).
    The functions follow the statements in program order, so an object
    reached twice is updated twice. The force generators registered with a
    world are parameters: functions of the recorded attributes of the
    objects they are given. */
module Physics {
  import opened Wrappers
  import opened Vectors
  import opened Signals
  import opened Objects
  import opened Scene
  import opened Collision

  /** What the registered force generators return, by `FnId`:
      `generator(obj)` for environment vectors and
      `generator(obj, obstacle, rect, orect)` for collision vectors. */
  datatype Gens = Gens(
    env: (FnId, Attrs) -> Result<Vector>,
    collide: (FnId, Attrs, Attrs, Rect, Rect) -> Result<Vector>)

  // ---------------------------------------------------------------------------
  // What the passes may change
  // ---------------------------------------------------------------------------

  /** `y` records the same objects and signals as `x`. */
  predicate Kept(x: State, y: State)
  {
    x.objs.Keys == y.objs.Keys && x.sigs.Keys == y.sigs.Keys
  }

  // ---------------------------------------------------------------------------
  // One object at a time
  // ---------------------------------------------------------------------------

  /** The attributes after `apply_vector(v)`. */
  function Pushed(a: Attrs, v: Vector): Attrs
    requires CanPush(a.kin.velocity, v)
  {
    a.(kin := a.kin.(velocity := Push(a.kin.velocity, v)))
  }

  /** `o.apply_vector(v)`: only a `MovingObject` has the method, and adding an
      enabled vector to a missing velocity raises `TypeError`. */
  function ApplyStep(o: Obj, v: Vector, st: State): (r: Result<State>)
    ensures r.Ok? ==> Kept(st, r.value)
  {
    if o !in st.objs then Raise(Unrecorded)
    else
      var a := st.objs[o];
      if !a.kind.IsMoving() then Raise(AttributeError)
      else if !CanPush(a.kin.velocity, v) then Raise(TypeError)
      else Ok(st.(objs := st.objs[o := Pushed(a, v)]))
  }

  /** `o.apply_all_vectors()` on a moving object. */
  function ApplyAllStep(o: Obj, st: State): (r: Result<State>)
    ensures r.Ok? ==> Kept(st, r.value)
  {
    if o !in st.objs then Raise(Unrecorded)
    else
      var a := st.objs[o];
      if !CanApply(a.kin.velocity, a.kin.constVectors + a.kin.tempVectors) then Raise(TypeError)
      else Ok(st.(objs := st.objs[o := AppliedAll(a)]))
  }

  /** `o.move(v)`: only a `MovingObject` has the method, and a scrolling
      background without a vector raises. */
  function MoveStep(o: Obj, v: Option<Vector>, st: State): (r: Result<State>)
    ensures r.Ok? ==> Kept(st, r.value)
  {
    if o !in st.objs then Raise(Unrecorded)
    else
      var a := st.objs[o];
      if !a.kind.IsMoving() || !CanMove(a, v) then Raise(AttributeError)
      else Ok(st.(objs := st.objs[o := Moved(a, v)]))
  }

  /** `w.emit_signal("collide", value)`: a world without the signal ignores it. */
  function EmitStep(w: Obj, value: Value, st: State): (r: Result<State>)
    ensures r.Ok? ==> Kept(st, r.value)
  {
    if w !in st.objs || !SignalsIn(st.objs[w].signals, st.sigs.Keys) then Raise(Unrecorded)
    else
      match FindSignal(st.objs[w].signals, "collide")
      case None => Ok(st)
      case Some(s) =>
        assert s in st.sigs by {
          var k :| 0 <= k < |st.objs[w].signals| && st.objs[w].signals[k] == s;
        }
        Ok(st.(sigs := st.sigs[s := Activated(st.sigs[s], true, value)]))
  }

  // ---------------------------------------------------------------------------
  // move_all
  // ---------------------------------------------------------------------------

  /** `t.obj.move_all(vectors, move)`, dispatched on the object's class:
      a world runs its own pass whatever the arguments, a camera first
      scrolls its children, and an object that is not a `MovingObject`
      only passes the call on to its children. */
  function MoveTree(t: Tree, vectors: bool, move: bool, g: Gens, st: State): (r: Result<State>)
    ensures r.Ok? ==> Kept(st, r.value)
    decreases t, 3
  {
    if t.obj !in st.objs then Raise(Unrecorded)
    else
      var a := st.objs[t.obj];
      if a.kind.WorldObject? then WorldPass(t, g, st)
      else if a.kind.CameraObject? then
        var st1 :- if move && a.cam.active then CameraPart(t, st) else Ok(st);
        MovingPass(t, vectors, move, g, st1)
      else if a.kind.IsMoving() then MovingPass(t, vectors, move, g, st)
      else MoveForest(t.children, vectors, move, g, st)
  }

  /** `move_all` on each child in order. */
  function MoveForest(cs: seq<Tree>, vectors: bool, move: bool, g: Gens, st: State): (r: Result<State>)
    ensures r.Ok? ==> Kept(st, r.value)
    decreases cs, 0
  {
    if cs == [] then Ok(st)
    else
      var st1 :- MoveTree(cs[0], vectors, move, g, st);
      MoveForest(cs[1..], vectors, move, g, st1)
  }

  /** `MovingObject.move_all(vectors, move)`: the children first, then the
      object's own forces, then its own move by its velocity. */
  function MovingPass(t: Tree, vectors: bool, move: bool, g: Gens, st: State): (r: Result<State>)
    requires t.obj in st.objs
    ensures r.Ok? ==> Kept(st, r.value)
    decreases t, 1
  {
    var st1 :- MoveForest(t.children, vectors, move, g, st);
    OwnMotion(t.obj, vectors, move, st1)
  }

  /** The object's own part of `MovingObject.move_all`:
      `apply_all_vectors()` if `vectors`, then `move()` if `move`. */
  function OwnMotion(o: Obj, vectors: bool, move: bool, st: State): (r: Result<State>)
    ensures r.Ok? ==> Kept(st, r.value)
  {
    if !vectors then
      if move then MoveStep(o, None, st) else Ok(st)
    else
      var st1 :- ApplyAllStep(o, st);
      if move then
        MoveStep(o, None, st1)
      else Ok(st1)
  }

  // ---------------------------------------------------------------------------
  // Camera.move_all
  // ---------------------------------------------------------------------------

  /** `update_vector()` when the camera has a target: the target must be an
      image, and the velocity must exist to be reset. */
  function Track(o: Obj, st: State): (r: Result<State>)
    requires o in st.objs
    ensures r.Ok? ==> Kept(st, r.value)
  {
    var a := st.objs[o];
    if a.cam.target.None? then Ok(st)
    else
      var tg := a.cam.target.value;
      if tg !in st.objs then Raise(Unrecorded)
      else if !st.objs[tg].kind.IsImage() || a.kin.velocity.None? then Raise(AttributeError)
      else Ok(st.(objs := st.objs[o := Aimed(a, st.objs[tg])]))
  }

  /** What an active camera does before the usual pass: `update_vector()`
      when it has a target, then the scrolling of its children. */
  function CameraPart(t: Tree, st: State): (r: Result<State>)
    requires t.obj in st.objs
    ensures r.Ok? ==> Kept(st, r.value)
  {
    var st1 :- Track(t.obj, st);
    Scroll(t, st1)
  }

  /** Every child, by increasing priority, moves by the velocity scaled by
      its parallax factor. The spread of priorities is read before the
      emptiness of the children is checked, so no children raises
      `IndexError`; the target's priority is read for the first child, so a
      missing target raises only then. */
  function Scroll(t: Tree, st: State): (r: Result<State>)
    requires t.obj in st.objs
    ensures r.Ok? ==> Kept(st, r.value)
  {
    var a := st.objs[t.obj];
    if a.kin.velocity.None? then Raise(AttributeError)
    else if !Known(t.children, st.objs) then Raise(Unrecorded)
    else if t.children == [] then Raise(IndexError)
    else if a.cam.target.None? then Raise(AttributeError)
    else if a.cam.target.value !in st.objs then Raise(Unrecorded)
    else
      var ps := Prioritised(t.children, st.objs);
      SpreadNonNegative(ps);
      ParallaxAll(SortByZ(ps), a.kin.velocity.value, st.objs[a.cam.target.value].z, Spread(SortByZ(ps)), st)
  }

  /** `children[-1].z - children[0].z` on the sorted children. */
  function Spread(ps: seq<(Tree, real)>): real
    requires ps != []
  {
    ps[|ps| - 1].1 - ps[0].1
  }

  lemma SpreadNonNegative(ps: seq<(Tree, real)>)
    requires ps != []
    ensures SortByZ(ps) != [] && Spread(SortByZ(ps)) >= 0.0
  {
    SortedEnds(ps);
    assert SortByZ(ps)[0].1 <= ps[0].1 <= SortByZ(ps)[|ps| - 1].1;
  }

  /** `child.move(velocity * distance(child.z, target.z, spread))` for each
      entry in order. */
  function ParallaxAll(ps: seq<(Tree, real)>, vel: Vector, zt: real, spread: real, st: State): (r: Result<State>)
    requires spread >= 0.0
    ensures r.Ok? ==> Kept(st, r.value)
    decreases |ps|
  {
    if ps == [] then Ok(st)
    else
      var st1 :- MoveStep(ps[0].0.obj, Some(Scale(vel, Parallax(ps[0].1, zt, spread))), st);
      ParallaxAll(ps[1..], vel, zt, spread, st1)
  }

  // ---------------------------------------------------------------------------
  // World.move_all
  // ---------------------------------------------------------------------------

  /** `World.move_all`: the forces of the whole subtree, then the
      environment vectors, then the collisions between solid objects, then
      the moves; the two arguments are not used. */
  function WorldPass(t: Tree, g: Gens, st: State): (r: Result<State>)
    requires t.obj in st.objs
    ensures r.Ok? ==> Kept(st, r.value)
    decreases t, 2
  {
    var st1 :- MovingPass(t, true, false, g, st);
    var w := st1.objs[t.obj];
    var st2 :- EnvAll(w.reg.envObjects, w.reg.envVectors, g, st1);
    var x := st2.objs[t.obj];
    var solids :- SolidTree(t, Point(x.geo.x, x.geo.y), st2.objs);
    var st3 :- Narrow(solids, t.obj, g, st2, []);
    MovingPass(t, false, true, g, st3.0)
  }

  /** `env_obj.apply_vector(env_vectors[env_name](env_obj))` for each
      registration in order; an unknown name raises `KeyError`. */
  function EnvAll(regs: seq<(string, Obj)>, gens: map<string, FnId>, g: Gens, st: State): (r: Result<State>)
    ensures r.Ok? ==> Kept(st, r.value)
    decreases |regs|
  {
    if regs == [] then Ok(st)
    else
      var (name, o) := regs[0];
      if name !in gens then Raise(KeyError)
      else if o !in st.objs then Raise(Unrecorded)
      else
        var v :- g.env(gens[name], st.objs[o]);
        var st1 :- ApplyStep(o, v, st);
        EnvAll(regs[1..], gens, g, st1)
  }

  /** The absolute position of an object placed at `a`'s position relative
      to `p`. */
  function Shifted(p: Point, a: Attrs): (q: Point)
    ensures q.x - p.x == a.geo.x && q.y - p.y == a.geo.y
  {
    Point(p.x + a.geo.x, p.y + a.geo.y)
  }

  /** `get_solid(obj, pos, list)`: the solid objects of the subtree in
      pre-order, each with its absolute position; `get_pos` needs an image
      and `solid` a `MovingObject`. */
  function SolidTree(t: Tree, p: Point, objs: Store): (r: Result<seq<(Obj, Point)>>)
    decreases t, 1
  {
    if t.obj !in objs then Raise(Unrecorded)
    else
      var a := objs[t.obj];
      if !a.kind.IsMoving() then Raise(AttributeError)
      else
        var q := Shifted(p, a);
        var rest :- SolidForest(t.children, q, objs);
        Ok((if a.kin.solid then [(t.obj, q)] else []) + rest)
  }

  function SolidForest(cs: seq<Tree>, p: Point, objs: Store): (r: Result<seq<(Obj, Point)>>)
    decreases cs, 0
  {
    if cs == [] then Ok([])
    else
      var first :- SolidTree(cs[0], p, objs);
      var rest :- SolidForest(cs[1..], p, objs);
      Ok(first + rest)
  }

  /** The absolute position of a solid entry, moved by its velocity unless
      it is fixed. */
  function Projected(o: Obj, p: Point, objs: Store): (r: Result<Point>)
    ensures r.Ok? ==> o in objs
  {
    if o !in objs then Raise(Unrecorded)
    else
      var a := objs[o];
      if a.kin.fixed then Ok(p)
      else if a.kin.velocity.None? then Raise(AttributeError)
      else Ok(Point(p.x + a.kin.velocity.value.x, p.y + a.kin.velocity.value.y))
  }

  /** A hitbox placed at an absolute position. */
  function Place(h: Box, p: Point): Rect
  {
    Rect(h.x as real + p.x, h.y as real + p.y, h.w, h.h)
  }

  /** The `(popped, obstacle)` index pairs the narrow phase has tested, in
      the order it tested them; indices are positions in the broad-phase
      list. */
  type Tested = seq<(nat, nat)>

  /** The state a narrow-phase run ends in, or the exception it raises. */
  function Final(r: Result<(State, Tested)>): Result<State>
  {
    match r
    case Ok(out) => Ok(out.0)
    case Raise(e) => Raise(e)
  }

  /** The narrow phase: while entries remain, the last one is popped and
      tested against each remaining entry in order. Each pair tested is
      appended to `done`. */
  function Narrow(list: seq<(Obj, Point)>, w: Obj, g: Gens, st: State, done: Tested): (r: Result<(State, Tested)>)
    ensures r.Ok? ==> Kept(st, r.value.0)
    decreases |list|
  {
    if list == [] then Ok((st, done))
    else
      var (o, p) := list[|list| - 1];
      var rest := list[..|list| - 1];
      var ap :- Projected(o, p, st.objs);
      var out :- Scan(o, |rest|, ap, rest, 0, w, g, st, done);
      Narrow(rest, w, g, out.0, out.1)
  }

  /** The popped entry `o` (at index `i`, projected to `ap`) against the
      obstacles `obs[k..]` in order; each obstacle's position is projected
      by its velocity as it is at that moment. */
  function Scan(o: Obj, i: nat, ap: Point, obs: seq<(Obj, Point)>, k: nat, w: Obj, g: Gens, st: State, done: Tested)
    : (r: Result<(State, Tested)>)
    ensures r.Ok? ==> Kept(st, r.value.0)
    decreases |obs| - k
  {
    if k >= |obs| then Ok((st, done))
    else
      var (b, bp) := obs[k];
      var bq :- Projected(b, bp, st.objs);
      if o !in st.objs then Raise(Unrecorded)
      else
        var st1 :- HitRows(o, ap, st.objs[o].kin.hitboxes, b, bq, st.objs[b].kin.hitboxes, w, g, st);
        Scan(o, i, ap, obs, k + 1, w, g, st1, done + [(i, k)])
  }

  /** Each hitbox of the popped entry against every hitbox of the obstacle. */
  function HitRows(o: Obj, ap: Point, hs: seq<Box>, b: Obj, bq: Point, bhs: seq<Box>, w: Obj, g: Gens, st: State): (r: Result<State>)
    ensures r.Ok? ==> Kept(st, r.value)
    decreases |hs|
  {
    if hs == [] then Ok(st)
    else
      var st1 :- HitCols(o, Place(hs[0], ap), b, bq, bhs, w, g, st);
      HitRows(o, ap, hs[1..], b, bq, bhs, w, g, st1)
  }

  /** One hitbox rectangle `rect` of the popped entry against the obstacle's
      hitboxes in order; each overlapping pair collides. */
  function HitCols(o: Obj, rect: Rect, b: Obj, bq: Point, bhs: seq<Box>, w: Obj, g: Gens, st: State): (r: Result<State>)
    ensures r.Ok? ==> Kept(st, r.value)
    decreases |bhs|
  {
    if bhs == [] then Ok(st)
    else
      var orect := Place(bhs[0], bq);
      var st1 :- if Overlap(rect, orect) then Collide(o, b, rect, orect, w, g, st) else Ok(st);
      HitCols(o, rect, b, bq, bhs[1..], w, g, st1)
  }

  /** `do_collide(obj, obstacle, rect, orect)`: the world's collision
      registrations applied in order, then `collide` emitted once with the
      last vector applied, if any was. */
  function Collide(o: Obj, b: Obj, rect: Rect, orect: Rect, w: Obj, g: Gens, st: State): (r: Result<State>)
    ensures r.Ok? ==> Kept(st, r.value)
  {
    if w !in st.objs then Raise(Unrecorded)
    else
      var reg := st.objs[w].reg;
      var out :- CollideAll(reg.collideObjects, reg.collideVectors, o, b, rect, orect, g, st, None);
      var (st1, last) := out;
      if last.None? then Ok(st1)
      else
        EmitStep(w, Collision(o, b, last.value), st1)
  }

  /** The loop of `do_collide`: a registration naming `obj` pushes `obj`
      away from `obstacle`; otherwise one naming `obstacle` pushes the
      obstacle away from `obj`. Also returns the last vector applied. */
  function CollideAll(regs: seq<(string, Obj)>, gens: map<string, FnId>, o: Obj, b: Obj,
                      rect: Rect, orect: Rect, g: Gens, st: State, last: Option<Vector>)
    : (r: Result<(State, Option<Vector>)>)
    ensures r.Ok? ==> Kept(st, r.value.0)
    ensures r.Ok? && last.Some? ==> r.value.1.Some?
    decreases |regs|
  {
    if regs == [] then Ok((st, last))
    else
      var (name, c) := regs[0];
      if c != o && c != b then CollideAll(regs[1..], gens, o, b, rect, orect, g, st, last)
      else if name !in gens then Raise(KeyError)
      else
        var x, y, xr, yr := if c == o then o else b, if c == o then b else o,
                            if c == o then rect else orect, if c == o then orect else rect;
        if x !in st.objs || y !in st.objs then Raise(Unrecorded)
        else
          var v :- g.collide(gens[name], st.objs[x], st.objs[y], xr, yr);
          var st1 :- ApplyStep(x, v, st);
          CollideAll(regs[1..], gens, o, b, rect, orect, g, st1, Some(v))
  }

  // ---------------------------------------------------------------------------
  // Properties of the passes
  // ---------------------------------------------------------------------------

  /** `World.move_all` ignores its `vectors` and `move` arguments. */
  lemma WorldIgnoresArguments(t: Tree, v1: bool, m1: bool, v2: bool, m2: bool, g: Gens, st: State)
    requires t.obj in st.objs && st.objs[t.obj].kind.WorldObject?
    ensures MoveTree(t, v1, m1, g, st) == MoveTree(t, v2, m2, g, st)
  {
  }

  /** The broad phase starts from the world's own position and then adds it
      again, so a solid world is listed at twice its position. */
  lemma WorldListedTwice(t: Tree, objs: Store)
    requires t.obj in objs && objs[t.obj].kind.WorldObject? && objs[t.obj].kin.solid
    ensures var a := objs[t.obj];
      var r := SolidTree(t, Point(a.geo.x, a.geo.y), objs);
      r.Ok? ==> |r.value| > 0 && r.value[0] == (t.obj, Point(2.0 * a.geo.x, 2.0 * a.geo.y))
  {
  }

  /** The index pairs `(popped, obstacle)` of a list of `n` solid entries in
      the order the narrow phase tests them: the last entry is popped and
      tested against every entry left, first to last, and so on. */
  function Examined(n: nat): (r: seq<(nat, nat)>)
  {
    if n == 0 then []
    else seq(n - 1, k requires 0 <= k < n - 1 => (n - 1, k)) + Examined(n - 1)
  }

  /** Every unordered pair of distinct entries is tested exactly once: a pair
      is tested iff its popped entry comes later in the list than its
      obstacle, and no pair is tested twice. */
  lemma {:induction false} ExaminedOnce(n: nat)
    ensures forall p :: p in Examined(n) <==> p.1 < p.0 < n
    ensures forall a, b :: 0 <= a < b < |Examined(n)| ==> Examined(n)[a] != Examined(n)[b]
  {
    if n > 0 {
      ExaminedOnce(n - 1);
      var block := seq(n - 1, k requires 0 <= k < n - 1 => (n - 1, k));
      assert Examined(n) == block + Examined(n - 1);
      forall p
        ensures p in Examined(n) <==> p.1 < p.0 < n
      {
        if p.1 < p.0 == n - 1 {
          assert block[p.1] == p;
        }
      }
      forall a, b | 0 <= a < b < |Examined(n)|
        ensures Examined(n)[a] != Examined(n)[b]
      {
        if b >= |block| && a < |block| {
          assert Examined(n)[b] in Examined(n - 1);
        }
      }
    }
  }

  /** The pairs one scan tests: the popped index `i` with each obstacle
      index from `k` on, in order. */
  function ScanPairs(i: nat, k: nat, n: nat): (r: Tested)
    requires k <= n
    ensures |r| == n - k && forall j :: 0 <= j < n - k ==> r[j] == (i, k + j)
  {
    seq(n - k, j requires 0 <= j < n - k => (i, k + j))
  }

  /** A scan that raises nothing records exactly the pairs of `ScanPairs`. */
  lemma {:induction false} ScanTested(o: Obj, i: nat, ap: Point, obs: seq<(Obj, Point)>, k: nat, w: Obj, g: Gens,
                                      st: State, done: Tested)
    requires k <= |obs|
    ensures var r := Scan(o, i, ap, obs, k, w, g, st, done);
      r.Ok? ==> r.value.1 == done + ScanPairs(i, k, |obs|)
    decreases |obs| - k
  {
    var r := Scan(o, i, ap, obs, k, w, g, st, done);
    if k < |obs| && r.Ok? {
      var (b, bp) := obs[k];
      var bq := Projected(b, bp, st.objs).value;
      var st1 := HitRows(o, ap, st.objs[o].kin.hitboxes, b, bq, st.objs[b].kin.hitboxes, w, g, st).value;
      ScanTested(o, i, ap, obs, k + 1, w, g, st1, done + [(i, k)]);
      assert [(i, k)] + ScanPairs(i, k + 1, |obs|) == ScanPairs(i, k, |obs|);
    }
  }

  /** A narrow phase that raises nothing records exactly `Examined` of the
      length of the list. */
  lemma {:induction false} NarrowTested(list: seq<(Obj, Point)>, w: Obj, g: Gens, st: State, done: Tested)
    ensures var r := Narrow(list, w, g, st, done);
      r.Ok? ==> r.value.1 == done + Examined(|list|)
    decreases |list|
  {
    var r := Narrow(list, w, g, st, done);
    if list != [] && r.Ok? {
      var (o, p) := list[|list| - 1];
      var rest := list[..|list| - 1];
      var ap := Projected(o, p, st.objs).value;
      var out := Scan(o, |rest|, ap, rest, 0, w, g, st, done).value;
      ScanTested(o, |rest|, ap, rest, 0, w, g, st, done);
      NarrowTested(rest, w, g, out.0, out.1);
      assert ScanPairs(|rest|, 0, |rest|) == seq(|list| - 1, k requires 0 <= k < |list| - 1 => (|list| - 1, k));
    }
  }

  /** `World.move_all`'s narrow phase tests every unordered pair of distinct
      broad-phase entries exactly once: the pairs it records are those whose
      popped entry comes later in the list than the obstacle, each once. */
  lemma NarrowTestsPairsOnce(list: seq<(Obj, Point)>, w: Obj, g: Gens, st: State)
    ensures var r := Narrow(list, w, g, st, []);
      r.Ok? ==> (forall p :: p in r.value.1 <==> p.1 < p.0 < |list|) &&
                (forall a, b :: 0 <= a < b < |r.value.1| ==> r.value.1[a] != r.value.1[b])
  {
    NarrowTested(list, w, g, st, []);
    ExaminedOnce(|list|);
    var r := Narrow(list, w, g, st, []);
    if r.Ok? {
      assert r.value.1 == Examined(|list|);
    }
  }

  /** The collision registrations push objects; they leave the signals alone. */
  lemma {:induction false} CollideAllKeepsSignals(regs: seq<(string, Obj)>, gens: map<string, FnId>, o: Obj, b: Obj,
                                                rect: Rect, orect: Rect, g: Gens, st: State, last: Option<Vector>)
    ensures var r := CollideAll(regs, gens, o, b, rect, orect, g, st, last);
      r.Ok? ==> r.value.0.sigs == st.sigs
    decreases |regs|
  {
    if regs != [] {
      var (name, c) := regs[0];
      if c != o && c != b {
        CollideAllKeepsSignals(regs[1..], gens, o, b, rect, orect, g, st, last);
      } else if name in gens {
        var x, y, xr, yr := if c == o then o else b, if c == o then b else o,
                            if c == o then rect else orect, if c == o then orect else rect;
        if x in st.objs && y in st.objs {
          var v := g.collide(gens[name], st.objs[x], st.objs[y], xr, yr);
          if v.Ok? {
            var st1 := ApplyStep(x, v.value, st);
            if st1.Ok? {
              CollideAllKeepsSignals(regs[1..], gens, o, b, rect, orect, g, st1.value, Some(v.value));
            }
          }
        }
      }
    }
  }

  /** One overlapping hitbox pair emits `collide` at most once: at most one
      signal changes, and it is activated with one more response, a collision
      between `o` and `b`. */
  lemma CollideEmitsOnce(o: Obj, b: Obj, rect: Rect, orect: Rect, w: Obj, g: Gens, st: State)
    ensures var r := Collide(o, b, rect, orect, w, g, st);
      r.Ok? ==> forall s :: s in st.sigs && r.value.sigs[s] != st.sigs[s] ==>
        r.value.sigs[s].activated &&
        (exists v :: r.value.sigs[s].responses == st.sigs[s].responses + [Collision(o, b, v)]) &&
        forall s' :: s' in st.sigs && r.value.sigs[s'] != st.sigs[s'] ==> s' == s
  {
    if w in st.objs {
      var reg := st.objs[w].reg;
      var out := CollideAll(reg.collideObjects, reg.collideVectors, o, b, rect, orect, g, st, None);
      CollideAllKeepsSignals(reg.collideObjects, reg.collideVectors, o, b, rect, orect, g, st, None);
      if out.Ok? && out.value.1.Some? {
        var v := out.value.1.value;
        var r := Collide(o, b, rect, orect, w, g, st);
        if r.Ok? {
          forall s | s in st.sigs && r.value.sigs[s] != st.sigs[s]
            ensures r.value.sigs[s].responses == st.sigs[s].responses + [Collision(o, b, v)]
          {
          }
        }
      }
    }
  }

  // ---------------------------------------------------------------------------
  // The passes on the heap
  // ---------------------------------------------------------------------------

  /** How a pass on the heap ended: with the exception the specification
      raises, or with none and the heap holding the state it gives. */
  ghost predicate Outcome(err: Option<PyError>, r: Result<State>)
    reads if r.Ok? then r.value.objs.Keys else {}, if r.Ok? then r.value.sigs.Keys else {}
  {
    match r
    case Ok(s) => err.None? && Synced(s)
    case Raise(e) => err == Some(e)
  }

  /** `o.apply_vector(v)`. */
  method ApplyOne(o: Obj, v: Vector, ghost st: State) returns (err: Option<PyError>)
    requires Synced(st) && ApplyStep(o, v, st) != Raise(Unrecorded)
    modifies o
    ensures Outcome(err, ApplyStep(o, v, st))
  {
    if !o.kind.IsMoving() {
      return Some(AttributeError);
    }
    assert o.Snapshot() == st.objs[o];
    if !CanPush(o.kin.velocity, v) {
      return Some(TypeError);
    }
    o.ApplyVector(v);
    err := None;
  }

  /** `o.apply_all_vectors()`. */
  method ApplyAllOne(o: Obj, ghost st: State) returns (err: Option<PyError>)
    requires Synced(st) && o.kind.IsMoving() && ApplyAllStep(o, st) != Raise(Unrecorded)
    modifies o
    ensures Outcome(err, ApplyAllStep(o, st))
  {
    assert o.Snapshot() == st.objs[o];
    if !CanApply(o.kin.velocity, o.kin.constVectors + o.kin.tempVectors) {
      return Some(TypeError);
    }
    o.ApplyAllVectors();
    err := None;
  }

  /** `o.move(v)`. */
  method MoveOne(o: Obj, v: Option<Vector>, ghost st: State) returns (err: Option<PyError>)
    requires Synced(st) && MoveStep(o, v, st) != Raise(Unrecorded)
    modifies o
    ensures Outcome(err, MoveStep(o, v, st))
  {
    assert o.Snapshot() == st.objs[o];
    if !o.kind.IsMoving() || !CanMove(o.Snapshot(), v) {
      return Some(AttributeError);
    }
    o.Move(v);
    err := None;
  }

  /** `w.emit_signal("collide", value)`. */
  method EmitOne(w: Obj, value: Value, ghost st: State) returns (err: Option<PyError>)
    requires Synced(st) && EmitStep(w, value, st) != Raise(Unrecorded)
    modifies st.sigs.Keys
    ensures Outcome(err, EmitStep(w, value, st))
  {
    assert w.Snapshot() == st.objs[w];
    assert w.SignalSet() <= st.sigs.Keys by {
      forall sig | sig in w.SignalSet()
        ensures sig in st.sigs
      {
        var k :| 0 <= k < |w.signals| && w.signals[k] == sig;
      }
    }
    w.EmitSignal("collide", value);
    err := None;
  }

  /** `move_all(vectors, move)` on the heap. */
  method MoveAll(t: Tree, vectors: bool, move: bool, g: Gens, ghost st: State) returns (err: Option<PyError>)
    requires Synced(st) && MoveTree(t, vectors, move, g, st) != Raise(Unrecorded)
    modifies st.objs.Keys, st.sigs.Keys
    ensures Outcome(err, MoveTree(t, vectors, move, g, st))
    decreases t, 3
  {
    var o := t.obj;
    assert o.Snapshot() == st.objs[o];
    if o.kind.WorldObject? {
      err := World(t, g, st);
    } else if o.kind.CameraObject? {
      ghost var st1 := st;
      if move && o.cam.active {
        err := CameraMove(t, st);
        if err.Some? {
          return;
        }
        st1 := CameraPart(t, st).value;
      }
      err := MovingAll(t, vectors, move, g, st1);
    } else if o.kind.IsMoving() {
      err := MovingAll(t, vectors, move, g, st);
    } else {
      err := MoveChildren(t.children, vectors, move, g, st);
    }
  }

  /** The loop of `move_all` over the children. */
  method MoveChildren(cs: seq<Tree>, vectors: bool, move: bool, g: Gens, ghost st: State) returns (err: Option<PyError>)
    requires Synced(st) && MoveForest(cs, vectors, move, g, st) != Raise(Unrecorded)
    modifies st.objs.Keys, st.sigs.Keys
    ensures Outcome(err, MoveForest(cs, vectors, move, g, st))
    decreases cs, 0
  {
    ghost var cur := st;
    var i := 0;
    while i < |cs|
      invariant 0 <= i <= |cs|
      invariant Synced(cur) && Kept(st, cur)
      invariant MoveForest(cs, vectors, move, g, st) == MoveForest(cs[i..], vectors, move, g, cur)
    {
      ghost var next;
      err, next := MoveChild(cs, i, vectors, move, g, cur);
      if err.Some? {
        return;
      }
      cur := next;
      i := i + 1;
    }
    err := None;
  }

  /** One round of the loop of `move_all`: the `i`th child moves. */
  method MoveChild(cs: seq<Tree>, i: nat, vectors: bool, move: bool, g: Gens, ghost st: State)
    returns (err: Option<PyError>, ghost next: State)
    requires i < |cs| && Synced(st) && MoveForest(cs[i..], vectors, move, g, st) != Raise(Unrecorded)
    modifies st.objs.Keys, st.sigs.Keys
    ensures err.Some? ==> MoveForest(cs[i..], vectors, move, g, st) == Raise(err.value)
    ensures err.None? ==>
      Synced(next) && Kept(st, next) &&
      MoveForest(cs[i..], vectors, move, g, st) == MoveForest(cs[i + 1..], vectors, move, g, next)
    decreases cs, 0, i
  {
    assert cs[i..][0] == cs[i] && cs[i..][1..] == cs[i + 1..];
    next := st;
    err := MoveAll(cs[i], vectors, move, g, st);
    if err.None? {
      next := MoveTree(cs[i], vectors, move, g, st).value;
    }
  }

  /** `MovingObject.move_all(vectors, move)` on the heap. */
  method MovingAll(t: Tree, vectors: bool, move: bool, g: Gens, ghost st: State) returns (err: Option<PyError>)
    requires Synced(st) && t.obj in st.objs && t.obj.kind.IsMoving()
    requires MovingPass(t, vectors, move, g, st) != Raise(Unrecorded)
    modifies st.objs.Keys, st.sigs.Keys
    ensures Outcome(err, MovingPass(t, vectors, move, g, st))
    decreases t, 1
  {
    err := MoveChildren(t.children, vectors, move, g, st);
    if err.Some? {
      return;
    }
    ghost var st1 := MoveForest(t.children, vectors, move, g, st).value;
    if vectors {
      err := ApplyAllOne(t.obj, st1);
      if err.Some? {
        return;
      }
      st1 := ApplyAllStep(t.obj, st1).value;
    }
    if move {
      err := MoveOne(t.obj, None, st1);
    }
  }

  /** The camera's own scrolling on the heap. */
  method CameraMove(t: Tree, ghost st: State) returns (err: Option<PyError>)
    requires Synced(st) && t.obj in st.objs && t.obj.kind.CameraObject?
    requires CameraPart(t, st) != Raise(Unrecorded)
    modifies st.objs.Keys
    ensures Outcome(err, CameraPart(t, st))
  {
    err := TrackOne(t.obj, st);
    if err.Some? {
      return;
    }
    err := ScrollChildren(t, Track(t.obj, st).value);
  }

  /** `update_vector()` if the camera has a target. */
  method TrackOne(o: Obj, ghost st: State) returns (err: Option<PyError>)
    requires Synced(st) && o in st.objs && o.kind.CameraObject?
    requires Track(o, st) != Raise(Unrecorded)
    modifies o
    ensures Outcome(err, Track(o, st))
  {
    assert o.Snapshot() == st.objs[o];
    var target := o.cam.target;
    if target.Some? {
      assert target.value.Snapshot() == st.objs[target.value];
      if !target.value.kind.IsImage() || o.kin.velocity.None? {
        return Some(AttributeError);
      }
      o.UpdateVector();
    }
    err := None;
  }

  /** The scrolling loop of `Camera.move_all`. */
  method ScrollChildren(t: Tree, ghost st: State) returns (err: Option<PyError>)
    requires Synced(st) && t.obj in st.objs && Scroll(t, st) != Raise(Unrecorded)
    modifies st.objs.Keys
    ensures Outcome(err, Scroll(t, st))
  {
    var o := t.obj;
    assert o.Snapshot() == st.objs[o];
    var vel := o.kin.velocity;
    if vel.None? {
      return Some(AttributeError);
    }
    var sorted := SortedChildren(t.children, st.objs);
    if |sorted| == 0 {
      return Some(IndexError);
    }
    SpreadNonNegative(Prioritised(t.children, st.objs));
    var spread := Spread(sorted);
    var target := o.cam.target;
    if target.None? {
      return Some(AttributeError);
    }
    assert target.value.Snapshot() == st.objs[target.value];
    err := ParallaxLoop(sorted, vel.value, target.value.z, spread, st);
  }

  /** `child.move(velocity * d)` for each child in order. */
  method ParallaxLoop(ps: seq<(Tree, real)>, vel: Vector, zt: real, spread: real, ghost st: State)
    returns (err: Option<PyError>)
    requires spread >= 0.0 && Synced(st) && ParallaxAll(ps, vel, zt, spread, st) != Raise(Unrecorded)
    modifies st.objs.Keys
    ensures Outcome(err, ParallaxAll(ps, vel, zt, spread, st))
  {
    ghost var cur := st;
    var i := 0;
    while i < |ps|
      invariant 0 <= i <= |ps|
      invariant Synced(cur) && Kept(st, cur)
      invariant ParallaxAll(ps, vel, zt, spread, st) == ParallaxAll(ps[i..], vel, zt, spread, cur)
    {
      assert ps[i..][0] == ps[i] && ps[i..][1..] == ps[i + 1..];
      var v := Scale(vel, Parallax(ps[i].1, zt, spread));
      err := MoveOne(ps[i].0.obj, Some(v), cur);
      if err.Some? {
        return;
      }
      cur := MoveStep(ps[i].0.obj, Some(v), cur).value;
      i := i + 1;
    }
    err := None;
  }

  /** `World.move_all` on the heap. */
  method World(t: Tree, g: Gens, ghost st: State) returns (err: Option<PyError>)
    requires Synced(st) && t.obj in st.objs && t.obj.kind.WorldObject?
    requires WorldPass(t, g, st) != Raise(Unrecorded)
    modifies st.objs.Keys, st.sigs.Keys
    ensures Outcome(err, WorldPass(t, g, st))
    decreases t, 2
  {
    err := MovingAll(t, true, false, g, st);
    if err.Some? {
      return;
    }
    ghost var st1 := MovingPass(t, true, false, g, st).value;
    var w := t.obj;
    assert w.Snapshot() == st1.objs[w];
    err := EnvLoop(w.reg.envObjects, w.reg.envVectors, g, st1);
    if err.Some? {
      return;
    }
    ghost var st2 := EnvAll(st1.objs[w].reg.envObjects, st1.objs[w].reg.envVectors, g, st1).value;
    assert w.Snapshot() == st2.objs[w];
    var solids := GetSolid(t, Point(w.geo.x, w.geo.y), st2.objs);
    if solids.Raise? {
      return Some(solids.error);
    }
    err := NarrowPhase(solids.value, w, g, st2);
    if err.Some? {
      return;
    }
    err := MovingAll(t, false, true, g, Narrow(solids.value, w, g, st2, []).value.0);
  }

  /** The loop over `env_objects`. */
  method EnvLoop(regs: seq<(string, Obj)>, gens: map<string, FnId>, g: Gens, ghost st: State)
    returns (err: Option<PyError>)
    requires Synced(st) && EnvAll(regs, gens, g, st) != Raise(Unrecorded)
    modifies st.objs.Keys
    ensures Outcome(err, EnvAll(regs, gens, g, st))
  {
    ghost var cur := st;
    var i := 0;
    while i < |regs|
      invariant 0 <= i <= |regs|
      invariant Synced(cur) && Kept(st, cur)
      invariant EnvAll(regs, gens, g, st) == EnvAll(regs[i..], gens, g, cur)
    {
      ghost var next;
      err, next := EnvOne(regs, i, gens, g, cur);
      if err.Some? {
        return;
      }
      cur := next;
      i := i + 1;
    }
    err := None;
  }

  /** One round of the loop over `env_objects`. */
  method EnvOne(regs: seq<(string, Obj)>, i: nat, gens: map<string, FnId>, g: Gens, ghost st: State)
    returns (err: Option<PyError>, ghost next: State)
    requires i < |regs| && Synced(st) && EnvAll(regs[i..], gens, g, st) != Raise(Unrecorded)
    modifies st.objs.Keys
    ensures err.Some? ==> EnvAll(regs[i..], gens, g, st) == Raise(err.value)
    ensures err.None? ==>
      Synced(next) && Kept(st, next) && EnvAll(regs[i..], gens, g, st) == EnvAll(regs[i + 1..], gens, g, next)
  {
    assert regs[i..][0] == regs[i] && regs[i..][1..] == regs[i + 1..];
    next := st;
    var (name, o) := regs[i];
    if name !in gens {
      return Some(KeyError), next;
    }
    assert o.Snapshot() == st.objs[o];
    var v := g.env(gens[name], o.Snapshot());
    if v.Raise? {
      return Some(v.error), next;
    }
    err := ApplyOne(o, v.value, st);
    if err.None? {
      next := ApplyStep(o, v.value, st).value;
    }
  }

  /** `get_solid(obj, pos, list)`: returns the entries it appends. */
  method GetSolid(t: Tree, p: Point, ghost objs: Store) returns (r: Result<seq<(Obj, Point)>>)
    requires ObjsSynced(objs) && SolidTree(t, p, objs) != Raise(Unrecorded)
    ensures r == SolidTree(t, p, objs)
    decreases t, 1
  {
    var o := t.obj;
    if !o.kind.IsMoving() {
      return Raise(AttributeError);
    }
    var q := Offset(o, p, objs);
    var rest := SolidChildren(t.children, q, objs);
    if rest.Raise? {
      return rest;
    }
    assert o.Snapshot() == objs[o];
    r := Ok((if o.kin.solid then [(o, q)] else []) + rest.value);
  }

  /** The absolute position of `o` placed relative to `p`. */
  method Offset(o: Obj, p: Point, ghost objs: Store) returns (q: Point)
    requires ObjsSynced(objs) && o in objs
    ensures q == Shifted(p, objs[o])
  {
    assert o.Snapshot() == objs[o];
    q := Point(p.x + o.geo.x, p.y + o.geo.y);
  }

  /** The loop of `get_solid` over the children. */
  method SolidChildren(cs: seq<Tree>, p: Point, ghost objs: Store) returns (r: Result<seq<(Obj, Point)>>)
    requires ObjsSynced(objs) && SolidForest(cs, p, objs) != Raise(Unrecorded)
    ensures r == SolidForest(cs, p, objs)
    decreases cs, 0
  {
    var found: seq<(Obj, Point)> := [];
    var i := 0;
    assert SolidForest(cs, p, objs) == Prepend(found, SolidForest(cs, p, objs)) by {
      assert SolidForest(cs, p, objs).Ok? ==> [] + SolidForest(cs, p, objs).value == SolidForest(cs, p, objs).value;
    }
    while i < |cs|
      invariant 0 <= i <= |cs|
      invariant SolidForest(cs, p, objs) == Prepend(found, SolidForest(cs[i..], p, objs))
    {
      assert cs[i..][0] == cs[i] && cs[i..][1..] == cs[i + 1..];
      var more := GetSolid(cs[i], p, objs);
      if more.Raise? {
        return Raise(more.error);
      }
      ghost var rest := SolidForest(cs[i + 1..], p, objs);
      assert rest.Ok? ==> found + (more.value + rest.value) == (found + more.value) + rest.value;
      found := found + more.value;
      i := i + 1;
    }
    assert found + [] == found;
    r := Ok(found);
  }

  /** `found` followed by what `r` finds, if it succeeds. */
  function Prepend(found: seq<(Obj, Point)>, r: Result<seq<(Obj, Point)>>): Result<seq<(Obj, Point)>>
  {
    match r
    case Ok(v) => Ok(found + v)
    case Raise(e) => Raise(e)
  }

  /** The position of a solid entry moved by its velocity unless fixed. */
  method Project(o: Obj, p: Point, ghost objs: Store) returns (r: Result<Point>)
    requires ObjsSynced(objs) && Projected(o, p, objs) != Raise(Unrecorded)
    ensures r == Projected(o, p, objs)
  {
    assert o.Snapshot() == objs[o];
    if o.kin.fixed {
      return Ok(p);
    }
    var vel := o.kin.velocity;
    if vel.None? {
      return Raise(AttributeError);
    }
    r := Ok(Point(p.x + vel.value.x, p.y + vel.value.y));
  }

  /** The narrow phase: pops entries until none is left. */
  method NarrowPhase(list0: seq<(Obj, Point)>, w: Obj, g: Gens, ghost st: State) returns (err: Option<PyError>)
    requires Synced(st) && Final(Narrow(list0, w, g, st, [])) != Raise(Unrecorded)
    modifies st.objs.Keys, st.sigs.Keys
    ensures Outcome(err, Final(Narrow(list0, w, g, st, [])))
  {
    var list := list0;
    ghost var cur, done := st, [];
    while |list| > 0
      invariant Synced(cur) && Kept(st, cur)
      invariant Narrow(list0, w, g, st, []) == Narrow(list, w, g, cur, done)
      decreases |list|
    {
      var (o, p) := list[|list| - 1];
      list := list[..|list| - 1];
      var ap := Project(o, p, cur.objs);
      if ap.Raise? {
        return Some(ap.error);
      }
      err := ScanLoop(o, |list|, ap.value, list, w, g, cur, done);
      if err.Some? {
        return;
      }
      cur, done := Scan(o, |list|, ap.value, list, 0, w, g, cur, done).value.0,
                   Scan(o, |list|, ap.value, list, 0, w, g, cur, done).value.1;
    }
    err := None;
  }

  /** The popped entry against each remaining entry in order. */
  method ScanLoop(o: Obj, n: nat, ap: Point, obs: seq<(Obj, Point)>, w: Obj, g: Gens, ghost st: State, ghost done: Tested)
    returns (err: Option<PyError>)
    requires Synced(st) && Final(Scan(o, n, ap, obs, 0, w, g, st, done)) != Raise(Unrecorded)
    modifies st.objs.Keys, st.sigs.Keys
    ensures Outcome(err, Final(Scan(o, n, ap, obs, 0, w, g, st, done)))
  {
    ghost var cur, tested := st, done;
    var i := 0;
    while i < |obs|
      invariant 0 <= i <= |obs|
      invariant Synced(cur) && Kept(st, cur)
      invariant Scan(o, n, ap, obs, 0, w, g, st, done) == Scan(o, n, ap, obs, i, w, g, cur, tested)
    {
      ghost var next;
      err, next := ScanOne(o, n, ap, obs, i, w, g, cur, tested);
      if err.Some? {
        return;
      }
      cur, tested := next, tested + [(n, i)];
      i := i + 1;
    }
    err := None;
  }

  /** One round of the scan: the popped entry against the `i`th obstacle. */
  method ScanOne(o: Obj, n: nat, ap: Point, obs: seq<(Obj, Point)>, i: nat, w: Obj, g: Gens, ghost st: State, ghost done: Tested)
    returns (err: Option<PyError>, ghost next: State)
    requires i < |obs| && Synced(st) && Final(Scan(o, n, ap, obs, i, w, g, st, done)) != Raise(Unrecorded)
    modifies st.objs.Keys, st.sigs.Keys
    ensures err.Some? ==> Scan(o, n, ap, obs, i, w, g, st, done) == Raise(err.value)
    ensures err.None? ==>
      Synced(next) && Kept(st, next) &&
      Scan(o, n, ap, obs, i, w, g, st, done) == Scan(o, n, ap, obs, i + 1, w, g, next, done + [(n, i)])
  {
    next := st;
    var (b, bp) := obs[i];
    var bq := Project(b, bp, st.objs);
    if bq.Raise? {
      return Some(bq.error), next;
    }
    assert o.Snapshot() == st.objs[o] && b.Snapshot() == st.objs[b];
    var hs, bhs := o.kin.hitboxes, b.kin.hitboxes;
    err := HitRowsLoop(o, ap, hs, b, bq.value, bhs, w, g, st);
    if err.None? {
      next := HitRows(o, ap, hs, b, bq.value, bhs, w, g, st).value;
    }
  }

  /** The loop over the popped entry's hitboxes. */
  method HitRowsLoop(o: Obj, ap: Point, hs: seq<Box>, b: Obj, bq: Point, bhs: seq<Box>, w: Obj, g: Gens, ghost st: State)
    returns (err: Option<PyError>)
    requires Synced(st) && HitRows(o, ap, hs, b, bq, bhs, w, g, st) != Raise(Unrecorded)
    modifies st.objs.Keys, st.sigs.Keys
    ensures Outcome(err, HitRows(o, ap, hs, b, bq, bhs, w, g, st))
  {
    ghost var cur := st;
    var i := 0;
    while i < |hs|
      invariant 0 <= i <= |hs|
      invariant Synced(cur) && Kept(st, cur)
      invariant HitRows(o, ap, hs, b, bq, bhs, w, g, st) == HitRows(o, ap, hs[i..], b, bq, bhs, w, g, cur)
    {
      ghost var next;
      err, next := HitRow(o, ap, hs, i, b, bq, bhs, w, g, cur);
      if err.Some? {
        return;
      }
      cur := next;
      i := i + 1;
    }
    err := None;
  }

  /** One round of the loop over the popped entry's hitboxes. */
  method HitRow(o: Obj, ap: Point, hs: seq<Box>, i: nat, b: Obj, bq: Point, bhs: seq<Box>, w: Obj, g: Gens, ghost st: State)
    returns (err: Option<PyError>, ghost next: State)
    requires i < |hs| && Synced(st) && HitRows(o, ap, hs[i..], b, bq, bhs, w, g, st) != Raise(Unrecorded)
    modifies st.objs.Keys, st.sigs.Keys
    ensures err.Some? ==> HitRows(o, ap, hs[i..], b, bq, bhs, w, g, st) == Raise(err.value)
    ensures err.None? ==>
      Synced(next) && Kept(st, next) &&
      HitRows(o, ap, hs[i..], b, bq, bhs, w, g, st) == HitRows(o, ap, hs[i + 1..], b, bq, bhs, w, g, next)
  {
    assert hs[i..][0] == hs[i] && hs[i..][1..] == hs[i + 1..];
    next := st;
    var rect := Place(hs[i], ap);
    err := HitColsLoop(o, rect, b, bq, bhs, w, g, st);
    if err.None? {
      next := HitCols(o, rect, b, bq, bhs, w, g, st).value;
    }
  }

  /** The loop over the obstacle's hitboxes. */
  method HitColsLoop(o: Obj, rect: Rect, b: Obj, bq: Point, bhs: seq<Box>, w: Obj, g: Gens, ghost st: State)
    returns (err: Option<PyError>)
    requires Synced(st) && HitCols(o, rect, b, bq, bhs, w, g, st) != Raise(Unrecorded)
    modifies st.objs.Keys, st.sigs.Keys
    ensures Outcome(err, HitCols(o, rect, b, bq, bhs, w, g, st))
  {
    ghost var cur := st;
    var i := 0;
    while i < |bhs|
      invariant 0 <= i <= |bhs|
      invariant Synced(cur) && Kept(st, cur)
      invariant HitCols(o, rect, b, bq, bhs, w, g, st) == HitCols(o, rect, b, bq, bhs[i..], w, g, cur)
    {
      ghost var next;
      err, next := HitCol(o, rect, b, bq, bhs, i, w, g, cur);
      if err.Some? {
        return;
      }
      cur := next;
      i := i + 1;
    }
    err := None;
  }

  /** One round of the loop over the obstacle's hitboxes: an overlapping
      pair collides. */
  method HitCol(o: Obj, rect: Rect, b: Obj, bq: Point, bhs: seq<Box>, i: nat, w: Obj, g: Gens, ghost st: State)
    returns (err: Option<PyError>, ghost next: State)
    requires i < |bhs| && Synced(st) && HitCols(o, rect, b, bq, bhs[i..], w, g, st) != Raise(Unrecorded)
    modifies st.objs.Keys, st.sigs.Keys
    ensures err.Some? ==> HitCols(o, rect, b, bq, bhs[i..], w, g, st) == Raise(err.value)
    ensures err.None? ==>
      Synced(next) && Kept(st, next) &&
      HitCols(o, rect, b, bq, bhs[i..], w, g, st) == HitCols(o, rect, b, bq, bhs[i + 1..], w, g, next)
  {
    assert bhs[i..][0] == bhs[i] && bhs[i..][1..] == bhs[i + 1..];
    next := st;
    err := None;
    var orect := Place(bhs[i], bq);
    if Overlap(rect, orect) {
      err := CollideOne(o, b, rect, orect, w, g, st);
      if err.None? {
        next := Collide(o, b, rect, orect, w, g, st).value;
      }
    }
  }

  /** `do_collide(obj, obstacle, rect, orect)` on the heap. */
  method CollideOne(o: Obj, b: Obj, rect: Rect, orect: Rect, w: Obj, g: Gens, ghost st: State)
    returns (err: Option<PyError>)
    requires Synced(st) && Collide(o, b, rect, orect, w, g, st) != Raise(Unrecorded)
    modifies st.objs.Keys, st.sigs.Keys
    ensures Outcome(err, Collide(o, b, rect, orect, w, g, st))
  {
    assert w.Snapshot() == st.objs[w];
    var last;
    err, last := CollideLoop(w.reg.collideObjects, w.reg.collideVectors, o, b, rect, orect, g, st);
    if err.Some? {
      return;
    }
    if last.Some? {
      ghost var st1 := CollideAll(st.objs[w].reg.collideObjects, st.objs[w].reg.collideVectors, o, b, rect, orect, g, st, None).value.0;
      err := EmitOne(w, Collision(o, b, last.value), st1);
    }
  }

  /** The loop of `do_collide` over the collision registrations. */
  method CollideLoop(regs: seq<(string, Obj)>, gens: map<string, FnId>, o: Obj, b: Obj,
                     rect: Rect, orect: Rect, g: Gens, ghost st: State)
    returns (err: Option<PyError>, last: Option<Vector>)
    requires Synced(st) && CollideAll(regs, gens, o, b, rect, orect, g, st, None) != Raise(Unrecorded)
    modifies st.objs.Keys
    ensures var r := CollideAll(regs, gens, o, b, rect, orect, g, st, None);
      Outcome(err, if r.Ok? then Ok(r.value.0) else Raise(r.error)) && (r.Ok? ==> last == r.value.1)
  {
    ghost var cur := st;
    last := None;
    var i := 0;
    while i < |regs|
      invariant 0 <= i <= |regs|
      invariant Synced(cur) && Kept(st, cur)
      invariant CollideAll(regs, gens, o, b, rect, orect, g, st, None) ==
                CollideAll(regs[i..], gens, o, b, rect, orect, g, cur, last)
    {
      assert regs[i..][0] == regs[i] && regs[i..][1..] == regs[i + 1..];
      var (name, c) := regs[i];
      if c == o || c == b {
        if name !in gens {
          return Some(KeyError), last;
        }
        var x, y, xr, yr := if c == o then o else b, if c == o then b else o,
                            if c == o then rect else orect, if c == o then orect else rect;
        assert x.Snapshot() == cur.objs[x] && y.Snapshot() == cur.objs[y];
        var v := g.collide(gens[name], x.Snapshot(), y.Snapshot(), xr, yr);
        if v.Raise? {
          return Some(v.error), last;
        }
        err := ApplyOne(x, v.value, cur);
        if err.Some? {
          return;
        }
        cur := ApplyStep(x, v.value, cur).value;
        last := Some(v.value);
      }
      i := i + 1;
    }
    err := None;
  }
}

=== FILE: scene.dfy ===
/** The scene graph of `Object`: a tree of named children, looked up by
    `/`-separated paths, and the recursive passes over it that touch only
    signals and the interface state (`execute_signals`, `update_focus`,
    `update_state`). The children dictionaries are values here: a `Tree`
    holds the object at its root and its children in registration order. */
module Scene {
  import opened Wrappers
  import opened PyNumbers
  import opened Vectors
  import opened Signals
  import opened Objects

  /** An object with its children in registration order. */
  datatype Tree = Node(obj: Obj, children: seq<Tree>)

  // ---------------------------------------------------------------------------
  // Children by name
  // ---------------------------------------------------------------------------

  /** The index of the child registered under `name`. */
  function FindChildIndex(cs: seq<Tree>, name: string): (r: Option<nat>)
    ensures r.Some? <==> exists i :: 0 <= i < |cs| && cs[i].obj.name == name
    ensures r.Some? ==> r.value < |cs| && cs[r.value].obj.name == name
    ensures r.Some? ==> forall i :: 0 <= i < r.value ==> cs[i].obj.name != name
  {
    if cs == [] then None
    else if cs[0].obj.name == name then Some(0)
    else match FindChildIndex(cs[1..], name)
      case None => None
      case Some(i) => Some(i + 1)
  }

  /** `objects[name]`, `None` standing for the `KeyError`. */
  function FindChild(cs: seq<Tree>, name: string): (r: Option<Tree>)
    ensures r.Some? <==> exists i :: 0 <= i < |cs| && cs[i].obj.name == name
    ensures r.Some? ==> r.value in cs && r.value.obj.name == name
  {
    match FindChildIndex(cs, name)
    case None => None
    case Some(i) => Some(cs[i])
  }

  /** No two children share a name, as in a dictionary. */
  predicate UniqueNames(cs: seq<Tree>)
  {
    forall i, j :: 0 <= i < j < |cs| ==> cs[i].obj.name != cs[j].obj.name
  }

  /** `add_child(obj)`: an object whose name is taken is not added. */
  function AddChild(t: Tree, c: Tree): (r: Tree)
    ensures r.obj == t.obj
  {
    if FindChild(t.children, c.obj.name).Some? then t
    else t.(children := t.children + [c])
  }

  /** `add_child` never replaces a child, keeps the names unique, and makes
      the name resolve to the child registered first under it. */
  lemma AddChildFirstWins(t: Tree, c: Tree)
    requires UniqueNames(t.children)
    ensures UniqueNames(AddChild(t, c).children)
    ensures t.children <= AddChild(t, c).children
    ensures FindChild(AddChild(t, c).children, c.obj.name) ==
      if FindChild(t.children, c.obj.name).Some? then FindChild(t.children, c.obj.name) else Some(c)
    ensures forall n :: n != c.obj.name ==> FindChild(AddChild(t, c).children, n) == FindChild(t.children, n)
  {
    var cs := t.children;
    var r := AddChild(t, c);
    if FindChild(cs, c.obj.name).None? {
      assert r.children == cs + [c];
      forall i, j | 0 <= i < j < |cs| + 1
        ensures (cs + [c])[i].obj.name != (cs + [c])[j].obj.name
      {
        if j == |cs| {
          assert (cs + [c])[i] == cs[i];
        }
      }
      forall n
        ensures FindChild(cs + [c], n) == if FindChild(cs, n).Some? then FindChild(cs, n) else if n == c.obj.name then Some(c) else None
      {
        AppendIndex(cs, c, n);
        match FindChildIndex(cs, n)
        case Some(i) => assert (cs + [c])[i] == cs[i];
        case None => assert (cs + [c])[|cs|] == c;
      }
    }
  }

  lemma {:induction false} AppendIndex(cs: seq<Tree>, c: Tree, n: string)
    ensures FindChildIndex(cs + [c], n) ==
      if FindChildIndex(cs, n).Some? then FindChildIndex(cs, n)
      else if c.obj.name == n then Some(|cs|) else None
  {
    if cs != [] {
      assert (cs + [c])[1..] == cs[1..] + [c];
      AppendIndex(cs[1..], c, n);
    }
  }

  // ---------------------------------------------------------------------------
  // Paths
  // ---------------------------------------------------------------------------

  /** `path.partition("/")`, without the separator: the text before the
      first `/`, and the text after it (empty when there is none). */
  function Partition(p: string): (r: (string, string))
    ensures '/' !in r.0
    ensures '/' in p ==> p == r.0 + "/" + r.1
    ensures '/' !in p ==> r.0 == p && r.1 == ""
  {
    if p == [] then ("", "")
    else if p[0] == '/' then ("", p[1..])
    else
      var (n, rest) := Partition(p[1..]);
      assert p == [p[0]] + p[1..];
      ([p[0]] + n, rest)
  }

  /** `get_child(path)`: one path segment at a time; `None` at the first
      missing name. A trailing `/` is ignored, as the rest is then empty. */
  function GetChild(t: Tree, path: string): (r: Option<Tree>)
    ensures FindChild(t.children, Partition(path).0).None? ==> r.None?
    ensures Partition(path).1 == "" ==> r == FindChild(t.children, Partition(path).0)
    decreases |path|
  {
    var (name, rest) := Partition(path);
    match FindChild(t.children, name)
    case None => None
    case Some(c) => if rest != "" then GetChild(c, rest) else Some(c)
  }

  /** `segs` joined by `/`. */
  function Join(segs: seq<string>): string
    requires |segs| >= 1
  {
    if |segs| == 1 then segs[0] else segs[0] + "/" + Join(segs[1..])
  }

  /** Following `segs` one name at a time. */
  function Walk(t: Tree, segs: seq<string>): Option<Tree>
    requires |segs| >= 1
    decreases |segs|
  {
    match FindChild(t.children, segs[0])
    case None => None
    case Some(c) => if |segs| == 1 then Some(c) else Walk(c, segs[1..])
  }

  /** A path of non-empty names without `/` resolves as the walk along those
      names, stopping at the first one missing. */
  lemma {:induction false} GetChildWalks(t: Tree, segs: seq<string>)
    requires |segs| >= 1
    requires forall i :: 0 <= i < |segs| ==> segs[i] != "" && '/' !in segs[i]
    ensures GetChild(t, Join(segs)) == Walk(t, segs)
    decreases |segs|
  {
    var p := Join(segs);
    if |segs| == 1 {
      assert Partition(p) == (segs[0], "");
    } else {
      var rest := Join(segs[1..]);
      assert p == segs[0] + "/" + rest;
      assert '/' in p by { assert p[|segs[0]|] == '/'; }
      var (n, r) := Partition(p);
      SplitAtFirstSlash(segs[0], rest, n, r);
      assert rest != "" by { assert |Join(segs[1..])| >= |segs[1]|; JoinLength(segs[1..]); }
      match FindChild(t.children, segs[0])
      case None =>
      case Some(c) => GetChildWalks(c, segs[1..]);
    }
  }

  lemma {:induction false} JoinLength(segs: seq<string>)
    requires |segs| >= 1
    ensures |Join(segs)| >= |segs[0]|
  {
  }

  /** Splitting `a + "/" + b` at its first slash gives back `a` and `b`
      when `a` has no slash. */
  lemma SplitAtFirstSlash(a: string, b: string, n: string, r: string)
    requires '/' !in a && '/' !in n
    requires a + "/" + b == n + "/" + r
    ensures n == a && r == b
  {
    FirstSlash(a, b);
    FirstSlash(n, r);
    assert |n| == |a|;
    assert n == (n + "/" + r)[..|n|] == (a + "/" + b)[..|a|] == a;
    assert r == (n + "/" + r)[|n| + 1..] == (a + "/" + b)[|a| + 1..] == b;
  }

  /** The first slash of `a + "/" + b` is the one after `a` when `a` has
      none. */
  lemma FirstSlash(a: string, b: string)
    requires '/' !in a
    ensures (a + "/" + b)[|a|] == '/'
    ensures forall i :: 0 <= i < |a| ==> (a + "/" + b)[i] != '/'
  {
    forall i | 0 <= i < |a|
      ensures (a + "/" + b)[i] != '/'
    {
      assert (a + "/" + b)[i] == a[i];
    }
  }

  /** A missing first name makes the whole path miss, whatever follows. */
  lemma GetChildMissStops(t: Tree, name: string, rest: string)
    requires '/' !in name && FindChild(t.children, name).None?
    ensures GetChild(t, name + "/" + rest) == None
  {
    var p := name + "/" + rest;
    assert p[|name|] == '/';
    var (n, r) := Partition(p);
    SplitAtFirstSlash(name, rest, n, r);
  }

  // ---------------------------------------------------------------------------
  // Children by priority
  // ---------------------------------------------------------------------------

  /** The objects' and signals' states as recorded alongside the heap: the
      passes below keep a ghost `State` equal to the heap and are specified by
      functions on it, which follow the Python statements one at a time, so an
      object reached twice is updated twice. */
  type Store = map<Obj, Attrs>
  type SigStore = map<Signal, SignalState>
  datatype State = State(objs: Store, sigs: SigStore)

  ghost predicate Synced(st: State)
    reads st.objs.Keys, st.sigs.Keys
  {
    ObjsSynced(st.objs) && SigsSynced(st.sigs)
  }

  ghost predicate ObjsSynced(S: Store)
    reads S.Keys
  {
    forall o :: o in S ==> o.Snapshot() == S[o]
  }

  ghost predicate SigsSynced(G: SigStore)
    reads G.Keys
  {
    forall s :: s in G ==> s.State() == G[s]
  }

  predicate Known(cs: seq<Tree>, S: Store)
  {
    forall i :: 0 <= i < |cs| ==> cs[i].obj in S
  }

  /** The children paired with their priorities `z`. */
  function Prioritised(cs: seq<Tree>, S: Store): (r: seq<(Tree, real)>)
    requires Known(cs, S)
    ensures |r| == |cs|
    ensures forall i :: 0 <= i < |cs| ==> r[i] == (cs[i], S[cs[i].obj].z)
  {
    seq(|cs|, i requires 0 <= i < |cs| => (cs[i], S[cs[i].obj].z))
  }

  predicate SortedByZ(ps: seq<(Tree, real)>)
  {
    forall i, j :: 0 <= i < j < |ps| ==> ps[i].1 <= ps[j].1
  }

  /** Puts `p` after every element whose priority is not above its own. */
  function InsertByZ(p: (Tree, real), ps: seq<(Tree, real)>): (r: seq<(Tree, real)>)
    ensures |r| == |ps| + 1
    ensures multiset(r) == multiset(ps) + multiset{p}
  {
    if ps == [] then [p]
    else
      var last := ps[|ps| - 1];
      assert ps == ps[..|ps| - 1] + [last];
      if last.1 <= p.1 then ps + [p]
      else InsertByZ(p, ps[..|ps| - 1]) + [last]
  }

  /** `sorted(..., key=attrgetter("z"))`: ordered by priority. */
  function SortByZ(ps: seq<(Tree, real)>): (r: seq<(Tree, real)>)
    ensures |r| == |ps|
    ensures multiset(r) == multiset(ps)
  {
    if ps == [] then []
    else
      assert ps == ps[..|ps| - 1] + [ps[|ps| - 1]];
      InsertByZ(ps[|ps| - 1], SortByZ(ps[..|ps| - 1]))
  }

  lemma {:induction false} InsertKeepsSorted(p: (Tree, real), ps: seq<(Tree, real)>)
    requires SortedByZ(ps)
    ensures SortedByZ(InsertByZ(p, ps))
  {
    if ps != [] {
      var front := ps[..|ps| - 1];
      var last := ps[|ps| - 1];
      if last.1 > p.1 {
        InsertKeepsSorted(p, front);
        InsertBounded(p, front, last.1);
        var r := InsertByZ(p, front);
        assert InsertByZ(p, ps) == r + [last];
      }
    }
  }

  /** Inserting below a bound keeps every element below it. */
  lemma InsertBounded(p: (Tree, real), ps: seq<(Tree, real)>, b: real)
    requires p.1 <= b
    requires forall i :: 0 <= i < |ps| ==> ps[i].1 <= b
    ensures forall k :: 0 <= k < |ps| + 1 ==> InsertByZ(p, ps)[k].1 <= b
  {
    var r := InsertByZ(p, ps);
    forall k | 0 <= k < |r|
      ensures r[k].1 <= b
    {
      assert r[k] in multiset(ps) + multiset{p};
      if r[k] != p {
        assert r[k] in ps;
      }
    }
  }

  /** The sorted entries are in non-decreasing priority and are exactly the
      entries given. */
  lemma {:induction false} SortByZSorted(ps: seq<(Tree, real)>)
    ensures SortedByZ(SortByZ(ps))
    ensures multiset(SortByZ(ps)) == multiset(ps)
  {
    if ps != [] {
      SortByZSorted(ps[..|ps| - 1]);
      InsertKeepsSorted(ps[|ps| - 1], SortByZ(ps[..|ps| - 1]));
    }
  }

  /** The first and last sorted entries hold the least and the greatest
      priority of all. */
  lemma SortedEnds(ps: seq<(Tree, real)>)
    requires ps != []
    ensures var s := SortByZ(ps);
      forall i :: 0 <= i < |ps| ==> s[0].1 <= ps[i].1 <= s[|s| - 1].1
  {
    SortByZSorted(ps);
    var s := SortByZ(ps);
    forall i | 0 <= i < |ps|
      ensures s[0].1 <= ps[i].1 <= s[|s| - 1].1
    {
      assert ps[i] in multiset(s);
      var k :| 0 <= k < |s| && s[k] == ps[i];
    }
  }

  /** `get_sorted_children()` on the heap: the children with their current
      priorities, sorted by priority. */
  method SortedChildren(cs: seq<Tree>, ghost objs: Store) returns (sorted: seq<(Tree, real)>)
    requires ObjsSynced(objs) && Known(cs, objs)
    ensures sorted == SortByZ(Prioritised(cs, objs))
  {
    var ps: seq<(Tree, real)> := [];
    var i := 0;
    while i < |cs|
      invariant 0 <= i <= |cs| && |ps| == i
      invariant forall k :: 0 <= k < i ==> ps[k] == (cs[k], objs[cs[k].obj].z)
    {
      assert cs[i].obj.Snapshot() == objs[cs[i].obj];
      ps := ps + [(cs[i], cs[i].obj.z)];
      i := i + 1;
    }
    assert ps == Prioritised(cs, objs);
    sorted := SortByZ(ps);
  }

  // ---------------------------------------------------------------------------
  // execute_signals
  // ---------------------------------------------------------------------------

  /** Every object of `t` and every signal they own is recorded in `st`. */
  predicate Recorded(t: Tree, objs: Store, keys: set<Signal>)
    decreases t
  {
    t.obj in objs && SignalsIn(objs[t.obj].signals, keys) &&
    forall i :: 0 <= i < |t.children| ==> Recorded(t.children[i], objs, keys)
  }

  predicate SignalsIn(ss: seq<Signal>, keys: set<Signal>)
  {
    forall k :: 0 <= k < |ss| ==> ss[k] in keys
  }

  /** `signal.execute(owner)` for each of `ss` in order: the calls made and
      the signals' states afterwards. */
  function ExecAll(ss: seq<Signal>, owner: Obj, sigs: SigStore): (r: (seq<Call>, SigStore))
    requires SignalsIn(ss, sigs.Keys)
    ensures r.1.Keys == sigs.Keys
  {
    if ss == [] then ([], sigs)
    else
      var (calls, out) := ExecAll(ss[..|ss| - 1], owner, sigs);
      var s := ss[|ss| - 1];
      (calls + Executed(out[s], owner), out[s := AfterExecute(out[s])])
  }

  /** `execute_signals()`: the children's subtrees first, in order, then the
      node's own signals. */
  function ExecTree(t: Tree, objs: Store, sigs: SigStore): (r: (seq<Call>, SigStore))
    requires Recorded(t, objs, sigs.Keys)
    ensures r.1.Keys == sigs.Keys
    decreases t, 1
  {
    var (c1, sigs1) := ExecForest(t.children, objs, sigs);
    var (c2, sigs2) := ExecAll(objs[t.obj].signals, t.obj, sigs1);
    (c1 + c2, sigs2)
  }

  function ExecForest(cs: seq<Tree>, objs: Store, sigs: SigStore): (r: (seq<Call>, SigStore))
    requires forall i :: 0 <= i < |cs| ==> Recorded(cs[i], objs, sigs.Keys)
    ensures r.1.Keys == sigs.Keys
    decreases cs, 0
  {
    if cs == [] then ([], sigs)
    else
      var (c1, sigs1) := ExecForest(cs[..|cs| - 1], objs, sigs);
      var (c2, sigs2) := ExecTree(cs[|cs| - 1], objs, sigs1);
      (c1 + c2, sigs2)
  }

  /** One more signal executed, or one more subtree, extends the run. */
  lemma ExecAllSnoc(ss: seq<Signal>, i: nat, owner: Obj, sigs: SigStore)
    requires i < |ss| && SignalsIn(ss, sigs.Keys)
    ensures var (calls, out) := ExecAll(ss[..i], owner, sigs);
      ExecAll(ss[..i + 1], owner, sigs) == (calls + Executed(out[ss[i]], owner), out[ss[i] := AfterExecute(out[ss[i]])])
  {
    assert ss[..i + 1][..i] == ss[..i];
  }

  lemma ExecForestSnoc(cs: seq<Tree>, i: nat, objs: Store, sigs: SigStore)
    requires i < |cs| && forall j :: 0 <= j < |cs| ==> Recorded(cs[j], objs, sigs.Keys)
    ensures var (calls, out) := ExecForest(cs[..i], objs, sigs);
      ExecForest(cs[..i + 1], objs, sigs) == (calls + ExecTree(cs[i], objs, out).0, ExecTree(cs[i], objs, out).1)
  {
    assert cs[..i + 1][..i] == cs[..i];
  }

  /** `out` differs from `sigs` only by signals having been executed. */
  predicate OnlyReset(sigs: SigStore, out: SigStore)
  {
    out.Keys == sigs.Keys &&
    forall s :: s in sigs ==> out[s] == sigs[s] || out[s] == AfterExecute(sigs[s])
  }

  /** Every signal of every object of `t` is inactive. */
  predicate Quiet(t: Tree, objs: Store, sigs: SigStore)
    requires Recorded(t, objs, sigs.Keys)
    decreases t
  {
    QuietSignals(objs[t.obj].signals, sigs) &&
    forall i :: 0 <= i < |t.children| ==> Quiet(t.children[i], objs, sigs)
  }

  predicate QuietSignals(ss: seq<Signal>, sigs: SigStore)
    requires SignalsIn(ss, sigs.Keys)
  {
    forall k :: 0 <= k < |ss| ==> !sigs[ss[k]].activated
  }

  lemma OnlyResetTrans(a: SigStore, b: SigStore, c: SigStore)
    requires OnlyReset(a, b) && OnlyReset(b, c)
    ensures OnlyReset(a, c)
  {
  }

  /** Executing signals never wakes one up. */
  lemma {:induction false} QuietStays(t: Tree, objs: Store, a: SigStore, b: SigStore)
    requires Recorded(t, objs, a.Keys) && OnlyReset(a, b) && Quiet(t, objs, a)
    ensures Recorded(t, objs, b.Keys) && Quiet(t, objs, b)
    decreases t
  {
    forall i | 0 <= i < |t.children|
      ensures Recorded(t.children[i], objs, b.Keys) && Quiet(t.children[i], objs, b)
    {
      QuietStays(t.children[i], objs, a, b);
    }
  }

  /** `ExecAll` only resets signals, leaves each of `ss` inactive, and on
      inactive signals makes no call. */
  lemma {:induction false} ExecAllResets(ss: seq<Signal>, o: Obj, sigs: SigStore)
    requires SignalsIn(ss, sigs.Keys)
    ensures OnlyReset(sigs, ExecAll(ss, o, sigs).1)
    ensures QuietSignals(ss, ExecAll(ss, o, sigs).1)
    ensures QuietSignals(ss, sigs) ==> ExecAll(ss, o, sigs) == ([], sigs)
  {
    if ss != [] {
      var front := ss[..|ss| - 1];
      var s := ss[|ss| - 1];
      ExecAllResets(front, o, sigs);
      var (calls, out) := ExecAll(front, o, sigs);
      var last := out[s := AfterExecute(out[s])];
      assert OnlyReset(out, last);
      OnlyResetTrans(sigs, out, last);
      forall k | 0 <= k < |ss|
        ensures !last[ss[k]].activated
      {
        if k < |ss| - 1 {
          assert ss[k] == front[k];
        }
      }
      if QuietSignals(ss, sigs) {
        assert QuietSignals(front, sigs) by {
          forall k | 0 <= k < |front| ensures !sigs[front[k]].activated { assert front[k] == ss[k]; }
        }
        assert !sigs[s].activated;
        assert out == sigs && calls == [];
        assert AfterExecute(sigs[s]) == sigs[s] && Executed(sigs[s], o) == [];
        assert last == sigs;
        assert ExecAll(ss, o, sigs) == (calls + Executed(out[s], o), last);
        assert calls + Executed(out[s], o) == [];
      }
    }
  }

  /** `execute_signals()` only resets signals, leaves every signal of the
      subtree inactive, and on such a subtree makes no call. */
  lemma {:induction false} ExecTreeResets(t: Tree, objs: Store, sigs: SigStore)
    requires Recorded(t, objs, sigs.Keys)
    ensures OnlyReset(sigs, ExecTree(t, objs, sigs).1)
    ensures Quiet(t, objs, ExecTree(t, objs, sigs).1)
    ensures Quiet(t, objs, sigs) ==> ExecTree(t, objs, sigs) == ([], sigs)
    decreases t, 1
  {
    var (c1, sigs1) := ExecForest(t.children, objs, sigs);
    ExecForestResets(t.children, objs, sigs);
    var ss := objs[t.obj].signals;
    ExecAllResets(ss, t.obj, sigs1);
    var out := ExecAll(ss, t.obj, sigs1).1;
    OnlyResetTrans(sigs, sigs1, out);
    forall i | 0 <= i < |t.children|
      ensures Quiet(t.children[i], objs, out)
    {
      QuietStays(t.children[i], objs, sigs1, out);
    }
    if Quiet(t, objs, sigs) {
      assert c1 == [] && sigs1 == sigs;
      assert QuietSignals(ss, sigs);
      assert ExecAll(ss, t.obj, sigs1) == ([], sigs);
      assert ExecTree(t, objs, sigs) == (c1 + [], sigs);
      assert c1 + [] == [];
    }
  }

  lemma {:induction false} ExecForestResets(cs: seq<Tree>, objs: Store, sigs: SigStore)
    requires forall i :: 0 <= i < |cs| ==> Recorded(cs[i], objs, sigs.Keys)
    ensures OnlyReset(sigs, ExecForest(cs, objs, sigs).1)
    ensures forall i :: 0 <= i < |cs| ==> Quiet(cs[i], objs, ExecForest(cs, objs, sigs).1)
    ensures (forall i :: 0 <= i < |cs| ==> Quiet(cs[i], objs, sigs)) ==> ExecForest(cs, objs, sigs) == ([], sigs)
    decreases cs, 0
  {
    if cs != [] {
      var front := cs[..|cs| - 1];
      var last := cs[|cs| - 1];
      ExecForestResets(front, objs, sigs);
      var (c1, sigs1) := ExecForest(front, objs, sigs);
      ExecTreeResets(last, objs, sigs1);
      var out := ExecTree(last, objs, sigs1).1;
      OnlyResetTrans(sigs, sigs1, out);
      forall i | 0 <= i < |cs|
        ensures Quiet(cs[i], objs, out)
      {
        if i < |cs| - 1 {
          assert cs[i] == front[i];
          QuietStays(cs[i], objs, sigs1, out);
        }
      }
      if forall i :: 0 <= i < |cs| ==> Quiet(cs[i], objs, sigs) {
        assert forall i :: 0 <= i < |front| ==> Quiet(front[i], objs, sigs) by {
          forall i | 0 <= i < |front| ensures Quiet(front[i], objs, sigs) { assert front[i] == cs[i]; }
        }
        assert Quiet(last, objs, sigs);
      }
    }
  }

  /** A second `execute_signals()` right after the first makes no call and
      changes nothing. */
  lemma ExecuteSignalsTwice(t: Tree, objs: Store, sigs: SigStore)
    requires Recorded(t, objs, sigs.Keys)
    ensures var out := ExecTree(t, objs, sigs).1;
      Recorded(t, objs, out.Keys) && ExecTree(t, objs, out) == ([], out)
  {
    var out := ExecTree(t, objs, sigs).1;
    ExecTreeResets(t, objs, sigs);
    ExecTreeResets(t, objs, out);
  }

  /** `execute_signals()` on the heap. */
  method ExecuteSignals(t: Tree, ghost objs: Store, ghost sigs: SigStore) returns (calls: seq<Call>)
    requires ObjsSynced(objs) && SigsSynced(sigs) && Recorded(t, objs, sigs.Keys)
    modifies sigs.Keys
    ensures calls == ExecTree(t, objs, sigs).0
    ensures SigsSynced(ExecTree(t, objs, sigs).1)
    decreases t
  {
    calls := [];
    ghost var cur := sigs;
    var i := 0;
    while i < |t.children|
      invariant 0 <= i <= |t.children|
      invariant SigsSynced(cur) && cur.Keys == sigs.Keys
      invariant (calls, cur) == ExecForest(t.children[..i], objs, sigs)
    {
      ExecForestSnoc(t.children, i, objs, sigs);
      var more := ExecuteSignals(t.children[i], objs, cur);
      calls := calls + more;
      cur := ExecTree(t.children[i], objs, cur).1;
      i := i + 1;
    }
    assert t.children[..i] == t.children;
    var own := ExecuteOwn(t.obj, objs, cur);
    calls := calls + own;
  }

  /** The second loop of `execute_signals()`: the node's own signals. */
  method ExecuteOwn(o: Obj, ghost objs: Store, ghost sigs: SigStore) returns (calls: seq<Call>)
    requires ObjsSynced(objs) && SigsSynced(sigs) && o in objs
    requires SignalsIn(objs[o].signals, sigs.Keys)
    modifies sigs.Keys
    ensures calls == ExecAll(objs[o].signals, o, sigs).0
    ensures SigsSynced(ExecAll(objs[o].signals, o, sigs).1)
  {
    var ss := o.signals;
    assert ss == objs[o].signals;
    calls := [];
    ghost var cur := sigs;
    var i := 0;
    while i < |ss|
      invariant 0 <= i <= |ss|
      invariant SigsSynced(cur) && cur.Keys == sigs.Keys
      invariant (calls, cur) == ExecAll(ss[..i], o, sigs)
    {
      ExecAllSnoc(ss, i, o, sigs);
      var more := ExecuteOne(ss[i], o, cur);
      calls := calls + more;
      cur := cur[ss[i] := AfterExecute(cur[ss[i]])];
      i := i + 1;
    }
    assert ss[..i] == ss;
  }

  /** `signal.execute(owner)` with the record kept in step. */
  method ExecuteOne(s: Signal, owner: Obj, ghost cur: SigStore) returns (calls: seq<Call>)
    requires SigsSynced(cur) && s in cur
    modifies s
    ensures calls == Executed(cur[s], owner)
    ensures SigsSynced(cur[s := AfterExecute(cur[s])])
  {
    calls := s.Execute(owner);
  }

  // ---------------------------------------------------------------------------
  // update_focus
  // ---------------------------------------------------------------------------

  /** Every object of `t` is among `keys`. */
  predicate Stored(t: Tree, keys: set<Obj>)
    decreases t
  {
    t.obj in keys && forall i :: 0 <= i < |t.children| ==> Stored(t.children[i], keys)
  }

  /** A mouse position. */
  datatype Point = Point(x: real, y: real)

  /** The mouse position relative to the object recorded as `a`. */
  function Relative(m: Point, a: Attrs): (r: Point)
    ensures r.x + a.geo.x == m.x && r.y + a.geo.y == m.y
  {
    Point(m.x - a.geo.x, m.y - a.geo.y)
  }

  /** `check_focus(mouse)` on a recorded state. */
  function Focused(a: Attrs, m: Point): Attrs
  {
    a.(look := a.look.(focused := Hovered(a, m.x, m.y)))
  }

  /** `update_focus(mouse)`: a displayed image checks its own focus, then its
      children with the mouse made relative to it; a hidden image stops the
      descent; a plain object passes the mouse on unchanged. */
  function FocusTree(t: Tree, m: Point, objs: Store): (r: Store)
    requires Stored(t, objs.Keys)
    ensures r.Keys == objs.Keys
    decreases t, 1
  {
    var a := objs[t.obj];
    if !a.kind.IsImage() then FocusForest(t.children, m, objs)
    else if !a.look.display then objs
    else
      var next := objs[t.obj := Focused(a, m)];
      assert next.Keys == objs.Keys;
      FocusForest(t.children, Relative(m, a), next)
  }

  function FocusForest(cs: seq<Tree>, m: Point, objs: Store): (r: Store)
    requires forall i :: 0 <= i < |cs| ==> Stored(cs[i], objs.Keys)
    ensures r.Keys == objs.Keys
    decreases cs, 0
  {
    if cs == [] then objs
    else FocusTree(cs[|cs| - 1], m, FocusForest(cs[..|cs| - 1], m, objs))
  }

  lemma FocusForestSnoc(cs: seq<Tree>, i: nat, m: Point, objs: Store)
    requires i < |cs| && forall j :: 0 <= j < |cs| ==> Stored(cs[j], objs.Keys)
    ensures FocusForest(cs[..i + 1], m, objs) == FocusTree(cs[i], m, FocusForest(cs[..i], m, objs))
  {
    assert cs[..i + 1][..i] == cs[..i];
  }

  /** `update_focus(mouse)` on the heap. */
  method UpdateFocus(t: Tree, m: Point, ghost objs: Store)
    requires ObjsSynced(objs) && Stored(t, objs.Keys)
    modifies objs.Keys
    ensures ObjsSynced(FocusTree(t, m, objs))
    decreases t, 1
  {
    var o := t.obj;
    var image, shown := Inspect(o, objs);
    if !image {
      FocusChildren(t.children, m, objs);
    } else if shown {
      var rel := Offset(o, m, objs);
      FocusOne(o, m, objs);
      ghost var next := objs[o := Focused(objs[o], m)];
      assert next.Keys == objs.Keys;
      FocusChildren(t.children, rel, next);
    }
  }

  /** The loop of `update_focus` over the children. */
  method FocusChildren(cs: seq<Tree>, m: Point, ghost objs: Store)
    requires ObjsSynced(objs) && forall i :: 0 <= i < |cs| ==> Stored(cs[i], objs.Keys)
    modifies objs.Keys
    ensures ObjsSynced(FocusForest(cs, m, objs))
    decreases cs, 0
  {
    ghost var cur := objs;
    var i := 0;
    while i < |cs|
      invariant 0 <= i <= |cs|
      invariant ObjsSynced(cur) && cur.Keys == objs.Keys
      invariant cur == FocusForest(cs[..i], m, objs)
    {
      FocusForestSnoc(cs, i, m, objs);
      UpdateFocus(cs[i], m, cur);
      cur := FocusTree(cs[i], m, cur);
      i := i + 1;
    }
    assert cs[..i] == cs;
  }

  /** Whether `o` is an image and whether it is displayed: what the
      recursive passes branch on. */
  method Inspect(o: Obj, ghost objs: Store) returns (image: bool, shown: bool)
    requires ObjsSynced(objs) && o in objs
    ensures image == objs[o].kind.IsImage() && shown == objs[o].look.display
  {
    assert o.Snapshot() == objs[o];
    image, shown := o.kind.IsImage(), o.look.display;
  }

  /** The mouse made relative to `o`. */
  method Offset(o: Obj, m: Point, ghost objs: Store) returns (rel: Point)
    requires ObjsSynced(objs) && o in objs
    ensures rel == Relative(m, objs[o])
  {
    assert o.Snapshot() == objs[o];
    rel := Point(m.x - o.geo.x, m.y - o.geo.y);
  }

  /** `check_focus(mouse)` with the record kept in step. */
  method FocusOne(o: Obj, m: Point, ghost cur: Store)
    requires ObjsSynced(cur) && o in cur && o.kind.IsImage()
    modifies o
    ensures ObjsSynced(cur[o := Focused(cur[o], m)])
  {
    o.CheckFocus(m.x, m.y);
  }

  lemma FocusedUnfocused(a: Attrs, b: Attrs, m: Point)
    requires Unfocused(a) == Unfocused(b)
    ensures Unfocused(Focused(a, m)) == Unfocused(a)
    ensures Focused(a, m) == Focused(b, m)
  {
  }

  /** A state with its focus flag cleared. */
  function Unfocused(a: Attrs): Attrs
  {
    a.(look := a.look.(focused := false))
  }

  /** `x` and `y` record the same objects, equal but for their focus flags. */
  predicate SameButFocus(x: Store, y: Store)
  {
    x.Keys == y.Keys && forall o :: o in x ==> Unfocused(x[o]) == Unfocused(y[o])
  }

  /** `update_focus` changes nothing but focus flags. */
  lemma {:induction false} FocusOnlyFocus(t: Tree, m: Point, objs: Store)
    requires Stored(t, objs.Keys)
    ensures SameButFocus(objs, FocusTree(t, m, objs))
    decreases t, 1
  {
    var a := objs[t.obj];
    if !a.kind.IsImage() {
      FocusForestOnlyFocus(t.children, m, objs);
    } else if a.look.display {
      var next := objs[t.obj := Focused(a, m)];
      FocusedUnfocused(a, a, m);
      assert SameButFocus(objs, next);
      FocusForestOnlyFocus(t.children, Relative(m, a), next);
    }
  }

  lemma {:induction false} FocusForestOnlyFocus(cs: seq<Tree>, m: Point, objs: Store)
    requires forall i :: 0 <= i < |cs| ==> Stored(cs[i], objs.Keys)
    ensures SameButFocus(objs, FocusForest(cs, m, objs))
    decreases cs, 0
  {
    if cs != [] {
      FocusForestOnlyFocus(cs[..|cs| - 1], m, objs);
      var mid := FocusForest(cs[..|cs| - 1], m, objs);
      FocusOnlyFocus(cs[|cs| - 1], m, mid);
    }
  }

  // update_state
  // ---------------------------------------------------------------------------

  /** Every signal of every recorded object is recorded. */
  ghost predicate Wired(st: State)
  {
    forall o :: o in st.objs ==> SignalsIn(st.objs[o].signals, st.sigs.Keys)
  }

  /** The part of `update_state` a displayed image does for itself: its new
      state, and the `click` it emits (a `None` response: only the flag is
      raised). */
  function OwnState(st: State, o: Obj, clicked: bool): (r: State)
    requires o in st.objs
    ensures r.objs.Keys == st.objs.Keys && r.sigs.Keys == st.sigs.Keys
  {
    var a := st.objs[o];
    var objs := st.objs[o := WithState(a, NextUiState(a.look.state, a.look.focused, clicked).0)];
    assert objs.Keys == st.objs.Keys;
    State(objs, Clicks(a, clicked, st.sigs))
  }

  /** The signals after `a` has emitted `click`, if it does. Every signal
      of an object is recorded (`Wired`), so the last test only keeps the
      function total. */
  function Clicks(a: Attrs, clicked: bool, sigs: SigStore): (r: SigStore)
    ensures r.Keys == sigs.Keys
  {
    var found := FindSignal(a.signals, "click");
    if NextUiState(a.look.state, a.look.focused, clicked).1 && found.Some? && found.value in sigs then
      var sig := found.value;
      var r := sigs[sig := Activated(sigs[sig], true, NoneValue)];
      assert r.Keys == sigs.Keys;
      r
    else
      sigs
  }

  /** `update_state(mouse_but)` with `clicked` the value of
      `max(*mouse_but)`: a displayed image updates itself, then its
      children; a hidden image stops the descent; a plain object passes the
      buttons on. */
  function StateTree(t: Tree, clicked: bool, st: State): (r: State)
    requires Stored(t, st.objs.Keys)
    ensures r.objs.Keys == st.objs.Keys && r.sigs.Keys == st.sigs.Keys
    decreases t, 1
  {
    var a := st.objs[t.obj];
    if !a.kind.IsImage() then StateForest(t.children, clicked, st)
    else if !a.look.display then st
    else StateForest(t.children, clicked, OwnState(st, t.obj, clicked))
  }

  function StateForest(cs: seq<Tree>, clicked: bool, st: State): (r: State)
    requires forall i :: 0 <= i < |cs| ==> Stored(cs[i], st.objs.Keys)
    ensures r.objs.Keys == st.objs.Keys && r.sigs.Keys == st.sigs.Keys
    decreases cs, 0
  {
    if cs == [] then st
    else StateTree(cs[|cs| - 1], clicked, StateForest(cs[..|cs| - 1], clicked, st))
  }

  lemma StateForestSnoc(cs: seq<Tree>, i: nat, clicked: bool, st: State)
    requires i < |cs| && forall j :: 0 <= j < |cs| ==> Stored(cs[j], st.objs.Keys)
    ensures StateForest(cs[..i + 1], clicked, st) == StateTree(cs[i], clicked, StateForest(cs[..i], clicked, st))
  {
    assert cs[..i + 1][..i] == cs[..i];
  }

  /** `update_state(mouse_but)` on the heap. */
  method UpdateState(t: Tree, buttons: seq<int>, ghost st: State)
    requires |buttons| >= 2
    requires Synced(st) && Wired(st) && Stored(t, st.objs.Keys)
    modifies st.objs.Keys, st.sigs.Keys
    ensures Synced(StateTree(t, Pressed(buttons), st))
    decreases t, 2
  {
    var o := t.obj;
    var image, shown := Inspect(o, st.objs);
    if !image {
      StateChildren(t.children, buttons, Pressed(buttons), st);
    } else {
      var clicked := Max(buttons) != 0;
      if shown {
        StateOne(o, clicked, st);
        OwnStateEffects(st, o, clicked);
        WiredKept(st, OwnState(st, o, clicked));
        StateChildren(t.children, buttons, clicked, OwnState(st, o, clicked));
      }
    }
  }

  /** The loop of `update_state` over the children. */
  method StateChildren(cs: seq<Tree>, buttons: seq<int>, ghost clicked: bool, ghost st: State)
    requires |buttons| >= 2 && clicked == Pressed(buttons)
    requires Synced(st) && Wired(st) && forall i :: 0 <= i < |cs| ==> Stored(cs[i], st.objs.Keys)
    modifies st.objs.Keys, st.sigs.Keys
    ensures Synced(StateForest(cs, clicked, st))
    decreases cs, 1
  {
    var i := 0;
    while i < |cs|
      invariant 0 <= i <= |cs|
      invariant Synced(StateForest(cs[..i], clicked, st))
    {
      StateChild(cs, i, buttons, clicked, st);
      i := i + 1;
    }
    assert cs[..i] == cs;
  }

  /** One pass of that loop: child `i` after the children before it. */
  method StateChild(cs: seq<Tree>, i: nat, buttons: seq<int>, ghost clicked: bool, ghost st: State)
    requires |buttons| >= 2 && clicked == Pressed(buttons) && i < |cs|
    requires Wired(st) && forall j :: 0 <= j < |cs| ==> Stored(cs[j], st.objs.Keys)
    requires Synced(StateForest(cs[..i], clicked, st))
    modifies st.objs.Keys, st.sigs.Keys
    ensures Synced(StateForest(cs[..i + 1], clicked, st))
    decreases cs, 0
  {
    StateForestSnoc(cs, i, clicked, st);
    ForestWired(cs[..i], clicked, st);
    UpdateState(cs[i], buttons, StateForest(cs[..i], clicked, st));
  }

  /** The image's own part of `update_state` with the record kept in step. */
  method StateOne(o: Obj, clicked: bool, ghost st: State)
    requires Synced(st) && Wired(st) && o in st.objs && o.kind.IsImage()
    modifies o, st.sigs.Keys
    ensures Synced(OwnState(st, o, clicked))
  {
    assert o.Snapshot() == st.objs[o];
    assert o.SignalSet() <= st.sigs.Keys by {
      forall sig | sig in o.SignalSet()
        ensures sig in st.sigs
      {
        var k :| 0 <= k < |o.signals| && o.signals[k] == sig;
      }
    }
    OwnStep(o, clicked, st.objs[o], st.sigs);
  }

  /** `update_state` on one image, against its recorded state `a`. */
  method OwnStep(o: Obj, clicked: bool, ghost a: Attrs, ghost sigs: SigStore)
    requires o.Snapshot() == a && o.kind.IsImage()
    requires SigsSynced(sigs) && o.SignalSet() <= sigs.Keys
    modifies o, o.SignalSet()
    ensures o.Snapshot() == WithState(a, NextUiState(a.look.state, a.look.focused, clicked).0)
    ensures SigsSynced(Clicks(a, clicked, sigs))
  {
    o.UpdateOwnState(clicked);
  }

  /** `x` and `y` record the same objects, equal but for the fields
      `set_state` writes, and an INACTIVE object is left exactly as it was. */
  predicate OnlyStates(x: Store, y: Store)
  {
    x.Keys == y.Keys &&
    forall o :: o in x ==>
      Unstated(x[o]) == Unstated(y[o]) && (x[o].look.state == Inactive ==> y[o] == x[o])
  }

  /** A state with the fields `set_state` writes cleared. */
  function Unstated(a: Attrs): Attrs
  {
    a.(look := a.look.(state := Idle, force := false))
  }

  /** Every signal of `x` is in `y` as it was, or with its flag raised and
      nothing queued. */
  predicate OnlyRaised(x: SigStore, y: SigStore)
  {
    x.Keys == y.Keys &&
    forall s :: s in x ==> y[s] == x[s] || y[s] == x[s].(activated := true)
  }

  predicate Effects(x: State, y: State)
  {
    OnlyStates(x.objs, y.objs) && OnlyRaised(x.sigs, y.sigs)
  }

  /** `update_state` never changes which signals an object holds, so they
      all stay recorded. */
  lemma WiredKept(x: State, y: State)
    requires Wired(x) && Effects(x, y)
    ensures Wired(y)
  {
    forall o | o in y.objs
      ensures SignalsIn(y.objs[o].signals, y.sigs.Keys)
    {
      assert Unstated(x.objs[o]).signals == Unstated(y.objs[o]).signals;
    }
  }

  lemma ForestWired(cs: seq<Tree>, clicked: bool, st: State)
    requires Wired(st) && forall i :: 0 <= i < |cs| ==> Stored(cs[i], st.objs.Keys)
    ensures Wired(StateForest(cs, clicked, st))
  {
    StateForestEffects(cs, clicked, st);
    WiredKept(st, StateForest(cs, clicked, st));
  }

  lemma EffectsTrans(x: State, y: State, z: State)
    requires Effects(x, y) && Effects(y, z)
    ensures Effects(x, z)
  {
  }

  lemma OwnStateEffects(st: State, o: Obj, clicked: bool)
    requires o in st.objs
    ensures Effects(st, OwnState(st, o, clicked))
  {
    var a := st.objs[o];
    var s := NextUiState(a.look.state, a.look.focused, clicked).0;
    SetStateEffects(st.objs, o, s);
    ClicksRaise(a, clicked, st.sigs);
  }

  lemma SetStateEffects(objs: Store, o: Obj, s: UiState)
    requires o in objs
    requires objs[o].look.state == Inactive ==> s == Inactive
    ensures OnlyStates(objs, objs[o := WithState(objs[o], s)])
  {
    WithStateUnstated(objs[o], s);
    UpdateOnlyStates(objs, o, WithState(objs[o], s));
  }

  lemma WithStateUnstated(a: Attrs, s: UiState)
    ensures Unstated(WithState(a, s)) == Unstated(a)
    ensures a.look.state == Inactive && s == Inactive ==> WithState(a, s) == a
  {
  }

  lemma UpdateOnlyStates(objs: Store, o: Obj, b: Attrs)
    requires o in objs && Unstated(b) == Unstated(objs[o])
    requires objs[o].look.state == Inactive ==> b == objs[o]
    ensures OnlyStates(objs, objs[o := b])
  {
    assert objs[o := b].Keys == objs.Keys;
  }

  lemma ClicksRaise(a: Attrs, clicked: bool, sigs: SigStore)
    ensures OnlyRaised(sigs, Clicks(a, clicked, sigs))
  {
  }

  /** `update_state` changes nothing but states and `force` flags, never
      touches an INACTIVE object, and only raises signal flags without
      queueing a response. */
  lemma {:induction false} StateEffects(t: Tree, clicked: bool, st: State)
    requires Stored(t, st.objs.Keys)
    ensures Effects(st, StateTree(t, clicked, st))
    decreases t, 1
  {
    var a := st.objs[t.obj];
    if !a.kind.IsImage() {
      StateForestEffects(t.children, clicked, st);
    } else if a.look.display {
      var next := OwnState(st, t.obj, clicked);
      OwnStateEffects(st, t.obj, clicked);
      StateForestEffects(t.children, clicked, next);
      EffectsTrans(st, next, StateTree(t, clicked, st));
    }
  }

  lemma {:induction false} StateForestEffects(cs: seq<Tree>, clicked: bool, st: State)
    requires forall i :: 0 <= i < |cs| ==> Stored(cs[i], st.objs.Keys)
    ensures Effects(st, StateForest(cs, clicked, st))
    decreases cs, 0
  {
    if cs != [] {
      StateForestEffects(cs[..|cs| - 1], clicked, st);
      var mid := StateForest(cs[..|cs| - 1], clicked, st);
      StateEffects(cs[|cs| - 1], clicked, mid);
      EffectsTrans(st, mid, StateForest(cs, clicked, st));
    }
  }
}

=== FILE: server.dfy ===
/** The master server's request handler (`Client.handle` in
    test_server.py): a request line in, the datagram it answers with out.
    The socket, the logging and the server start-up are not modelled. */
module Server {
  import opened Wrappers
  import opened Text

  /** A `serverlist` entry: `(address, name, players, max players)`. */
  datatype Entry = Entry(addr: string, name: string, players: int, maxPlayers: int)

  /** `ServerData`: the listed servers and the three texts the master
      server hands out. */
  datatype ServerData = ServerData(serverlist: seq<Entry>, description: string, owner: string, motd: string)

  function Quoted(s: string): string
  {
    "\"" + s + "\""
  }

  /** The line of the `LIST` reply for one server. */
  function SrvLine(e: Entry): (line: string)
    ensures |line| > 4 && line[..4] == "SRV " && line[|line| - 1] == '\n'
  {
    "SRV " + Quoted(e.addr) + " " + Quoted(e.name) + " " + Decimal(e.players) + " " + Decimal(e.maxPlayers) + "\n"
  }

  /** The `LIST` reply: one line per server, in `serverlist` order. */
  function ListReply(servers: seq<Entry>): (reply: string)
    ensures reply == "" <==> servers == []
    ensures servers != [] ==> reply[|reply| - 1] == '\n'
  {
    if servers == [] then ""
    else ListReply(servers[..|servers| - 1]) + SrvLine(servers[|servers| - 1])
  }

  /** The response to a request whose first word is `word`; the empty
      string for a word the server does not know. */
  function Response(word: string, data: ServerData): (response: string)
    ensures response != "" ==> word == "LIST" || word == "DESC" || word == "OWNER" || word == "MOTD"
    ensures word == "DESC" || word == "OWNER" || word == "MOTD" ==> response != ""
    ensures word == "LIST" ==> (response == "" <==> data.serverlist == [])
  {
    if word == "LIST" then ListReply(data.serverlist)
    else if word == "DESC" then "DESC " + Quoted(data.description)
    else if word == "OWNER" then "OWNER " + Quoted(data.owner)
    else if word == "MOTD" then "MOTD " + Quoted(data.motd)
    else ""
  }

  /** What `handle` sends back for `request`: the response if it is not
      empty, nothing otherwise; a request without a word fails at `r[0]`. */
  function Reply(request: string, data: ServerData): (r: Result<Option<string>>)
    ensures r.Raise? ==> r.error == IndexError
    ensures r.Ok? && r.value.Some? ==> r.value.value != ""
  {
    var r := Words(Strip(request));
    if r == [] then Raise(IndexError)
    else
      var response := Response(r[0], data);
      Ok(if response == "" then None else Some(response))
  }

  /** `Client.handle`, with the request given and the datagram returned. */
  method Handle(request: string, data: ServerData) returns (sent: Result<Option<string>>)
    ensures sent == Reply(request, data)
  {
    var r := Words(Strip(request));
    if |r| == 0 {
      return Raise(IndexError);
    }
    var response := "";
    if r[0] == "LIST" {
      var servers := data.serverlist;
      var i := 0;
      while i < |servers|
        invariant 0 <= i <= |servers|
        invariant response == ListReply(servers[..i])
      {
        assert servers[..i + 1][..i] == servers[..i];
        response := response + SrvLine(servers[i]);
        i := i + 1;
      }
      assert servers[..i] == servers;
    } else if r[0] == "DESC" {
      response := "DESC " + Quoted(data.description);
    } else if r[0] == "OWNER" {
      response := "OWNER " + Quoted(data.owner);
    } else if r[0] == "MOTD" {
      response := "MOTD " + Quoted(data.motd);
    }
    if response != "" {
      sent := Ok(Some(response));
    } else {
      sent := Ok(None);
    }
  }

  // ---------------------------------------------------------------------------
  // Properties
  // ---------------------------------------------------------------------------

  /** Only the first word of the request selects the reply. */
  lemma FirstWordDecides(a: string, b: string, data: ServerData)
    requires Words(a) != [] && Words(b) != [] && Words(a)[0] == Words(b)[0]
    ensures Reply(a, data) == Reply(b, data)
  {
    WordsStrip(a);
    WordsStrip(b);
  }

  /** A request with no word, empty or all whitespace, raises `IndexError`;
      any other request does not. */
  lemma NoWordRaises(request: string, data: ServerData)
    ensures Reply(request, data) == Raise(IndexError) <==>
      forall i :: 0 <= i < |request| ==> IsSpace(request[i])
  {
    WordsStrip(request);
    NoWordsAllSpace(request);
  }

  /** A request of one word, followed by whitespace or not, is answered
      with the response to that word. */
  lemma OneWordReply(w: string, c: char, data: ServerData)
    requires w != [] && NoSpace(w) && IsSpace(c)
    ensures var response := Response(w, data);
      Reply(w + [c], data) == Ok(if response == "" then None else Some(response))
  {
    WordsJoin([w]);
    WordsTrailingSpace(w, c);
    WordsStrip(w + [c]);
  }

  /** `DESC`, `OWNER` and `MOTD` are always answered, with the keyword and
      the field in double quotes. */
  lemma KeywordReplies(request: string, data: ServerData)
    requires Words(request) != []
    ensures var w := Words(request)[0];
      (w == "DESC" ==> Reply(request, data) == Ok(Some("DESC \"" + data.description + "\""))) &&
      (w == "OWNER" ==> Reply(request, data) == Ok(Some("OWNER \"" + data.owner + "\""))) &&
      (w == "MOTD" ==> Reply(request, data) == Ok(Some("MOTD \"" + data.motd + "\"")))
  {
    WordsStrip(request);
    assert "DESC " + Quoted(data.description) == "DESC \"" + data.description + "\"";
    assert "OWNER " + Quoted(data.owner) == "OWNER \"" + data.owner + "\"";
    assert "MOTD " + Quoted(data.motd) == "MOTD \"" + data.motd + "\"";
  }

  /** An unknown first word (matching is exact and case-sensitive) and a
      `LIST` with no server listed are not answered. */
  lemma SilentReplies(request: string, data: ServerData)
    requires Words(request) != []
    ensures var w := Words(request)[0];
      (w !in {"LIST", "DESC", "OWNER", "MOTD"} ==> Reply(request, data) == Ok(None)) &&
      (w == "LIST" ==> (Reply(request, data) == Ok(None) <==> data.serverlist == []))
  {
    WordsStrip(request);
    var w := Words(request)[0];
    if w == "LIST" && data.serverlist != [] {
      var sl := data.serverlist;
      assert ListReply(sl) == ListReply(sl[..|sl| - 1]) + SrvLine(sl[|sl| - 1]);
    }
  }

  /** With no line break in the addresses and names, the `LIST` reply has
      exactly one line per listed server. */
  lemma {:induction false} ListReplyLines(servers: seq<Entry>)
    requires forall k :: 0 <= k < |servers| ==> '\n' !in servers[k].addr && '\n' !in servers[k].name
    ensures multiset(ListReply(servers))['\n'] == |servers|
  {
    if servers != [] {
      var e := servers[|servers| - 1];
      ListReplyLines(servers[..|servers| - 1]);
      SrvLineBreaks(e);
    }
  }

  /** A server's line has one line break, at its end. */
  lemma SrvLineBreaks(e: Entry)
    requires '\n' !in e.addr && '\n' !in e.name
    ensures multiset(SrvLine(e))['\n'] == 1
  {
    var p, m := Decimal(e.players), Decimal(e.maxPlayers);
    NoSpaceNoBreak(p);
    NoSpaceNoBreak(m);
    var qa, qn := Quoted(e.addr), Quoted(e.name);
    QuotedBreaks(e.addr);
    QuotedBreaks(e.name);
    var s1 := "SRV " + qa + " ";
    Breaks("SRV " + qa, " ");
    Breaks("SRV ", qa);
    var s2 := s1 + qn + " ";
    Breaks(s1 + qn, " ");
    Breaks(s1, qn);
    var s3 := s2 + p + " ";
    Breaks(s2 + p, " ");
    Breaks(s2, p);
    Breaks(s3 + m, "\n");
    Breaks(s3, m);
  }

  lemma Breaks(a: string, b: string)
    ensures multiset(a + b)['\n'] == multiset(a)['\n'] + multiset(b)['\n']
  {
  }

  lemma NoSpaceNoBreak(s: string)
    requires NoSpace(s)
    ensures multiset(s)['\n'] == 0
  {
    assert !IsSpace('\n') ==> '\n' !in s;
  }

  lemma QuotedBreaks(s: string)
    ensures multiset(Quoted(s))['\n'] == multiset(s)['\n']
  {
    Breaks("\"" + s, "\"");
    Breaks("\"", s);
  }

  /** A client that splits a `LIST` line on whitespace gets the keyword and
      the four fields back, the numbers as their decimal strings, when the
      address and the name hold no whitespace. */
  lemma SrvLineWords(e: Entry)
    requires NoSpace(e.addr) && NoSpace(e.name)
    ensures Words(SrvLine(e)) == ["SRV", Quoted(e.addr), Quoted(e.name), Decimal(e.players), Decimal(e.maxPlayers)]
    ensures DecimalValue(Words(SrvLine(e))[3]) == e.players && DecimalValue(Words(SrvLine(e))[4]) == e.maxPlayers
  {
    var ws := ["SRV", Quoted(e.addr), Quoted(e.name), Decimal(e.players), Decimal(e.maxPlayers)];
    assert NoSpace(Quoted(e.addr)) by {
      forall i | 0 <= i < |Quoted(e.addr)| ensures !IsSpace(Quoted(e.addr)[i]) {
        if 0 < i < |Quoted(e.addr)| - 1 {
          assert Quoted(e.addr)[i] == e.addr[i - 1];
        }
      }
    }
    assert NoSpace(Quoted(e.name)) by {
      forall i | 0 <= i < |Quoted(e.name)| ensures !IsSpace(Quoted(e.name)[i]) {
        if 0 < i < |Quoted(e.name)| - 1 {
          assert Quoted(e.name)[i] == e.name[i - 1];
        }
      }
    }
    assert Join(ws[3..], " ") == Decimal(e.players) + " " + Decimal(e.maxPlayers);
    assert Join(ws[2..], " ") == Quoted(e.name) + " " + Join(ws[3..], " ");
    assert Join(ws[1..], " ") == Quoted(e.addr) + " " + Join(ws[2..], " ");
    assert Join(ws, " ") + "\n" == SrvLine(e);
    WordsJoin(ws);
    WordsTrailingSpace(Join(ws, " "), '\n');
    DecimalRoundTrip(e.players);
    DecimalRoundTrip(e.maxPlayers);
  }
}

=== FILE: signals.dfy ===
/** Deferred event queues (`Signal` in fxplib.py).
    Callbacks are not run: a registered callback is a `FnId` with its bound
    `data`, and executing a signal yields the ordered list of invocations
    `func(obj, response, data)` it would perform. */
module Signals {
  import opened Vectors

  /** Identifies a user callback (or a user force generator). */
  type FnId = nat

  /** The Python values that travel through signals as responses or data. */
  datatype Value =
    | NoneValue
    | BoolValue(b: bool)
    | IntValue(i: int)
    | StrValue(s: string)
    | Collision(obj: object, obstacle: object, push: Vector)   // the `collide` tuple

  /** Python truthiness of a response; a tuple of three items is always true. */
  predicate Truthy(v: Value) {
    match v
    case NoneValue => false
    case BoolValue(b) => b
    case IntValue(i) => i != 0
    case StrValue(s) => s != ""
    case Collision(_, _, _) => true
  }

  /** An entry of `functions`: the pair `(function, data)`. */
  datatype Callback = Callback(fn: FnId, data: Value)

  /** One invocation `fn(owner, response, data)`. */
  datatype Call = Call(fn: FnId, owner: object, response: Value, data: Value)

  /** The abstract state of a signal. */
  datatype SignalState = SignalState(functions: seq<Callback>, responses: seq<Value>, activated: bool)

  /** `play(response)`: every callback once, in registration order. */
  function Play(fs: seq<Callback>, owner: object, r: Value): (calls: seq<Call>)
    ensures |calls| == |fs|
    ensures forall j :: 0 <= j < |fs| ==> calls[j] == Call(fs[j].fn, owner, r, fs[j].data)
  {
    if fs == [] then []
    else Play(fs[..|fs| - 1], owner, r) + [Call(fs[|fs| - 1].fn, owner, r, fs[|fs| - 1].data)]
  }

  /** `play(response)` for each queued response in order. */
  function PlayAll(fs: seq<Callback>, rs: seq<Value>, owner: object): seq<Call>
  {
    if rs == [] then [] else PlayAll(fs, rs[..|rs| - 1], owner) + Play(fs, owner, rs[|rs| - 1])
  }

  /** The invocations that `execute` performs on an activated signal. */
  function Dispatch(st: SignalState, owner: object): (calls: seq<Call>)
    ensures |calls| == |st.functions| * (if st.responses == [] then 1 else |st.responses|)
    ensures forall c :: c in calls ==> c.owner == owner
  {
    if st.responses == [] then Play(st.functions, owner, NoneValue)
    else
      PlayAllLength(st.functions, st.responses, owner);
      PlayAllOwner(st.functions, st.responses, owner);
      PlayAll(st.functions, st.responses, owner)
  }

  /** The invocations that `execute` performs in any state. */
  function Executed(st: SignalState, owner: object): (calls: seq<Call>)
    ensures calls == [] <== !st.activated || st.functions == []
    ensures forall c :: c in calls ==> c.owner == owner
  {
    if st.activated then Dispatch(st, owner) else []
  }

  /** The state that `execute` leaves behind. */
  function AfterExecute(st: SignalState): SignalState
  {
    if st.activated then SignalState(st.functions, [], false) else st
  }

  /** The state that `activate(b, r)` leaves behind. */
  function Activated(st: SignalState, b: bool, r: Value): SignalState
  {
    SignalState(st.functions, if Truthy(r) then st.responses + [r] else st.responses, b)
  }

  /** The responses of `rs` that `activate` keeps, in order. */
  function KeptResponses(rs: seq<Value>): (kept: seq<Value>)
    ensures forall v :: v in kept ==> Truthy(v) && v in rs
  {
    if rs == [] then []
    else KeptResponses(rs[..|rs| - 1]) + (if Truthy(rs[|rs| - 1]) then [rs[|rs| - 1]] else [])
  }

  /** Successive `activate(True, r)` calls for each `r` of `rs`. */
  function ActivateAll(st: SignalState, rs: seq<Value>): SignalState
  {
    if rs == [] then st else Activated(ActivateAll(st, rs[..|rs| - 1]), true, rs[|rs| - 1])
  }

  class Signal {
    const name: string
    var functions: seq<Callback>
    var responses: seq<Value>
    var activated: bool

    function State(): SignalState
      reads this
    {
      SignalState(functions, responses, activated)
    }

    constructor (name: string)
      ensures this.name == name
      ensures State() == SignalState([], [], false)
    {
      this.name := name;
      functions := [];
      responses := [];
      activated := false;
    }

    /** `activate(boolean, response)`: sets the flag, queues only truthy responses. */
    method Activate(b: bool, r: Value)
      modifies this
      ensures State() == Activated(old(State()), b, r)
      ensures activated == b
      ensures Truthy(r) ==> responses == old(responses) + [r]
      ensures !Truthy(r) ==> responses == old(responses)
    {
      activated := b;
      if Truthy(r) {
        responses := responses + [r];
      }
    }

    /** `add_function(function, data)`: appends a callback. */
    method AddFunction(fn: FnId, data: Value)
      modifies this
      ensures functions == old(functions) + [Callback(fn, data)]
      ensures responses == old(responses) && activated == old(activated)
    {
      functions := functions + [Callback(fn, data)];
    }

    /** `execute(obj)`: replays the callbacks once per queued response (or once
        with `None`), then clears the queue and the flag; an inactive signal
        does nothing. */
    method Execute(owner: object) returns (calls: seq<Call>)
      modifies this
      ensures calls == Executed(old(State()), owner)
      ensures State() == AfterExecute(old(State()))
    {
      calls := [];
      if activated {
        if responses != [] {
          var i := 0;
          while i < |responses|
            invariant 0 <= i <= |responses|
            invariant calls == PlayAll(functions, responses[..i], owner)
          {
            assert responses[..i + 1][..i] == responses[..i];
            var j := 0;
            var before := calls;
            while j < |functions|
              invariant 0 <= j <= |functions|
              invariant calls == before + Play(functions[..j], owner, responses[i])
            {
              assert functions[..j + 1][..j] == functions[..j];
              calls := calls + [Call(functions[j].fn, owner, responses[i], functions[j].data)];
              j := j + 1;
            }
            assert functions[..j] == functions;
            i := i + 1;
          }
          assert responses[..i] == responses;
        } else {
          var j := 0;
          while j < |functions|
            invariant 0 <= j <= |functions|
            invariant calls == Play(functions[..j], owner, NoneValue)
          {
            assert functions[..j + 1][..j] == functions[..j];
            calls := calls + [Call(functions[j].fn, owner, NoneValue, functions[j].data)];
            j := j + 1;
          }
          assert functions[..j] == functions;
        }
        activated := false;
        responses := [];
      }
    }
  }

  /** The shape of a dispatch: responses outer, callbacks inner, both in order. */
  lemma {:induction false} PlayAllAt(fs: seq<Callback>, rs: seq<Value>, owner: object, i: nat, j: nat)
    requires i < |rs| && j < |fs|
    ensures |PlayAll(fs, rs, owner)| == |rs| * |fs|
    ensures i * |fs| + j < |rs| * |fs|
    ensures PlayAll(fs, rs, owner)[i * |fs| + j] == Call(fs[j].fn, owner, rs[i], fs[j].data)
  {
    var n, m := |rs| - 1, |fs|;
    var front := rs[..n];
    var k := i * m + j;
    PlayAllLength(fs, front, owner);
    PlayAllLength(fs, rs, owner);
    IndexInBlock(i, j, n, m);
    if i < n {
      PlayAllAt(fs, front, owner, i, j);
      assert front[i] == rs[i];
      assert PlayAll(fs, rs, owner)[k] == PlayAll(fs, front, owner)[k];
    } else {
      assert PlayAll(fs, rs, owner)[k] == Play(fs, owner, rs[n])[j];
    }
  }

  /** Position `j` of block `i` lies inside the first `i + 1` blocks of size `m`. */
  lemma IndexInBlock(i: nat, j: nat, n: nat, m: nat)
    requires i <= n && j < m
    ensures i * m + j < (n + 1) * m
    ensures i < n ==> i * m + j < n * m
    ensures i == n ==> i * m + j - n * m == j
  {
    assert (n + 1) * m == n * m + m;
    if i < n {
      assert (n - i) * m >= m by { MulAtLeast(n - i, m); }
      assert n * m == i * m + (n - i) * m;
    }
  }

  lemma MulAtLeast(a: nat, b: nat)
    requires a >= 1
    ensures a * b >= b
  {
  }

  lemma {:induction false} PlayAllLength(fs: seq<Callback>, rs: seq<Value>, owner: object)
    ensures |PlayAll(fs, rs, owner)| == |rs| * |fs|
  {
    if rs != [] {
      PlayAllLength(fs, rs[..|rs| - 1], owner);
      assert |PlayAll(fs, rs, owner)| == (|rs| - 1) * |fs| + |fs|;
    }
  }

  /** Every call of a dispatch goes to the signal's owner. */
  lemma {:induction false} PlayAllOwner(fs: seq<Callback>, rs: seq<Value>, owner: object)
    ensures forall c :: c in PlayAll(fs, rs, owner) ==> c.owner == owner
  {
    if rs != [] {
      PlayAllOwner(fs, rs[..|rs| - 1], owner);
    }
  }

  /** An activated signal makes `len(functions) * max(1, len(responses))` calls. */
  lemma DispatchCount(st: SignalState, owner: object)
    ensures st.activated ==> |Executed(st, owner)| == |st.functions| * (if st.responses == [] then 1 else |st.responses|)
    ensures !st.activated ==> Executed(st, owner) == []
  {
    if st.activated && st.responses != [] {
      PlayAllLength(st.functions, st.responses, owner);
    }
  }

  /** After `execute` the signal is idle: a second `execute` does nothing. */
  lemma ExecuteIdempotent(st: SignalState, owner: object)
    ensures !AfterExecute(st).activated
    ensures Executed(AfterExecute(st), owner) == []
    ensures AfterExecute(AfterExecute(st)) == AfterExecute(st)
  {
  }

  /** Emitting each of `rs` keeps the flag set, queues exactly the truthy
      responses in order, and never touches the callbacks. */
  lemma {:induction false} ActivateAllQueues(st: SignalState, rs: seq<Value>)
    ensures ActivateAll(st, rs).responses == st.responses + KeptResponses(rs)
    ensures ActivateAll(st, rs).functions == st.functions
    ensures rs != [] ==> ActivateAll(st, rs).activated
  {
    if rs != [] {
      ActivateAllQueues(st, rs[..|rs| - 1]);
    }
  }
}

=== FILE: text.dfy ===
/** The Python 2 string built-ins the protocol handlers use: `strip()`,
    `split()` with no separator, and `str()` of an int. */
module Text {

  /** The characters `split()` and `strip()` treat as whitespace. */
  predicate IsSpace(c: char)
  {
    c == ' ' || c == '\t' || c == '\n' || c == '\r' || c as int == 11 || c as int == 12
  }

  predicate NoSpace(s: string)
  {
    forall i :: 0 <= i < |s| ==> !IsSpace(s[i])
  }

  /** The length of the run of non-whitespace characters that starts `s`. */
  function WordLen(s: string): (n: nat)
    ensures n <= |s|
    ensures NoSpace(s[..n]) && (n < |s| ==> IsSpace(s[n]))
  {
    if s == [] || IsSpace(s[0]) then 0
    else
      var n := 1 + WordLen(s[1..]);
      assert s[..n] == [s[0]] + s[1..][..n - 1];
      n
  }

  /** `s.split()`: the maximal runs of non-whitespace characters, in order. */
  function Words(s: string): (ws: seq<string>)
    ensures forall k :: 0 <= k < |ws| ==> ws[k] != [] && NoSpace(ws[k])
    decreases |s|
  {
    if s == [] then []
    else if IsSpace(s[0]) then Words(s[1..])
    else
      var n := WordLen(s);
      [s[..n]] + Words(s[n..])
  }

  /** `sep.join(ws)`. */
  function Join(ws: seq<string>, sep: string): string
  {
    if ws == [] then ""
    else if |ws| == 1 then ws[0]
    else ws[0] + sep + Join(ws[1..], sep)
  }

  /** A string with no word has nothing but whitespace. */
  lemma {:induction false} NoWordsAllSpace(s: string)
    ensures Words(s) == [] <==> forall i :: 0 <= i < |s| ==> IsSpace(s[i])
    decreases |s|
  {
    if s != [] {
      if IsSpace(s[0]) {
        NoWordsAllSpace(s[1..]);
        if forall i :: 0 <= i < |s[1..]| ==> IsSpace(s[1..][i]) {
          forall i | 0 <= i < |s| ensures IsSpace(s[i]) {
            if i > 0 {
              assert s[i] == s[1..][i - 1];
            }
          }
        }
      }
    }
  }

  /** A word ends at the end of `w + rest` when `rest` starts with a space. */
  lemma WordLenJoin(w: string, rest: string)
    requires NoSpace(w) && (rest == [] || IsSpace(rest[0]))
    ensures WordLen(w + rest) == |w|
    decreases |w|
  {
    if w != [] {
      assert (w + rest)[1..] == w[1..] + rest;
      WordLenJoin(w[1..], rest);
    } else {
      assert w + rest == rest;
    }
  }

  /** Splitting words joined by single spaces gives the words back. */
  lemma {:induction false} WordsJoin(ws: seq<string>)
    requires forall k :: 0 <= k < |ws| ==> ws[k] != [] && NoSpace(ws[k])
    ensures Words(Join(ws, " ")) == ws
    decreases |ws|
  {
    if |ws| == 1 {
      WordLenJoin(ws[0], []);
      assert ws[0] + [] == ws[0];
      assert ws[0][|ws[0]|..] == [];
    } else if |ws| > 1 {
      var rest := " " + Join(ws[1..], " ");
      assert Join(ws, " ") == ws[0] + rest;
      WordLenJoin(ws[0], rest);
      var s := ws[0] + rest;
      assert s[..|ws[0]|] == ws[0];
      assert s[|ws[0]|..] == rest;
      assert rest[1..] == Join(ws[1..], " ");
      WordsJoin(ws[1..]);
    }
  }

  /** `s.strip()`: `s` without its leading and trailing whitespace. */
  function Strip(s: string): (r: string)
    ensures r == [] || (!IsSpace(r[0]) && !IsSpace(r[|r| - 1]))
    decreases |s|
  {
    if s == [] then []
    else if IsSpace(s[0]) then Strip(s[1..])
    else if IsSpace(s[|s| - 1]) then Strip(s[..|s| - 1])
    else s
  }

  /** Trailing whitespace adds no word. */
  lemma {:induction false} WordsTrailingSpace(s: string, c: char)
    requires IsSpace(c)
    ensures Words(s + [c]) == Words(s)
    decreases |s|
  {
    if s == [] {
      assert Words([c]) == Words([]);
    } else if IsSpace(s[0]) {
      assert (s + [c])[1..] == s[1..] + [c];
      WordsTrailingSpace(s[1..], c);
    } else {
      var n := WordLen(s);
      WordLenPrefix(s, [c]);
      assert (s + [c])[..n] == s[..n];
      assert (s + [c])[n..] == s[n..] + [c];
      WordsTrailingSpace(s[n..], c);
    }
  }

  /** Appending text after a word's end leaves that word's length alone. */
  lemma WordLenPrefix(s: string, tail: string)
    requires tail == [] || IsSpace(tail[0])
    ensures WordLen(s + tail) == WordLen(s)
    decreases |s|
  {
    if s == [] {
      assert s + tail == tail;
    } else if !IsSpace(s[0]) {
      assert (s + tail)[1..] == s[1..] + tail;
      WordLenPrefix(s[1..], tail);
    }
  }

  /** `strip()` before `split()` changes nothing. */
  lemma {:induction false} WordsStrip(s: string)
    ensures Words(Strip(s)) == Words(s)
    decreases |s|
  {
    if s != [] {
      if IsSpace(s[0]) {
        WordsStrip(s[1..]);
      } else if IsSpace(s[|s| - 1]) {
        WordsStrip(s[..|s| - 1]);
        assert s == s[..|s| - 1] + [s[|s| - 1]];
        WordsTrailingSpace(s[..|s| - 1], s[|s| - 1]);
      }
    }
  }

  // ---------------------------------------------------------------------------
  // str() of an int
  // ---------------------------------------------------------------------------

  predicate IsDigit(c: char)
  {
    '0' <= c <= '9'
  }

  /** The decimal digits of `n`, most significant first, without leading zeros. */
  function Digits(n: nat): (s: string)
    ensures s != [] && forall i :: 0 <= i < |s| ==> IsDigit(s[i])
  {
    if n < 10 then [(48 + n) as char]
    else Digits(n / 10) + [(48 + n % 10) as char]
  }

  /** `str(n)`. */
  function Decimal(n: int): (s: string)
    ensures NoSpace(s) && s != []
  {
    if n < 0 then "-" + Digits(-n) else Digits(n)
  }

  /** The value of a string of decimal digits. */
  function DigitsValue(s: string): nat
    requires forall i :: 0 <= i < |s| ==> IsDigit(s[i])
  {
    if s == [] then 0
    else
      assert IsDigit(s[|s| - 1]);
      10 * DigitsValue(s[..|s| - 1]) + (s[|s| - 1] as int - 48)
  }

  /** `int(str(n)) == n`. */
  function DecimalValue(s: string): int
    requires s != [] && (s[0] == '-' || IsDigit(s[0]))
    requires forall i :: 1 <= i < |s| ==> IsDigit(s[i])
  {
    if s[0] == '-' then -(DigitsValue(s[1..]) as int) else DigitsValue(s)
  }

  lemma {:induction false} DigitsRoundTrip(n: nat)
    ensures DigitsValue(Digits(n)) == n
  {
    if n >= 10 {
      DigitsRoundTrip(n / 10);
      var s := Digits(n);
      assert s[..|s| - 1] == Digits(n / 10);
    }
  }

  /** `str` of an int reads back as that int. */
  lemma DecimalRoundTrip(n: int)
    ensures var s := Decimal(n);
      (s[0] == '-' || IsDigit(s[0])) && (forall i :: 1 <= i < |s| ==> IsDigit(s[i])) &&
      DecimalValue(s) == n
  {
    if n < 0 {
      DigitsRoundTrip(-n);
      assert Decimal(n)[1..] == Digits(-n);
    } else {
      DigitsRoundTrip(n);
    }
  }
}

=== FILE: tilemap.dfy ===
/** `Map` (fxplib.py): a moving object drawn from a grid of tileset ids.
    The `MovingObject` part (position, forces, hitboxes) is an `Obj` of
    kind `MapObject`; the map adds the header of tileset names, the cells,
    the tilesets by name, the void name, the tile size and the size of the
    grid in cells. */
module TileMaps {
  import opened Wrappers
  import opened Containers
  import opened Objects
  import opened Tilesets
  import opened MapGrids
  import opened MapFiles
  import opened MapCollisions

  /** The `solid` flag of each tileset, under the name it is registered by. */
  function SolidOf(ts: seq<(string, Tileset)>): (r: seq<(string, bool)>)
    reads set k | 0 <= k < |ts| :: ts[k].1
    ensures |r| == |ts| && forall k :: 0 <= k < |ts| ==> r[k] == (ts[k].0, ts[k].1.solid)
  {
    if ts == [] then [] else [(ts[0].0, ts[0].1.solid)] + SolidOf(ts[1..])
  }

  class TileMap {
    const body: Obj
    var header: seq<string>
    var tiles: Grid
    /** `tilesets`: tileset name to tileset. */
    var tilesets: seq<(string, Tileset)>
    var voidName: string
    const tileSize: int
    var tilesW: int
    var tilesH: int

    /** The tileset objects of the map. */
    function Tilesets(): set<Tileset>
      reads this
    {
      set k | 0 <= k < |tilesets| :: tilesets[k].1
    }

    /** The attributes `load_from_file` writes. */
    function Data(): MapData
      reads this
    {
      MapData(header, tiles, tilesW, tilesH)
    }

    /** What `update_collisions` reads. */
    function View(): View
      reads this, Tilesets()
    {
      MapCollisions.View(tiles, header, voidName, SolidOf(tilesets), tileSize, tilesW, tilesH)
    }

    /** `Map(name, tile_size)`: an empty map. Given a file name, the Python
        constructor goes on with `load_from_file`, which is `LoadFromBytes`
        on the bytes of an ASCII file of at most 10 MiB. */
    constructor (name: string, tileSize: int)
      ensures fresh(body) && body.name == name && body.kind == MapObject
      ensures body.Snapshot() == Initial(MapObject).(signals := body.signals)
      ensures header == [] && tiles == [] && tilesets == [] && voidName == ""
      ensures this.tileSize == tileSize && tilesW == 0 && tilesH == 0
    {
      body := new Obj(name, MapObject);
      header := [];
      tiles := [];
      tilesets := [];
      voidName := "";
      this.tileSize := tileSize;
      tilesW := 0;
      tilesH := 0;
    }

    /** `load_from_file` once the file is read into the bytes `a`. */
    method LoadFromBytes(a: seq<Byte>) returns (err: Option<PyError>)
      modifies this
      ensures (Data(), err) == Load(old(Data()), a)
      ensures tilesets == old(tilesets) && voidName == old(voidName)
    {
      if |a| < 3 || a[..3] != Magic {
        return None;
      }
      if |a| == 3 {
        return Some(IndexError);
      }
      if a[3] != 0 {
        return None;
      }
      var names, i, e := ReadHeader(a);
      header := header + names;
      if e.Some? {
        return e;
      }
      err := LoadRest(a, i + 1);
    }

    /** The body part of `load_from_file`, from index `start`: the pairs,
        then the rows they expand to, then the size of the grid. */
    method LoadRest(a: seq<Byte>, start: nat) returns (err: Option<PyError>)
      requires start <= |a|
      modifies this
      ensures (Data(), err) == LoadBody(old(Data()), a[start..])
      ensures tilesets == old(tilesets) && voidName == old(voidName)
    {
      var ps, lone := ReadPairs(a, start);
      Uncompress(ps);
      if lone {
        return Some(ValueError);
      }
      tilesH := |tiles|;
      tilesW := Widest(tiles);
      return None;
    }

    /** The uncompress loop: one row to start with, then each pair in turn. */
    method Uncompress(ps: seq<Pair>)
      modifies this
      ensures tiles == old(tiles) + Expand(ps)
      ensures header == old(header) && tilesW == old(tilesW) && tilesH == old(tilesH)
      ensures tilesets == old(tilesets) && voidName == old(voidName)
    {
      tiles := tiles + [[]];
      var k := 0;
      while k < |ps|
        invariant 0 <= k <= |ps|
        invariant tiles == old(tiles) + Expand(ps[..k])
        invariant header == old(header) && tilesW == old(tilesW) && tilesH == old(tilesH)
        invariant tilesets == old(tilesets) && voidName == old(voidName)
      {
        var (n, id) := ps[k];
        assert ps[..k + 1][..k] == ps[..k];
        ApplyAfter(old(tiles), Expand(ps[..k]), ps[k]);
        if n == 0 {
          tiles := tiles + [[]];
        } else {
          var line := FillRow(tiles[|tiles| - 1], id, n);
          tiles := tiles[..|tiles| - 1] + [line];
        }
        k := k + 1;
      }
      assert ps[..k] == ps;
    }

    /** `set_tile(value, pos, rel)`: the cell at `pos + rel`, if it is in
        the grid. */
    method SetTile(value: int, x: int, y: int, dx: int := 0, dy: int := 0)
      modifies this
      ensures tiles == SetCell(old(tiles), x + dx, y + dy, value)
      ensures header == old(header) && tilesW == old(tilesW) && tilesH == old(tilesH)
      ensures tilesets == old(tilesets) && voidName == old(voidName)
    {
      var cx, cy := x + dx, y + dy;
      if cx >= 0 && cy >= 0 && cy < |tiles| && cx < |tiles[cy]| {
        tiles := tiles[cy := tiles[cy][cx := value]];
      }
    }

    /** `get_tile(pos, rel)`. */
    function GetTile(x: int, y: int, dx: int := 0, dy: int := 0): (id: int)
      reads this
      ensures id != 0 ==> 0 <= y + dy < |tiles| && 0 <= x + dx < |tiles[y + dy]| && id == tiles[y + dy][x + dx]
    {
      Cell(tiles, x + dx, y + dy)
    }

    /** `get_rule(pos)`. */
    function GetRule(x: int, y: int): (rule: bv8)
      reads this
      ensures rule == 0 <==> forall k :: 0 <= k < 8 ==> !MapGrids.Occupied(tiles, x, y, k)
    {
      MapGrids.Rule(tiles, x, y)
    }

    /** `set_void(name)`. */
    method SetVoid(name: string)
      modifies this
      ensures voidName == name
      ensures header == old(header) && tiles == old(tiles) && tilesW == old(tilesW) && tilesH == old(tilesH)
      ensures tilesets == old(tilesets)
    {
      voidName := name;
    }

    /** `add_tileset(tileset)`: registers it under its name, replacing a
        tileset of the same name. */
    method AddTileset(t: Tileset)
      modifies this
      ensures tilesets == Put(old(tilesets), t.name, t)
      ensures Get(tilesets, t.name) == Some(t)
      ensures UniqueKeys(old(tilesets)) ==> UniqueKeys(tilesets)
      ensures header == old(header) && tiles == old(tiles) && tilesW == old(tilesW) && tilesH == old(tilesH)
      ensures voidName == old(voidName)
    {
      PutGet(tilesets, t.name, t, t.name);
      tilesets := Put(tilesets, t.name, t);
    }

    /** `update_collisions()`: the cursor loop over the `tiles_w` by
        `tiles_h` cells, appending each new hitbox to the hitboxes of the
        map as it goes. */
    method UpdateCollisions() returns (err: Option<PyError>)
      requires tileSize > 0 && ZeroStops(View())
      modifies body
      ensures (body.kin.hitboxes, err) == Sweep(View(), old(body.kin.hitboxes), 0, 0)
      ensures body.Snapshot() == old(body.Snapshot()).(kin := old(body.kin).(hitboxes := body.kin.hitboxes))
    {
      var v := View();
      var tx, ty := 0, 0;
      while ty < tilesH
        invariant 0 <= tx
        invariant Sweep(v, old(body.kin.hitboxes), 0, 0) == Sweep(v, body.kin.hitboxes, tx, ty)
        invariant body.Snapshot() == old(body.Snapshot()).(kin := old(body.kin).(hitboxes := body.kin.hitboxes))
        decreases tilesH - ty, tilesW - tx
      {
        var next := VisitCell(v, body.kin.hitboxes, tx, ty);
        if next.Raise? {
          return Some(next.error);
        }
        body.kin := body.kin.(hitboxes := next.value);
        tx := tx + 1;
        if tx >= tilesW {
          tx := 0;
          ty := ty + 1;
        }
      }
      return None;
    }
  }

  /** A tileset rule whose flag and mask are the weight of one neighbour
      fits the rule of a cell exactly when that neighbour holds a tile. */
  lemma NeighbourRule(m: TileMap, x: int, y: int, k: nat, tile: (int, int))
    requires k < 8
    ensures Fits(Tilesets.Rule(tile, Weight(k), Weight(k)), m.GetRule(x, y)) <==> Occupied(m.tiles, x, y, k)
  {
    RuleBits(m.tiles, x, y, k);
    SingleBit(m.GetRule(x, y), k);
    SingleBit(Weight(k), k);
  }
}

=== FILE: tilesets.dfy ===
/** `Tileset` (fxplib.py): tile images cut from one picture, row by row,
    and the rules that pick a tile from the pattern of a cell's
    neighbours. Loading and cutting the picture is not modelled: the
    constructor takes the cut tiles and the number of tiles per row. */
module Tilesets {
  import opened Wrappers
  import opened Containers

  /** A tile image; only which tile it is matters here. */
  datatype Surface = Surface(id: int)

  /** A rule `(tile, flag, mask)`: `tile` is the `(x, y)` of a tile in the
      tileset, `flag` the neighbour pattern it is drawn for and `mask` the
      neighbours that pattern constrains. Flags are the 8-bit values
      `get_rule` of the map computes; masks are taken to 8 bits. */
  datatype Rule = Rule(tile: (int, int), flag: bv8, mask: bv8)

  /** The test of `get_tile_by_rule`: `rule_flag & rule_mask == flag & rule_mask`. */
  predicate Fits(r: Rule, flag: bv8)
  {
    r.flag & r.mask == flag & r.mask
  }

  /** The first rule, in iteration order, that fits `flag`. */
  function FirstFit(rules: seq<(string, Rule)>, flag: bv8): (r: Option<Rule>)
    ensures r.Some? ==> Fits(r.value, flag) && exists k :: 0 <= k < |rules| && rules[k].1 == r.value
    ensures r.None? <==> forall k :: 0 <= k < |rules| ==> !Fits(rules[k].1, flag)
  {
    if rules == [] then None
    else if Fits(rules[0].1, flag) then Some(rules[0].1)
    else
      var r := FirstFit(rules[1..], flag);
      assert forall k :: 1 <= k < |rules| ==> rules[k] == rules[1..][k - 1];
      r
  }

  /** A full mask fits exactly its own flag; an empty mask fits every flag. */
  lemma MaskExtremes(tile: (int, int), f: bv8, flag: bv8)
    ensures Fits(Rule(tile, f, 0xFF), flag) <==> flag == f
    ensures Fits(Rule(tile, f, 0), flag)
  {
  }

  class Tileset {
    var name: string
    var tiles: seq<Surface>
    var rules: seq<(string, Rule)>
    var w: int
    var solid: bool

    /** `Tileset(name, filename, size)` once the picture is cut: `w` tiles
        per row, no rule, not solid. */
    constructor (name: string, tiles: seq<Surface>, w: int)
      ensures this.name == name && this.tiles == tiles && this.w == w
      ensures rules == [] && !solid
    {
      this.name := name;
      this.tiles := tiles;
      this.w := w;
      rules := [];
      solid := false;
    }

    /** `add_rule(name, tile, flag, mask=0xFF)`: registers the rule, or
        replaces the one registered under `name`. */
    method AddRule(ruleName: string, tile: (int, int), flag: bv8, mask: bv8 := 0xFF)
      modifies this
      ensures rules == Put(old(rules), ruleName, Rule(tile, flag, mask))
      ensures UniqueKeys(old(rules)) ==> UniqueKeys(rules)
      ensures name == old(name) && tiles == old(tiles) && w == old(w) && solid == old(solid)
    {
      PutGet(rules, ruleName, Rule(tile, flag, mask), ruleName);
      rules := Put(rules, ruleName, Rule(tile, flag, mask));
    }

    /** `get_tile((x, y))`: the tile at index `y * w + x`, with Python's
        list indexing. */
    function GetTile(pos: (int, int)): (r: Result<Surface>)
      reads this
      ensures r.Ok? ==> r.value in tiles
      ensures r.Raise? ==> r.error == IndexError
    {
      PyIndex(tiles, pos.1 * w + pos.0)
    }

    /** `get_tile_by_rule(flag)`: the tile of the first rule that fits,
        otherwise the tile at `(0, 0)`. */
    function GetTileByRule(flag: bv8): (r: Result<Surface>)
      reads this
      ensures r.Ok? ==> r.value in tiles
      ensures r.Raise? ==> r.error == IndexError
      ensures tiles == [] ==> r.Raise?
    {
      match FirstFit(rules, flag)
        case Some(r) => GetTile(r.tile)
        case None => GetTile((0, 0))
    }
  }

  /** With `h` full rows of `w` tiles, each `(x, y)` of the grid names a
      tile of the list, the one cut at that column and row. */
  lemma TileAt(t: Tileset, h: nat, x: int, y: int)
    requires t.w > 0 && |t.tiles| == t.w * h
    requires 0 <= x < t.w && 0 <= y < h
    ensures 0 <= y * t.w + x < |t.tiles| && t.GetTile((x, y)) == Ok(t.tiles[y * t.w + x])
  {
    var w := t.w;
    assert y * w + x < (y + 1) * w;
    if y + 1 < h {
      MulGrows(y + 1, h, w);
    }
  }

  /** Different cells of the grid name different tiles. */
  lemma TilesDistinct(w: int, x: int, y: int, x': int, y': int)
    requires w > 0 && 0 <= x < w && 0 <= x' < w
    requires (x, y) != (x', y')
    ensures y * w + x != y' * w + x'
  {
    if y < y' {
      MulGrows(y + 1, y', w);
      assert (y + 1) * w == y * w + w;
    } else if y' < y {
      MulGrows(y' + 1, y, w);
      assert (y' + 1) * w == y' * w + w;
    }
  }

  lemma MulGrows(a: int, b: int, w: int)
    requires a <= b && w > 0
    ensures a * w <= b * w
  {
  }

  /** A negative `x` on the first row wraps to the end of the tile list,
      as a negative list index does. */
  lemma NegativeWraps(t: Tileset)
    requires |t.tiles| > 0
    ensures t.GetTile((-1, 0)) == Ok(t.tiles[|t.tiles| - 1])
  {
  }

  /** When no rule fits, the tile at `(0, 0)` is drawn; otherwise the tile
      of a rule that fits. */
  lemma RuleChoice(t: Tileset, flag: bv8)
    ensures (forall k :: 0 <= k < |t.rules| ==> !Fits(t.rules[k].1, flag)) ==>
      t.GetTileByRule(flag) == t.GetTile((0, 0))
    ensures (exists k :: 0 <= k < |t.rules| && Fits(t.rules[k].1, flag)) ==>
      exists k :: 0 <= k < |t.rules| && Fits(t.rules[k].1, flag) && t.GetTileByRule(flag) == t.GetTile(t.rules[k].1.tile)
  {
  }
}

=== FILE: vectors.dfy ===
/** Two-dimensional force/displacement values (`Vector` in fxplib.py).
    Components are exact reals; the polar form is not modelled. */
module Vectors {
  import opened Wrappers

  /** Threshold below which a sum component is snapped to zero. */
  const Epsilon: real := 0.0001

  datatype Vector = Vector(name: Option<string>, x: real, y: real, enable: bool)

  /** `Vector()`: the anonymous, enabled zero vector. */
  const Zero: Vector := Vector(None, 0.0, 0.0, true)

  /** A fresh anonymous enabled vector with the given components. */
  function Fresh(x: real, y: real): Vector {
    Vector(None, x, y, true)
  }

  predicate NearZero(v: real) {
    -Epsilon < v < Epsilon
  }

  /** A component after addition: exactly zero when strictly inside (-Epsilon, Epsilon). */
  function Snap(v: real): (r: real)
    ensures NearZero(v) ==> r == 0.0
    ensures !NearZero(v) ==> r == v
    ensures r == 0.0 || r <= -Epsilon || r >= Epsilon
  {
    if NearZero(v) then 0.0 else v
  }

  /** `a + b`: a fresh enabled vector whose components are snapped sums. */
  function Add(a: Vector, b: Vector): (r: Vector)
    ensures r.name == None && r.enable
    ensures NearZero(a.x + b.x) ==> r.x == 0.0
    ensures !NearZero(a.x + b.x) ==> r.x == a.x + b.x
    ensures NearZero(a.y + b.y) ==> r.y == 0.0
    ensures !NearZero(a.y + b.y) ==> r.y == a.y + b.y
  {
    Fresh(Snap(a.x + b.x), Snap(a.y + b.y))
  }

  /** `-v`: a fresh enabled vector with negated components, no snapping. */
  function Neg(v: Vector): (r: Vector)
    ensures r.name == None && r.enable
    ensures r.x + v.x == 0.0 && r.y + v.y == 0.0
  {
    Fresh(-v.x, -v.y)
  }

  /** `v * k`: a fresh enabled vector with scaled components, no snapping. */
  function Scale(v: Vector, k: real): (r: Vector)
    ensures r.name == None && r.enable
    ensures r.x == v.x * k && r.y == v.y * k
  {
    Fresh(v.x * k, v.y * k)
  }

  /** Addition is commutative. */
  lemma AddCommutative(a: Vector, b: Vector)
    ensures Add(a, b) == Add(b, a)
  {
  }

  /** `v + (-v)` is the zero vector. */
  lemma AddNegIsZero(v: Vector)
    ensures Add(v, Neg(v)) == Zero
  {
  }

  /** Adding the zero vector keeps the components, except that a component
      strictly inside the snapping band collapses to zero. */
  lemma AddZeroSnaps(v: Vector)
    ensures Add(v, Zero).x == Snap(v.x) && Add(v, Zero).y == Snap(v.y)
  {
  }

  /** The result of an addition is a fixed point of adding zero: snapping is idempotent. */
  lemma AddIdempotentSnap(a: Vector, b: Vector)
    ensures Add(Add(a, b), Zero) == Add(a, b)
  {
  }
}

=== FILE: wrappers.dfy ===
/** Option and Result types shared by the whole model.
    `Result` stands for a Python call that either returns a value or
    raises one of the built-in exceptions the modelled code can raise. */
module Wrappers {

  datatype Option<+T> = None | Some(value: T)

  /** The Python exceptions that the modelled code lets escape. */
  datatype PyError =
    | KeyError
    | IndexError
    | AttributeError
    | TypeError
    | ValueError
    | ZeroDivisionError
    /** `raw_input` at the end of its input. */
    | EOFError
    /** Not a Python exception: the ghost record of the heap that a pass
        keeps lacks an object or a signal that the step reads. */
    | Unrecorded

  datatype Result<+T> = Ok(value: T) | Raise(error: PyError)
  {
    predicate IsFailure() {
      Raise?
    }

    function PropagateFailure<U>(): Result<U>
      requires Raise?
    {
      Raise(error)
    }

    function Extract(): T
      requires Ok?
    {
      value
    }
  }
}
